=== FILE: README.md ===
# A Dafny model of the RPGTutorial monster-battle core

RPGTutorial is a Unity role-playing game in which the player walks between scenes, meets wild
creatures ("Pokémon") and trainers, and fights turn-based battles. This project models the rules
behind that game as pure Dafny functions and proves properties about them. It covers:

- **Creatures.** Stats derived from species and level, boost stages, HP, experience and level-ups,
  learned moves, evolution, the two status slots (persistent and volatile) with their hooks, and
  save data.
- **Species data.** Growth-rate curves and the 18×18 type-effectiveness chart.
- **The condition catalogue.** Poison, burn, sleep, paralysis, freeze and confusion, with what each
  does before a move and after a turn.
- **The party.** At most six creatures; first healthy member; evolution pass.
- **The name registries.** Species and items are keyed by name, and the first loaded entry wins.
- **Items.** TMs and Pokéballs on top of a stand-in for the item base class, and the decisions of
  the bag screen: navigation, the usability gate, TM teaching, the move-forget answer, scrolling.
- **The battle system.**
  - Turn order, the hit check, move effects and secondary effects, after-turn damage.
  - Fainting, experience and the level-up loop.
  - Escaping, catching, the menus and battle set-up.
  - The prompts that pause a turn until the player answers.
- **Scene streaming.** Entering a scene loads it and its neighbours and unloads what is no longer
  next to the player.

Randomness enters as explicit draw parameters: one per `Random.Range` call site, each with the
range the source draws from. Player input during a pause enters as a sequence of answers. Float
quantities the source computes exactly are modelled as `real`; the rest are parameters (see
"Left out"). C#'s truncating `/` and `%` are written out in `Mathf.CsDiv` and `Mathf.CsRem`.

A battle coroutine is modelled as a function that returns a `Step`: the battle, whether the
coroutine is still running, and the answers it has not consumed. A coroutine stops running when:

- the source would throw, for example on a null move or a division by zero;
- it waits for an answer that never comes;
- the battle object has been deactivated.

`GameController.EndBattle` (`Assets/Scripts/GameController.cs:120-135`) deactivates the battle
object at line 130 as soon as a battle ends. Unity then no longer resumes the coroutines running on that
object, and a `StartCoroutine` on an inactive object does not start. So `BattleSystem.OtherTurn`
stops after a player action that ended the battle (a successful escape). For the same reason,
`BattleSystem.OnItemUsed` stops after a successful catch. Read purely as C#, lines 242-245 of
`RunTurns` still give the enemy its move after an escape, and `OnItemUsed` starts `RunTurns`
after a catch, which resets the state to RunningTurn and lets the caught creature move. Those
readings are `BattleSystem.OtherTurnIgnoringDeactivation` and
`BattleSystem.OnItemUsedIgnoringDeactivation`. `BattleSystem.DeactivationOnlyCutsEndedTurns`
and `BattleSystem.DeactivationOnlyCutsCatches` prove that the two readings differ only on turns
whose player action has already ended the battle.

Some behaviour of the source is modelled as written, even where it looks accidental:

- The Evasion stage used by the hit check is the attacker's own (`BattleSystem.cs:363-364`).
- The move menu refuses a move with exactly 0 PP only, so a negative PP passes
  (`BattleSystem.cs:626`).
- `LearnMove` appends unless the creature has MORE than four moves (`Pokemon.cs:202`).
- The MediumSlow curve uses the integer `6 / 5`, which is 1 (`PokemonBase.cs:49-52`).
- On the Fluctuating curve, `GetExpForLevel` answers -1 from level 100 on (`PokemonBase.cs:72`).
  A Fluctuating creature at level 99 or above therefore levels up on every pass of the
  `while (CheckForLevelUp())` loop, and the loop never ends. `BattleSystem.LevelUps` proves that a
  stuck creature uses every pass of its fuel.

## Model

| member | source | states |
|---|---|---|
| Mathf.Clamp | Assets/Scripts/Inventory/UI/InventoryUI.cs:268 | With min <= max the result lies in [min, max]. A value already in range is returned unchanged; below the range gives min, above it gives max. |
| Mathf.CsDiv | Assets/Scripts/Pokemons/PokemonBase.cs:39-73 | C#'s integer division truncates toward zero. The quotient's magnitude is the magnitude quotient, its sign is the product of the operands' signs, and it agrees with floor division for a non-negative dividend and a positive divisor. |
| Mathf.CsDivBounds | Assets/Scripts/Battle/BattleSystem.cs:889 | The truncated quotient never overshoots: abs(q*b) <= abs(a) < abs(q*b) + abs(b). |
| Mathf.CsRem | Assets/Scripts/Battle/BattleSystem.cs:890 | C#'s `%` completes the truncated division: a == q*m + r. The remainder is smaller than the divisor in magnitude, is zero or has the dividend's sign, and agrees with `%` for non-negative operands. |
| PokemonBase.ExpCurveFormulas | Assets/Scripts/Pokemons/PokemonBase.cs:39-73 | For non-negative levels each growth-rate branch equals its closed formula with floor division (Fast 4n³/5, MediumFast n³, MediumSlow with 6/5 = 1, Slow 5n³/4, and the three Fluctuating pieces). |
| PokemonBase.MediumFastStrictlyIncreasing | Assets/Scripts/Pokemons/PokemonBase.cs:45-48 | On the MediumFast curve a higher non-negative level needs strictly more experience. |
| PokemonBase.MediumSlowStep | Assets/Scripts/Pokemons/PokemonBase.cs:49-52 | The MediumSlow curve, as written with 6/5 = 1, still strictly increases from every level n >= 0 to n + 1. |
| PokemonBase.FluctuatingUndefinedFromHundred | Assets/Scripts/Pokemons/PokemonBase.cs:57-72 | From level 100 on, the Fluctuating curve falls through to the -1 fallback. |
| PokemonBase.GetEffectiveness | Assets/Scripts/Pokemons/PokemonBase.cs:268-277 | The factor is 1 when either type is None. Otherwise it is the chart entry at row attack-1 and column defense-1. It is always one of 0, 0.5, 1 or 2. |
| PokemonBase.EffectivenessProductValues | Assets/Scripts/Pokemons/PokemonBase.cs:245-277 | The two-type multiplier used for damage is one of 0, 1/4, 1/2, 1, 2 or 4. |
| PokemonBase.ChartImmunities | Assets/Scripts/Pokemons/PokemonBase.cs:245-266 | The chart makes Normal→Ghost, Electric→Ground, Ground→Flying and Ghost→Normal immune (factor 0). |
| ConditionsDB.Declared | Assets/Scripts/Data/ConditionsDB.cs:19-135 | The dictionary declares exactly the six conditions psn, brn, slp, par, frz and confusion. |
| ConditionsDB.Init | Assets/Scripts/Data/ConditionsDB.cs:8-17 | Every entry's id becomes its own key. The keys, names and start messages are unchanged. |
| ConditionsDB.GetStatusBonus | Assets/Scripts/Data/ConditionsDB.cs:137-147 | The catch bonus is 1 with no status, 2 for sleep or freeze, 1.5 for paralysis, poison or burn, and 1 otherwise. |
| ConditionsDB.CatalogueIsTotal | Assets/Scripts/Data/ConditionsDB.cs:8-17 | After Init, every condition id has an entry whose id is itself. |
| StatusConditions.OnStart | Assets/Scripts/Data/ConditionsDB.cs:47-112 | Sleep sets StatusTime to its draw and confusion sets VolatileStatusTime to its draw. The other conditions change nothing. |
| StatusConditions.SetStatus | Assets/Scripts/Pokemons/Pokemon.cs:294-302 | The call is ignored while a persistent status is present. Otherwise the status is set, the condition's start hook runs, and its start message is queued. Nothing but the status bookkeeping changes. |
| StatusConditions.SetVolatileStatus | Assets/Scripts/Pokemons/Pokemon.cs:310-317 | The same as SetStatus, on the volatile slot. |
| StatusConditions.CureStatus | Assets/Scripts/Pokemons/Pokemon.cs:304-308 | The persistent slot is emptied and everything else is kept, including the timer. |
| StatusConditions.CureVolatileStatus | Assets/Scripts/Pokemons/Pokemon.cs:319-322 | The volatile slot is emptied and everything else is kept. |
| StatusConditions.BeforeMoveHook | Assets/Scripts/Data/ConditionsDB.cs:43-135 | The before-move hook of each condition: poison and burn allow the move; sleep blocks until its timer runs out, then wakes; paralysis blocks on a 1-in-4 draw and stays; freeze thaws and allows on a 1-in-4 draw; confusion either wears off or hurts itself on a 1-in-2 draw. HP stays in range. |
| StatusConditions.OnBeforeMove | Assets/Scripts/Pokemons/Pokemon.cs:332-348 | The persistent slot's hook runs first, then the volatile slot's hook on the result. Both must allow the move, and a creature with no status may always move. |
| StatusConditions.AfterTurnHook | Assets/Scripts/Data/ConditionsDB.cs:21-42 | Poison costs MaxHp/8 and burn costs MaxHp/16 (truncating), through DecreaseHP. The other conditions do nothing. HP never rises. |
| StatusConditions.OnAfterTurn | Assets/Scripts/Pokemons/Pokemon.cs:350-354 | Both slots' after-turn hooks run. Only HP and messages change, HP stays within [0, MaxHp] and never rises, and a creature with no status is unchanged. |
| StatusConditions.SleepLastsItsTimer | Assets/Scripts/Data/ConditionsDB.cs:52-64 | A sleeper with t turns on its timer is refused exactly t moves and then wakes on check t+1. |
| StatusConditions.SleepAfterSetStatus | Assets/Scripts/Data/ConditionsDB.cs:43-64 | Putting a creature to sleep keeps it from moving for its drawn 1 to 3 turns, after which it wakes. |
| StatusConditions.ConfusionLastsItsTimer | Assets/Scripts/Data/ConditionsDB.cs:104-135 | A creature confused for t turns moves on each of the t checks exactly when its 1-in-2 draw succeeds. It snaps out of confusion and moves on check t+1. |
| StatusConditions.ParalysisPersists | Assets/Scripts/Data/ConditionsDB.cs:68-83 | Paralysis never wears off by itself. Each check refuses the move exactly when the 1-in-4 draw hits. |
| Pokemon.CalculatedStat | Assets/Scripts/Pokemons/Pokemon.cs:125-135 | The stat is floor(base*level/100) + 5, stated as bounds on 100*(r-5). |
| Pokemon.CalculatedMaxHp | Assets/Scripts/Pokemons/Pokemon.cs:134 | MaxHp is floor(base*level/100) + 10 + level, stated as bounds. |
| Pokemon.CalculateStats | Assets/Scripts/Pokemons/Pokemon.cs:125-135 | The stats and MaxHp become the ones derived from species and level. Nothing else changes. |
| Pokemon.GetStat | Assets/Scripts/Pokemons/Pokemon.cs:151-166 | The integer formula equals the source's float formula: floor(v * boost) for a raised stage and floor(v / boost) for a lowered one. A stat of at least 5 stays at least 1. |
| Pokemon.StageMultiplierExact | Assets/Scripts/Pokemons/Pokemon.cs:158-163 | The table entry 1 + k/2 makes floor(v * entry) == (v*(2+k))/2 and floor(v / entry) == (2v)/(2+k), exactly. |
| Pokemon.ApplyBoost | Assets/Scripts/Pokemons/Pokemon.cs:172-180 | One entry adds the delta to its stage and clamps it to [-6, 6]. Every other stage is untouched, and one message is queued. |
| Pokemon.ApplyBoosts | Assets/Scripts/Pokemons/Pokemon.cs:168-182 | One message is appended per entry, after the existing queue. Nothing but the stages and the queue changes. |
| Pokemon.ApplyBoostsMessages | Assets/Scripts/Pokemons/Pokemon.cs:177-180 | The i-th appended message reports the i-th entry, with "rose" exactly when its delta is positive. |
| Pokemon.ApplyBoostsStages | Assets/Scripts/Pokemons/Pokemon.cs:168-182 | Stages of stats the list never names are untouched. Every named stage ends in [-6, 6], and a table that was in range stays in range. |
| Pokemon.ApplyBoostsConcat | Assets/Scripts/Pokemons/Pokemon.cs:168-182 | Applying two lists in turn equals applying their concatenation. |
| Pokemon.DecreaseHP | Assets/Scripts/Pokemons/Pokemon.cs:282-286 | HP minus the damage, clamped to [0, MaxHp]. It never rises for non-negative damage and bottoms out at 0. Nothing else changes. |
| Pokemon.IncreaseHP | Assets/Scripts/Pokemons/Pokemon.cs:288-292 | HP plus the amount, clamped to [0, MaxHp]. It never falls for a non-negative amount and caps at MaxHp. Nothing else changes. |
| Pokemon.CheckForLevelUp | Assets/Scripts/Pokemons/Pokemon.cs:184-193 | It answers true exactly when Exp is strictly above the next level's threshold. The level then rises by exactly one with stats recomputed; otherwise nothing changes. |
| Pokemon.LevelUpKeepsHpWithinMax | Assets/Scripts/Pokemons/Pokemon.cs:184-193 | Levelling up never lowers MaxHp for a non-negative base HP, so HP stays within [0, MaxHp]. |
| Pokemon.GetLearnableMoveAtCurrentLevel | Assets/Scripts/Pokemons/Pokemon.cs:195-198 | The result is the FIRST learnable move of exactly the current level: no earlier entry of the list has that level. None means no learnable move has that level. |
| Pokemon.LearnMove | Assets/Scripts/Pokemons/Pokemon.cs:200-206 | A fresh copy of the move is appended after the existing moves unless there are more than four. Nothing else changes. |
| Pokemon.HasMove | Assets/Scripts/Pokemons/Pokemon.cs:209-212 | True exactly when some learned move has this definition. |
| Pokemon.ReplaceMove | Assets/Scripts/Inventory/UI/InventoryUI.cs:330-354 | Choice 4 keeps the moves. Any other choice replaces exactly that slot with a fresh copy and keeps the count and every other slot. |
| Pokemon.CheckForEvolution | Assets/Scripts/Pokemons/Pokemon.cs:215-218 | The result is the FIRST evolution entry whose required level equals the current level: no earlier entry requires it. None means no entry has that level. |
| Pokemon.Evolve | Assets/Scripts/Pokemons/Pokemon.cs:221-225 | The species becomes the target with recalculated stats. Level, HP, Exp, moves, statuses and stages are kept. |
| Pokemon.MovesWithPP | Assets/Scripts/Pokemons/Pokemon.cs:326 | The result lists exactly the indices of moves with PP > 0, in increasing order. |
| Pokemon.GetRandomMove | Assets/Scripts/Pokemons/Pokemon.cs:324-330 | The chosen move is the draw-th move with PP in list order: it has PP > 0 and exactly `draw` moves with PP come before it. None (the source throws) happens exactly when no move has PP left. |
| Pokemon.MovesWithPPRank | Assets/Scripts/Pokemons/Pokemon.cs:326-329 | The draw-th move with PP is preceded by exactly draw moves with PP. |
| Pokemon.OnBattleOver | Assets/Scripts/Pokemons/Pokemon.cs:356-360 | The volatile status is cleared and all stages are reset to 0. The persistent status, HP and PP carry over. |
| Pokemon.SelectInitialMoves | Assets/Scripts/Pokemons/Pokemon.cs:63-72 | The loop over learnable moves keeps, in order, the first at most four moves at or below the level. |
| Pokemon.Init | Assets/Scripts/Pokemons/Pokemon.cs:61-85 | Init gives the initial moves (at most four), Exp at the level's threshold, consistent stats, full HP, empty queue and slots, and zero stages. |
| Pokemon.NewCreature | Assets/Scripts/Pokemons/Pokemon.cs:17-23 | A new creature of a species and level starts at full HP with consistent stats, no current move and zero timers. |
| Pokemon.GetSaveData | Assets/Scripts/Pokemons/Pokemon.cs:110-123 | Name, HP, level, Exp and status are recorded, and each move is saved in order. |
| Pokemon.FromSaveData | Assets/Scripts/Pokemons/Pokemon.cs:87-108 | Loading fails exactly for an unknown species name. Otherwise the recorded fields and the restored moves come back, and stats are recalculated. |
| Pokemon.SaveRoundTrip | Assets/Scripts/Pokemons/Pokemon.cs:87-123 | Saving then loading keeps species, HP, level, Exp, status and each move through its own round trip. The volatile status and stages come back reset. |
| Pokemon.SaveRoundTripMoves | Assets/Scripts/Pokemons/Pokemon.cs:87-123 | With moves that survive their own round trip, the move list comes back unchanged. |
| Pokemon.DamageInputs | Assets/Scripts/Pokemons/Pokemon.cs:254-280 | The type factor is the chart product against both defending types. A special move pairs SpAttack with SpDefense; any other move pairs Attack with Defense. |
| Pokemon.TakeDamage | Assets/Scripts/Pokemons/Pokemon.cs:254-280 | Damage goes through DecreaseHP: HP stays within [0, MaxHp] and never rises. Nothing but HP changes. |
| PokemonParty.Awake | Assets/Scripts/Pokemons/PokemonParty.cs:23-29 | Every member is initialised in place: full HP, fresh stats and no status. The order and the size are kept. |
| PokemonParty.GetHealthyPokemon | Assets/Scripts/Pokemons/PokemonParty.cs:36-39 | The result is the first member with HP > 0. None means every member has fainted. |
| PokemonParty.AddPokemon | Assets/Scripts/Pokemons/PokemonParty.cs:41-52 | The creature is appended exactly when the party has fewer than six members; otherwise it is dropped. |
| PokemonParty.AddPokemonKeepsCap | Assets/Scripts/Pokemons/PokemonParty.cs:41-52 | However many creatures are offered, a party of at most six never exceeds six. |
| PokemonParty.CheckForEvolutions | Assets/Scripts/Pokemons/PokemonParty.cs:54-67 | Exactly the members with an evolution entry at their level evolve. The others are unchanged. |
| NameRegistry.Build | Assets/Scripts/Data/PokemonDB.cs:9-22 | The keys are exactly the names of the loaded entries. |
| NameRegistry.BuildKeepsFirst | Assets/Scripts/Data/PokemonDB.cs:14-21 | Each name maps to the first entry carrying it, because later duplicates are skipped. |
| NameRegistry.BuildValuesAreFirsts | Assets/Scripts/Data/PokemonDB.cs:14-21 | Every stored value is the first entry with its name. |
| NameRegistry.Init | Assets/Scripts/Data/PokemonDB.cs:9-22 | The loop builds a fresh dictionary whose keys are exactly the loaded names. |
| NameRegistry.Lookup | Assets/Scripts/Data/PokemonDB.cs:24-32 | `GetPokemonByName`, and equally `GetItemByName` (ItemDB.cs:27-35), gives null (None) exactly for an absent name and the registered entry otherwise. |
| NameRegistry.LookupAfterInit | Assets/Scripts/Data/ItemDB.cs:10-35 | After Init, a lookup misses exactly the names no loaded entry carries. Otherwise it finds the first entry with that name. |
| PokemonDB.Init | Assets/Scripts/Data/PokemonDB.cs:9-22 | The species registry holds every loaded name, each mapped to the first species with it. |
| ItemDB.Init | Assets/Scripts/Data/ItemDB.cs:10-24 | The item registry holds every loaded item name, with TMs under their overridden name, each mapped to the first item with it. |
| Items.Item.Name | Assets/Scripts/Inventory/TmItem.cs:12 | A TM's name is its base name, " - " and the move's name. Other items keep the base name. |
| Items.Item.CanUseInBattle | Assets/Scripts/Inventory/TmItem.cs:25 | A TM can never be used in battle. Other items use the base default. |
| Items.Item.CanUseOutsideBattle | Assets/Scripts/Inventory/PokeballItem.cs:18 | A Pokéball can never be used outside battle. Other items use the base default. |
| Items.Item.IsReusable | Assets/Scripts/Inventory/TmItem.cs:27 | A TM is reusable exactly when it is an HM. |
| Items.Use | Assets/Scripts/Inventory/TmItem.cs:14-18 | A TM reports success exactly when the creature knows its move. A Pokéball always succeeds. |
| Items.CanBeTaught | Assets/Scripts/Inventory/TmItem.cs:20-23 | True exactly when the species lists the move among its item-learnable moves. |
| InventoryUI.WrapCategory | Assets/Scripts/Inventory/UI/InventoryUI.cs:92-96 | Past the last category wraps to 0 and below 0 wraps to the last, so one step lands in range. |
| InventoryUI.Navigate | Assets/Scripts/Inventory/UI/InventoryUI.cs:78-111 | Right and Left move through the categories cyclically, and a category change resets the selection to the first slot (-1 on an empty category). Up and Down move the selection within the slots and are clamped to the slot range. On an empty category the second clamp of UpdateItemSelection undoes the first, so a selection of -1 or 0 stays. |
| InventoryUI.NoKeySettles | Assets/Scripts/Inventory/UI/InventoryUI.cs:99-111 | A frame with no key leaves a selection that a second such frame does not change, on an empty category too. |
| InventoryUI.RightCyclesThroughCategories | Assets/Scripts/Inventory/UI/InventoryUI.cs:87-96 | Pressing Right once per category returns to the starting category. |
| InventoryUI.UpdateItemSelection | Assets/Scripts/Inventory/UI/InventoryUI.cs:263-286 | A selection still in range is kept. One past the end moves to the last slot. |
| InventoryUI.ItemSelected | Assets/Scripts/Inventory/UI/InventoryUI.cs:144-185 | An item is rejected exactly when it is unusable where the player is. A Pokéball is used at once; anything else opens the party screen, marking TMs. A TM is always rejected in battle. |
| InventoryUI.HandleTmItems | Assets/Scripts/Inventory/UI/InventoryUI.cs:211-249 | A TM whose move is known, or cannot be taught, leaves the creature alone. With fewer than four moves the move is appended; with four or more the move-to-forget prompt opens. Only the moves ever change. |
| InventoryUI.TmTeachingKeepsFourMoves | Assets/Scripts/Inventory/UI/InventoryUI.cs:211-249 | Teaching a TM never gives a creature that had at most four moves a fifth. |
| InventoryUI.OnMoveToForgetSelected | Assets/Scripts/Inventory/UI/InventoryUI.cs:330-354 | Choice 4 keeps the moves. Any other choice replaces exactly that slot with the new move. The screen returns to item selection. |
| InventoryUI.HandleScrolling | Assets/Scripts/Inventory/UI/InventoryUI.cs:288-302 | With at most four slots nothing changes. Otherwise the list scrolls so the selection stays in view, the up arrow shows past slot 4, and the down arrow shows while more than four slots follow. |
| InventoryUI.ScrollKeepsSelectionInView | Assets/Scripts/Inventory/UI/InventoryUI.cs:288-302 | In a list of more than four slots, the five rows after those scrolled past contain the selection and stay inside the list. The up arrow shows exactly when rows are scrolled past, and a step down scrolls by at most one row. |
| SceneDetails.LoadScene | Assets/Scripts/SceneManagement/SceneDetails.cs:45-59 | The scene ends loaded, an already loaded scene is a no-op, and no other scene changes. |
| SceneDetails.UnloadScene | Assets/Scripts/SceneManagement/SceneDetails.cs:61-70 | The scene ends unloaded, an unloaded scene is a no-op, and no other scene changes. |
| SceneDetails.LoadUnloadIdempotent | Assets/Scripts/SceneManagement/SceneDetails.cs:45-70 | Loading twice is loading once, and unloading twice is unloading once. |
| SceneDetails.LoadAll | Assets/Scripts/SceneManagement/SceneDetails.cs:23-27 | The load loop adds exactly the listed scenes. |
| SceneDetails.UnloadNeighbours | Assets/Scripts/SceneManagement/SceneDetails.cs:30-38 | The unload loop removes exactly the previous scene's neighbours that are neither connected to the entered scene nor the entered scene. |
| SceneDetails.OnTriggerEnter | Assets/Scripts/SceneManagement/SceneDetails.cs:15-43 | Only the player's collider acts. The entered scene and its neighbours end loaded, and it becomes current with the old current scene as previous. Only the previous scene and its neighbours may be unloaded, never the entered scene or its neighbours. |
| SceneDetails.OnTriggerEnterAsWritten | Assets/Scripts/SceneManagement/SceneDetails.cs:15-43 | As written, the previous scene is unloaded whenever it is not connected to the entered scene. |
| SceneDetails.AsWrittenAgreesExceptReentry | Assets/Scripts/SceneManagement/SceneDetails.cs:39-40 | The as-written trigger agrees with the guarded one on every entry except re-entering the current scene. |
| SceneDetails.ReentryUnloadsCurrentScene | Assets/Scripts/SceneManagement/SceneDetails.cs:39-40 | Re-entering the current scene unloads it as written, while the guarded version keeps it loaded. |
| SceneDetails.EnteredSceneStaysLoaded | Assets/Scripts/SceneManagement/SceneDetails.cs:15-43 | With the guard, the entered scene is always loaded afterwards. |
| BattleRules.PlayerGoesFirst | Assets/Scripts/Battle/BattleSystem.cs:193-198 | The enemy goes first exactly when its priority is higher, or equal with a strictly higher speed. |
| BattleRules.AccuracyStep | Assets/Scripts/Battle/BattleSystem.cs:368-371 | The accuracy-stage step multiplies by the stage's factor: (3+s)/3 raised, 3/(3-s) lowered. |
| BattleRules.EvasionStep | Assets/Scripts/Battle/BattleSystem.cs:373-376 | The evasion-stage step divides by the stage's factor. |
| BattleRules.ScaledAccuracyClosedForm | Assets/Scripts/Battle/BattleSystem.cs:356-379 | The computed accuracy equals accuracy × factor(acc) / factor(eva). |
| BattleRules.BoostIsFactor | Assets/Scripts/Battle/BattleSystem.cs:366 | The accuracy table {1, 4/3, …, 3} is the factor of stages 0 to 6. |
| BattleRules.StageFactorMonotone | Assets/Scripts/Battle/BattleSystem.cs:366-376 | A higher stage never has a lower factor. |
| BattleRules.CheckIfMoveHits | Assets/Scripts/Battle/BattleSystem.cs:356-379 | A move that always hits hits. Any other hits exactly when the draw is at most the stage-scaled accuracy. |
| BattleRules.HitRuleClosedForm | Assets/Scripts/Battle/BattleSystem.cs:356-379 | The move hits exactly when it always hits or draw <= accuracy × factor(acc) / factor(eva). |
| BattleRules.NeutralStagesHitIffDrawWithinAccuracy | Assets/Scripts/Battle/BattleSystem.cs:356-379 | With both stages at 0, the move hits exactly when the draw is at most its accuracy. An accuracy of 100 never misses. |
| BattleRules.ExpGain | Assets/Scripts/Battle/BattleSystem.cs:399-403 | The gain is floor(yield × level × bonus / 7), with a bonus of 1.5 in trainer battles and 1 otherwise, and is non-negative. |
| BattleRules.TrainerBonusNeverLowers | Assets/Scripts/Battle/BattleSystem.cs:401-403 | A trainer's creature is never worth less experience than the same wild creature. |
| BattleRules.LeadingBelow | Assets/Scripts/Battle/BattleSystem.cs:853-861 | The result counts the leading draws below b, up to four. The next draw, if any, is not below b. |
| BattleRules.CatchValue | Assets/Scripts/Battle/BattleSystem.cs:845 | a is the HP fraction (3 MaxHp - 2 HP)/(3 MaxHp) times catch rate, ball modifier and status bonus. At full HP it is a third of that product, at 0 HP the whole product. |
| BattleRules.HpFractionFalls | Assets/Scripts/Battle/BattleSystem.cs:845 | For HP within [0, MaxHp], the HP fraction lies in [1/3, 1] and falls as HP rises. |
| BattleRules.CatchValueFallsWithHp | Assets/Scripts/Battle/BattleSystem.cs:845 | For non-negative factors, less HP never lowers a, and a lies between a third of the product and the product. |
| BattleRules.ShakeCount | Assets/Scripts/Battle/BattleSystem.cs:842-862 | Four shakes (a catch) happen exactly when a >= 255 or all four draws are below b. |
| BattleRules.TryToCatchPokemon | Assets/Scripts/Battle/BattleSystem.cs:842-862 | The loop returns 4 when a >= 255, and the number of leading draws below b otherwise. |
| BattleRules.EscapeRoll | Assets/Scripts/Battle/BattleSystem.cs:875-903 | A faster player escapes on a quick draw of 8 or less. Otherwise an enemy speed of 0 divides by zero, and escape happens exactly when the roll is below (playerSpeed*128/enemySpeed + 30*attempts) % 256, with C# integer semantics. |
| BattleRules.EqualSpeedEscapeThreshold | Assets/Scripts/Battle/BattleSystem.cs:889-892 | Between creatures of equal speed (no quick escape), escape happens exactly when the roll is below (128 + 30*attempts) % 256. The threshold wraps after four attempts, so a roll of 200 escapes on the fourth attempt but not on the fifth. |
| BattleCore.ShowStatusChanges | Assets/Scripts/Battle/BattleSystem.cs:381-388 | The side's queued messages are shown and the queue is emptied. The other side is unchanged. |
| BattleCore.FinishBattle | Assets/Scripts/Battle/BattleSystem.cs:121-128 | The state becomes BattleOver, the result is recorded, and every member of the player's party is reset by OnBattleOver. Nothing else changes. |
| BattleCore.OpenPartyScreen | Assets/Scripts/Battle/BattleSystem.cs:143-148 | The party screen opens and remembers the state it was called from. |
| BattleCore.CheckForBattleOver | Assets/Scripts/Battle/BattleSystem.cs:445-479 | The player loses when no member is healthy and otherwise picks a replacement. The enemy's side ends a wild battle, or a trainer battle with no healthy creature left, as a win; otherwise the player is asked about switching. |
| BattleCore.SendNextTrainerPokemon | Assets/Scripts/Battle/BattleSystem.cs:747-760 | The trainer's first healthy creature enters the enemy unit and the turn goes on. With none left the state is Busy. |
| BattleCore.SwitchIn | Assets/Scripts/Battle/BattleSystem.cs:727-745 | The member enters the player's unit. Then either the turn runs or the trainer sends the next creature. |
| BattleCore.CheckMember | Assets/Scripts/Battle/BattleSystem.cs:643-670 | A fainted member and the member already in battle are refused. A switch chosen from action selection is a turn; otherwise the switch happens at once. |
| BattleCore.MoveForgetSelected | Assets/Scripts/Battle/BattleSystem.cs:541-566 | Answer 4 declines. Any other index replaces that move with a fresh copy of the move to learn. The prompt closes and the turn goes on. |
| BattleCore.PartyBack | Assets/Scripts/Battle/BattleSystem.cs:672-692 | Going back is refused while the player's creature has fainted. From the about-to-use prompt the trainer sends the next creature; otherwise the battle returns to action selection. |
| BattleCore.Resolve | Assets/Scripts/Battle/BattleSystem.cs:508-566 | Each answer goes to the handler of the prompt being shown: a forget index, a party member that may switch in now, back (onBack), yes or no. A refused member and an answer that fits no prompt leave the battle unchanged. |
| BattleCore.AwaitRunningTurn | Assets/Scripts/Battle/BattleSystem.cs:339 | Answers are consumed until the state is RunningTurn again. The wait never resumes once the battle is over. |
| BattleCore.AwaitMoveForgotten | Assets/Scripts/Battle/BattleSystem.cs:431 | Answers are consumed until the move-to-forget prompt closes. Only the player's creature's moves can change, and their number is kept. |
| BattleSystem.EnemyMoveChoice | Assets/Scripts/Battle/BattleSystem.cs:188 | With n moves with PP, the enemy picks the one preceded by `pick(n) % n` moves with PP, so it has PP left. The source throws exactly when none has PP. |
| BattleSystem.EffectsOn | Assets/Scripts/Battle/BattleSystem.cs:306-331 | Boosts go to the user for a self-targeted effect and to the target otherwise. A status lands only on an empty slot. Both message queues are shown and emptied, and nothing else changes. |
| BattleSystem.SecondariesOn | Assets/Scripts/Battle/BattleSystem.cs:285-293 | Each secondary effect runs only if its roll is within its chance. With every roll above its chance nothing happens, and an occupied status slot is never overwritten. |
| BattleSystem.OneSecondaryFires | Assets/Scripts/Battle/BattleSystem.cs:285-293 | When exactly one secondary's roll is within its chance, the loop applies that secondary's effects with its own target and nothing else. |
| BattleSystem.UseMove | Assets/Scripts/Battle/BattleSystem.cs:265-303 | The move spends one PP. A miss changes nothing else. A damaging hit deals the given damage through TakeDamage, and a status move never changes HP. On a hit the secondary effects run only when the target still has HP; a knockout blow leaves everything but the target's HP as it was. |
| BattleSystem.LevelUpPass | Assets/Scripts/Battle/BattleSystem.cs:410-436 | One pass raises the level by exactly one. A creature with fewer than four moves learns the level's move; with four, the move-to-forget prompt is awaited. No creature exceeds four moves this way. |
| BattleSystem.FluctuatingStaysDue | Assets/Scripts/Pokemons/PokemonBase.cs:57-72 | A Fluctuating creature at level 99 or above is always due for a level-up, and after one it is still in that situation. |
| BattleSystem.LevelUps | Assets/Scripts/Battle/BattleSystem.cs:410-436 | The loop only raises the level and learns moves. It stops early only when no level-up is due. A stuck Fluctuating creature uses every pass of its fuel, which is the source's endless loop. |
| BattleSystem.LevelUpsBounded | Assets/Scripts/Battle/BattleSystem.cs:410-436 | Each pass raises the level by one, so fuel passes raise it by at most fuel. |
| BattleSystem.HandlePokemonFainted | Assets/Scripts/Battle/BattleSystem.cs:390-443 | A fainted enemy gives the player's creature ExpGain experience and its level-ups. It then wins the battle, or asks about the trainer's next creature. A fainted player creature loses the battle or opens the party screen. |
| BattleSystem.RunMove | Assets/Scripts/Battle/BattleSystem.cs:254-304 | A creature its conditions stop does not move. A null or stale move halts the turn. Otherwise the move is used with the hit check. A target the move hit and left at 0 HP goes through HandlePokemonFainted; a miss, or a target left standing, ends the move with both creatures updated. The enemy's creature ends its own move as the move left it, fainting or not. |
| BattleSystem.MissNeverFaints | Assets/Scripts/Battle/BattleSystem.cs:268-302 | A missed move never makes its target faint, even at 0 HP: the state, the outcomes and the target are unchanged and the turn goes on. |
| BattleSystem.AfterTurnHooks | Assets/Scripts/Battle/BattleSystem.cs:341-353 | The status damage is applied and shown. A creature that survives keeps the turn going. A creature that faints goes through HandlePokemonFainted, and the turn then waits to go on. A last fainted player creature loses the battle; a fainted wild creature gives its experience and, once the level-ups are answered, wins it, with the turn going no further. |
| BattleSystem.RunAfterTurn | Assets/Scripts/Battle/BattleSystem.cs:333-354 | Nothing happens once the battle is over. Otherwise the after-turn hooks run and the turn goes on. |
| BattleSystem.TryToEscape | Assets/Scripts/Battle/BattleSystem.cs:864-904 | A trainer battle refuses. In a wild battle the attempt counter rises and EscapeRoll decides: escape wins the battle, failure goes on with the turn, and an enemy speed of 0 throws. |
| BattleSystem.ThrowPokeballs | Assets/Scripts/Battle/BattleSystem.cs:775-840 | A trainer battle refuses. In a wild battle four shakes catch the creature: it joins a party with room, and the battle is won. Fewer shakes go on with the turn. |
| BattleSystem.FirstMover | Assets/Scripts/Battle/BattleSystem.cs:190-201 | The enemy moves first exactly when its move has the higher priority, or the same priority and more speed. |
| BattleSystem.Conclude | Assets/Scripts/Battle/BattleSystem.cs:220-221 | A running turn whose battle is not over returns to action selection. |
| BattleSystem.MoveThenAfterTurn | Assets/Scripts/Battle/BattleSystem.cs:205-209 | One side's half-turn is its RunMove and then its RunAfterTurn on the battle the move left. A move that ends the battle, or a coroutine that stops, gets no after-turn step. The half ends in the running turn or with the battle over. |
| BattleSystem.BothHalves | Assets/Scripts/Battle/BattleSystem.cs:203-221 | The first mover's half runs. When it stopped or ended the battle, the turn ends there. Otherwise the second side moves exactly when the creature that stood there at the start of the turn still has HP, and the turn then returns to action selection. |
| BattleSystem.MoveTurn | Assets/Scripts/Battle/BattleSystem.cs:185-222 | An invalid player move index throws before anything changes. An enemy with no PP left throws after the player's move is set. Otherwise both moves are remembered; the higher priority moves first, and on equal priority the player unless the enemy is strictly faster; the second side moves only if the battle is not over and its starting creature still has HP. |
| BattleSystem.EnemyTurn | Assets/Scripts/Battle/BattleSystem.cs:242-247 | The enemy runs its randomly chosen move with PP, then its after-turn step unless the move ended the battle, then the turn returns to action selection. It throws when the enemy has no move with PP. |
| BattleSystem.PlayerAction | Assets/Scripts/Battle/BattleSystem.cs:225-239 | A switch puts the member in and goes on with the turn. An item has already been handled. Running away is TryToEscape. |
| BattleSystem.OtherTurn | Assets/Scripts/Battle/BattleSystem.cs:223-248 | The player's action comes first; an escape that throws halts the turn. An action that ended the battle stops the turn there, because the battle object is deactivated. Any other action is followed by the enemy's half. |
| BattleSystem.OtherTurnIgnoringDeactivation | Assets/Scripts/Battle/BattleSystem.cs:241-247 | The same branch read without deactivation: the enemy always gets its half. After an action that ended the battle, the enemy's RunMove still runs, and while the battle stays over nothing follows it. |
| BattleSystem.DeactivationOnlyCutsEndedTurns | Assets/Scripts/Battle/BattleSystem.cs:241-247 | Both readings agree on every turn whose player action did not end the battle. When it did, the deactivated turn stops at that battle while the other reading runs the enemy's half from it. |
| BattleSystem.EnemyMovesAfterEscapeWithoutDeactivation | Assets/Scripts/Battle/BattleSystem.cs:236-247 | After a successful escape, the deactivated turn leaves the enemy's creatures as they were. Without deactivation, an enemy its conditions do not stop still spends a PP on its chosen move, and while the battle stays over nothing follows. |
| BattleSystem.RunTurns | Assets/Scripts/Battle/BattleSystem.cs:181-252 | A move action follows the turn-order and second-mover rule of MoveTurn. Any other action runs first, and the enemy's half follows unless the action threw or ended the battle. Every turn that goes on ends in action selection or with the battle over, and party sizes and the battle kind are kept. |
| BattleSystem.OnItemUsed | Assets/Scripts/Battle/BattleSystem.cs:762-773 | In a wild battle, a Pokéball that shakes four times wins the battle and adds the creature to a party with room. Any other item hands over to the turn (the enemy's half). |
| BattleSystem.OnItemUsedIgnoringDeactivation | Assets/Scripts/Battle/BattleSystem.cs:762-773 | Read without the deactivation, the turn runs after every throw: the enemy's half runs from the thrown-at battle reset to RunningTurn. |
| BattleSystem.DeactivationOnlyCutsCatches | Assets/Scripts/Battle/BattleSystem.cs:762-773 | The two readings of OnItemUsed agree exactly when the throw did not catch the wild creature. |
| BattleSystem.EnemyMovesAfterCatchWithoutDeactivation | Assets/Scripts/Battle/BattleSystem.cs:236-247 | After a catch, the deactivated battle leaves the enemy's creatures as they were. Without deactivation, the caught creature still spends a PP on its chosen move, and if nobody faints the won battle ends the turn in action selection. |
| BattleSystem.EnemyTurnEndsInActionSelection | Assets/Scripts/Battle/BattleSystem.cs:236-247 | When the enemy's move and its after-turn step leave both creatures standing, the enemy's half of a turn returns to action selection without recording an outcome. |
| BattleSystem.HandleBagAsWritten | Assets/Scripts/Battle/BattleSystem.cs:522-536 | As written, only the back action reaches the bag screen. A used item never reaches the battle. |
| BattleSystem.HandleBag | Assets/Scripts/Battle/BattleSystem.cs:522-536 | With the callback handed on, back returns to action selection and a used item runs OnItemUsed. |
| BattleSystem.BagDropsUsedItems | Assets/Scripts/Battle/BattleSystem.cs:530-535 | A certain-catch ball leaves the as-written battle stuck in the Bag state, while the corrected branch wins the battle. |
| BattleSystem.Shift | Assets/Scripts/Battle/BattleSystem.cs:610-617 | Right and Left move the cursor by one; Down and Up move it by a row of two. |
| BattleSystem.ShiftInverse | Assets/Scripts/Battle/BattleSystem.cs:610-617 | Opposite arrows undo each other, and one row down equals two steps right. |
| BattleSystem.HandleActionSelection | Assets/Scripts/Battle/BattleSystem.cs:569-606 | The cursor stays in [0, 3]. Confirming opens moves, the bag or the party, or runs. |
| BattleSystem.HandleMoveSelection | Assets/Scripts/Battle/BattleSystem.cs:608-638 | The cursor stays within the moves. Confirming starts a turn exactly when the move's PP is not 0, and cancelling returns to action selection. With no moves, the source throws. |
| BattleSystem.StartWildBattle | Assets/Scripts/Battle/BattleSystem.cs:58-119 | The player's first healthy creature faces the wild one. There is no battle exactly when the player's whole party has fainted. |
| BattleSystem.StartTrainerBattle | Assets/Scripts/Battle/BattleSystem.cs:46-119 | The first healthy creature of each side enters. There is no battle exactly when either party has fainted entirely. |

## Left out

- Damage: the float damage formula of `TakeDamage` (random modifier, critical hit, rounding to
  int) is a `damage` parameter. Its integer inputs are modelled in `Pokemon.DamageInputs`.
- Catching: `b`, the float `1048560 / sqrt(sqrt(16711680 / a))` of `TryToCatchPokemon`, is a
  parameter. The catch value `a` itself is modelled exactly, as a real.
- BattleSystem.ThrowPokeballs: requires a non-zero MaxHp for the enemy's creature in a wild
  battle. With MaxHp 0, `a` is a float division by zero (NaN or infinity) and is not modelled.
- BattleSystem.OnItemUsed: requires the same non-zero MaxHp when the item is a Pokéball, for the
  same reason.
- Float rounding: every exact float quantity (boost multipliers, hit check, experience bonus,
  catch value) is a Dafny `real`. Single-precision rounding is not modelled.
- Integer overflow: `int` is unbounded here. The source's 32-bit wrap-around on huge stats,
  experience or speeds is not modelled.
- The level-up loop: `BattleSystem.LevelUps` runs for at most `fuel` passes. The source's loop
  has no bound, and a stuck Fluctuating creature runs forever; the fuel bound only cuts that
  endless case short.
- Stage range: the battle state requires every stage in [-6, 6] (`StagesInRange`). `ApplyBoosts`
  keeps this invariant, so `GetStat`'s table lookup never goes out of range in a battle.
- UI: dialogs, animations, HUD updates, sprites, waits for seconds and sounds are not modelled.
  Menus are modelled only through the state and cursor they leave behind.
- Prompts: `AboutToUse` and `ChooseMoveToForget` are modelled as taking effect immediately. The
  answers the player gives while they are open come from the answer sequence.
- The party screen: its `Init` and `SetPartyData` calls are not modelled. Neither is how
  `calledFrom` survives across screens outside the battle.
- MoveTurn: a creature's current move is kept as an index into its move list, not as a
  reference to a `Move` object (`BattleSystem.cs:186-187`). The two differ only when the
  first half's level-up replaces the very move the player chose (`BattleSystem.cs:558`). The
  source then runs the forgotten `Move` object and spends its PP, while the model runs the new
  move in that slot. BothHalves and RunTurns inherit this difference.
- Pokemon.HasMove and Items.CanBeTaught compare move definitions by value. The source compares
  asset references, so two distinct assets with identical fields count as different there and
  as equal here.
- BattleSystem.TryToEscape: on an enemy speed of 0 the model stops the turn without counting the
  attempt. The source sets `Busy` and counts the attempt before the division throws. The case
  needs a stored speed below 5, which `CalculateStats` never gives for a non-negative base speed
  and level; from 5 on the effective speed is at least 1 (`Pokemon.GetStat`).
- Caught creatures: `AddPokemon` receives the enemy's creature as a value. In the source the
  party and the enemy unit share one object.
- Battle units: `BattleUnit.Setup` and the HUD are not modelled; BattleUnit is not part of this
  model.
- Item internals: the source of `ItemBase`, `Inventory`, `RecoveryItem`, `MoveBase`, `Move`,
  `MoveEffects`, `LearnableMove` and `Evolution` is not part of this model. They are minimal
  stand-ins with the fields the modelled code reads; a base item's own answers are fields.
  `Inventory.UseItem` (how many are left, removal) is not modelled. `Items.Use` takes another
  item's result as a parameter.
- The category index: `ItemCategory.Pokeballs` is passed to `InventoryUI.ItemSelected` as an
  integer, because the enum's declaration is not part of this model.
- Moves in save data: `Move.GetSaveData` and the `Move(MoveSaveData)` constructor are parameters
  of `Pokemon.GetSaveData` and `Pokemon.FromSaveData`.
- Asset loading: `Resources.LoadAll` is a list parameter of `PokemonDB.Init` and `ItemDB.Init`.
  The `Resources.Load` of the condition and item assets is not modelled.
- Scenes: `SceneManager.LoadSceneAsync` and `UnloadSceneAsync` are modelled as immediate flag
  changes. The `SavingSystem` calls that capture and restore entity states, and the map-area
  lookup of `GameController`, are not modelled.
- Other game code: `GameController` states other than the battle hand-over, the player
  controller, portals, the fader and the menu are not modelled.

## Findings

| source | as written | input that shows it | evidently intended | confidence | as-written member | corrected member |
|---|---|---|---|---|---|---|
| Assets/Scripts/SceneManagement/SceneDetails.cs:39-40 | The previous scene is unloaded whenever it is not in the entered scene's connected list, with no check that it is the entered scene itself. | Scenes A and B are connected; A is current and loaded; the player's collider re-enters A's trigger. A is unloaded while the player stands in it. | The previous scene is unloaded only if it is neither connected to the entered scene nor the entered scene. | medium, not executed | SceneDetails.OnTriggerEnterAsWritten | SceneDetails.OnTriggerEnter |
| Assets/Scripts/Battle/BattleSystem.cs:530-535 | The Bag branch of `HandleUpdate` builds the `onItemUSed` callback but calls `inventoryUI.HandleUpdate(onBack)` without it. The bag screen's `onItemUsed?.Invoke(...)` is then a no-op. | In a wild battle, the player throws a Pokéball whose catch value is at least 255. The ball is used up, but the battle stays in the Bag state and the creature is never caught. | The callback is passed on: `inventoryUI.HandleUpdate(onBack, onItemUSed)`, so a used item runs `OnItemUsed`. | high, not executed | BattleSystem.HandleBagAsWritten | BattleSystem.HandleBag |

=== FILE: battle.dfy ===
/** The turn flow of `BattleSystem.cs`: moves with their gate, hit check, effects and
    secondaries; fainting with experience and level-ups; the after-turn step; whole turns for
    each player action; escaping; catching; and the entry points from the menus. Every coroutine
    runs to its end here, so a step returns where the coroutine stands (`Step`); a wait is
    answered from the player's input. Random draws are parameters. */
module BattleSystem {
  import opened Options
  import opened Mathf
  import opened Moves
  import opened Pokemon
  import opened StatusConditions
  import opened PokemonParty
  import opened ConditionsDB
  import opened Items
  import opened BattleRules
  import opened BattleCore
  import PokemonBase

  // ---------------------------------------------------------------------------
  // Draws

  /** The `OnStart` draws of one `RunMoveEffects`: one for the status, one for the volatile
      status. */
  datatype EffectDraws = EffectDraws(status: StartDraw, volatile: StartDraw) {
    predicate Valid() {
      status.Valid() && volatile.Valid()
    }
  }

  /** The draws of one `RunMove`: the two `OnBeforeMove` hooks, the hit roll in [1, 100], the
      damage formula's result, the draws of the move's own effects, and per secondary effect k
      its roll in [1, 100] and its effect draws. */
  datatype MoveDraws = MoveDraws(
    statusCheck: CheckDraw,
    volatileCheck: CheckDraw,
    hit: int,
    damage: int,
    effects: EffectDraws,
    secondaryRoll: nat -> int,
    secondaryEffects: nat -> EffectDraws)

  /** The draws of one turn: `Random.Range(0, n)` for the enemy's move among n with PP, the two
      moves' draws, and the two escape draws in [0, 10) and [0, 256). */
  datatype TurnDraws = TurnDraws(
    enemyPick: nat -> nat,
    first: MoveDraws,
    second: MoveDraws,
    escapeQuick: int,
    escapeRoll: int)

  /** The enemy's `GetRandomMove`: the index of its chosen move, `None` where the source throws.
      With n moves with PP, the one chosen is preceded by `pick(n) % n` moves with PP. */
  function EnemyMoveChoice(c: Creature, pick: nat -> nat): (r: Option<nat>)
    ensures r.Some? ==> r.value < |c.moves| && c.moves[r.value].pp > 0
    ensures r.Some? ==> var n := |MovesWithPP(c.moves)|;
      n > 0 && |MovesWithPP(c.moves[..r.value])| == pick(n) % n
    ensures r.None? <==> forall j :: 0 <= j < |c.moves| ==> c.moves[j].pp <= 0
  {
    var n := |MovesWithPP(c.moves)|;
    var draw := if n == 0 then 0 else pick(n) % n;
    GetRandomMove(c, draw)
  }

  // ---------------------------------------------------------------------------
  // What a move may change

  /** Nothing but the stages and the message queue differ. */
  predicate BoostsOnly(c: Creature, r: Creature) {
    r.(boosts := c.boosts, statusChanges := c.statusChanges) == c
  }

  /** Nothing but the stages, the two status slots with their timers and the message queue
      differ. */
  predicate EffectsOnly(c: Creature, r: Creature) {
    r.(boosts := c.boosts, status := c.status, statusTime := c.statusTime,
       volatileStatus := c.volatileStatus, volatileStatusTime := c.volatileStatusTime,
       statusChanges := c.statusChanges) == c
  }

  // ---------------------------------------------------------------------------
  // RunMoveEffects and the secondary effects

  /** `RunMoveEffects` on the move's user `s` and its target `t`: the boosts go to the user for
      a Self-targeted effect and to the target otherwise; a status and a volatile status always
      go to the target and only take where its slot is empty. Both queues are shown, so both end
      empty. HP is untouched and the user's statuses too. */
  function EffectsOn(s: Creature, t: Creature, effects: MoveEffects, moveTarget: MoveTarget,
                     d: EffectDraws): (r: (Creature, Creature))
    requires s.boosts.InRange() && t.boosts.InRange()
    ensures r.0.boosts.InRange() && r.1.boosts.InRange()
    ensures r.0.statusChanges == [] && r.1.statusChanges == []
    ensures BoostsOnly(s, r.0) && EffectsOnly(t, r.1)
    ensures moveTarget == Self ==> r.0.boosts == ApplyBoosts(s, effects.boosts).boosts && r.1.boosts == t.boosts
    ensures moveTarget == Foe ==> r.0.boosts == s.boosts && r.1.boosts == ApplyBoosts(t, effects.boosts).boosts
    ensures effects.status.None? || t.status.Some? ==> r.1.status == t.status
    ensures effects.status.Some? && t.status.None? ==> r.1.status == effects.status
    ensures effects.volatileStatus.None? || t.volatileStatus.Some? ==> r.1.volatileStatus == t.volatileStatus
    ensures effects.volatileStatus.Some? && t.volatileStatus.None? ==> r.1.volatileStatus == effects.volatileStatus
  {
    ApplyBoostsStages(s, effects.boosts);
    ApplyBoostsStages(t, effects.boosts);
    var s1 := if moveTarget == Self then ApplyBoosts(s, effects.boosts) else s;
    var t1 := if moveTarget == Self then t else ApplyBoosts(t, effects.boosts);
    var t2 := if effects.status.Some? then SetStatus(t1, effects.status.value, d.status) else t1;
    var t3 := if effects.volatileStatus.Some? then SetVolatileStatus(t2, effects.volatileStatus.value, d.volatile) else t2;
    (s1.(statusChanges := []), t3.(statusChanges := []))
  }

  /** The loop over a move's secondary effects from the k-th on: each runs iff its roll is at
      most its chance, with its own target. A status the target already has stays. */
  function SecondariesOn(s: Creature, t: Creature, secondaries: seq<SecondaryEffects>, d: MoveDraws,
                         k: nat): (r: (Creature, Creature))
    requires s.boosts.InRange() && t.boosts.InRange()
    ensures r.0.boosts.InRange() && r.1.boosts.InRange()
    ensures BoostsOnly(s, r.0) && EffectsOnly(t, r.1)
    ensures t.status.Some? ==> r.1.status == t.status
    ensures t.volatileStatus.Some? ==> r.1.volatileStatus == t.volatileStatus
    ensures (forall j :: k <= j < |secondaries| ==> d.secondaryRoll(j) > secondaries[j].chance) ==> r == (s, t)
    decreases |secondaries| - k
  {
    if k >= |secondaries| then (s, t)
    else
      var sec := secondaries[k];
      var p := if d.secondaryRoll(k) <= sec.chance
               then EffectsOn(s, t, sec.effects, sec.target, d.secondaryEffects(k))
               else (s, t);
      SecondariesOn(p.0, p.1, secondaries, d, k + 1)
  }

  /** A secondary effect whose roll is within its chance, among secondaries that all miss
      otherwise, applies its own effects with its own target and nothing else happens. */
  lemma {:induction false} OneSecondaryFires(s: Creature, t: Creature, secondaries: seq<SecondaryEffects>,
                                             d: MoveDraws, k: nat, j: nat)
    requires s.boosts.InRange() && t.boosts.InRange()
    requires k <= j < |secondaries| && d.secondaryRoll(j) <= secondaries[j].chance
    requires forall i :: k <= i < |secondaries| && i != j ==> d.secondaryRoll(i) > secondaries[i].chance
    ensures SecondariesOn(s, t, secondaries, d, k)
            == EffectsOn(s, t, secondaries[j].effects, secondaries[j].target, d.secondaryEffects(j))
    decreases j - k
  {
    if k < j {
      OneSecondaryFires(s, t, secondaries, d, k + 1, j);
    }
  }

  /** `RunMove` from `move.PP--` on, for the user's move number `i` and the outcome `hit` of
      the hit check: one PP is spent; on a hit a status move runs its effects and any other move
      deals `damage`; the secondary effects follow while the target stands. */
  function UseMove(s: Creature, t: Creature, i: nat, hit: bool, d: MoveDraws): (r: (Creature, Creature))
    requires i < |s.moves| && s.boosts.InRange() && t.boosts.InRange()
    ensures r.0.boosts.InRange() && r.1.boosts.InRange()
    ensures var spent := s.moves[i := s.moves[i].(pp := s.moves[i].pp - 1)];
      && BoostsOnly(s.(moves := spent), r.0)
      && (!hit ==> r == (s.(moves := spent), t))
    ensures EffectsOnly(t.(hp := r.1.hp), r.1)
    ensures hit && s.moves[i].base.category != Status ==> r.1.hp == TakeDamage(t, d.damage).hp
    ensures s.moves[i].base.category == Status ==> r.1.hp == t.hp
    ensures hit ==>
      var move, s1 := s.moves[i].base, s.(moves := s.moves[i := s.moves[i].(pp := s.moves[i].pp - 1)]);
      var p := if move.category == Status then EffectsOn(s1, t, move.effects, move.target, d.effects)
               else (s1, TakeDamage(t, d.damage));
      && (p.1.hp <= 0 ==> r == p)
      && (p.1.hp > 0 ==> r == SecondariesOn(p.0, p.1, move.secondaries, d, 0))
    ensures hit && s.moves[i].base.category != Status && TakeDamage(t, d.damage).hp <= 0 ==>
      r.1 == t.(hp := r.1.hp)
  {
    var move := s.moves[i].base;
    var s1 := s.(moves := s.moves[i := s.moves[i].(pp := s.moves[i].pp - 1)]);
    if !hit then (s1, t)
    else
      var p := if move.category == Status then EffectsOn(s1, t, move.effects, move.target, d.effects)
               else (s1, TakeDamage(t, d.damage));
      if |move.secondaries| > 0 && p.1.hp > 0 then SecondariesOn(p.0, p.1, move.secondaries, d, 0)
      else p
  }

  // ---------------------------------------------------------------------------
  // Fainting, experience and levels

  /** Nothing but the level, the stats, MaxHp and the moves differ. */
  predicate LevelUpOnly(c: Creature, r: Creature) {
    r.(level := c.level, stats := c.stats, maxHp := c.maxHp, moves := c.moves) == c
  }

  /** One pass of the `while (CheckForLevelUp())` loop of `HandlePokemonFainted`, for a creature
      that is due: the level rises by one and the move learnable at the new level is offered;
      with fewer than four moves it is learnt, otherwise the player is asked which move to
      forget. Only the player's creature, the state and the move to learn change. */
  function LevelUpPass(b: Battle, input: seq<Answer>): (r: Step)
    requires b.Valid() && LevelUpDue(Active(b, PlayerSide))
    ensures r.b.Valid() && Frame(b, r.b) && r.b.outcomes == b.outcomes
    ensures r.b == WithActive(b, PlayerSide, Active(r.b, PlayerSide)).(state := r.b.state, moveToLearn := r.b.moveToLearn)
    ensures var c, c' := Active(b, PlayerSide), Active(r.b, PlayerSide);
      && LevelUpOnly(c, c') && c'.level == c.level + 1
      && (|c.moves| <= 4 ==> |c'.moves| <= 4)
      && (GetLearnableMoveAtCurrentLevel(CheckForLevelUp(c).0).None? ==> r == Step(WithActive(b, PlayerSide, CheckForLevelUp(c).0), true, input))
    ensures r.running ==> (r.b.state == b.state && r.b.moveToLearn == b.moveToLearn)
                          || (r.b.state == RunningTurn && r.b.moveToLearn.None?)
  {
    var c1 := CheckForLevelUp(Active(b, PlayerSide)).0;
    var b1 := WithActive(b, PlayerSide, c1);
    match GetLearnableMoveAtCurrentLevel(c1)
    case None => Step(b1, true, input)
    case Some(lm) =>
      if |c1.moves| < 4 then Step(WithActive(b1, PlayerSide, LearnMove(c1, lm.base)), true, input)
      else AwaitMoveForgotten(b1.(state := MoveToForget, moveToLearn := Some(lm.base)), input)
  }

  /** A creature past level 98 on the Fluctuating curve with no move to learn from level 100 on. */
  predicate StuckFluctuating(c: Creature) {
    && c.species.growthRate == PokemonBase.Fluctuating && c.level >= 99 && c.exp >= 0
    && forall m :: m in c.species.learnableMoves ==> m.level < 100
  }

  /** The curve answers -1 from level 100 on, so such a creature is always due for a level-up,
      learns nothing on the way and stays stuck. */
  lemma FluctuatingStaysDue(c: Creature)
    requires StuckFluctuating(c)
    ensures LevelUpDue(c)
    ensures var c1 := CheckForLevelUp(c).0;
      && GetLearnableMoveAtCurrentLevel(c1).None? && StuckFluctuating(c1) && c1.level == c.level + 1
  {
    PokemonBase.FluctuatingUndefinedFromHundred(c.level + 1);
  }

  /** The `while (CheckForLevelUp())` loop, for at most `fuel` passes. It stops early only when
      the creature is no longer due or the player has not yet answered. A creature stuck on the
      Fluctuating curve uses up every pass it is given: the source's loop never ends for it. */
  function LevelUps(b: Battle, fuel: nat, input: seq<Answer>): (r: Step)
    requires b.Valid()
    ensures r.b.Valid() && Frame(b, r.b) && r.b.outcomes == b.outcomes
    ensures r.b == WithActive(b, PlayerSide, Active(r.b, PlayerSide)).(state := r.b.state, moveToLearn := r.b.moveToLearn)
    ensures var c, c' := Active(b, PlayerSide), Active(r.b, PlayerSide);
      && LevelUpOnly(c, c') && c'.level >= c.level
      && (|c.moves| <= 4 ==> |c'.moves| <= 4)
      && (r.running && c'.level < c.level + fuel ==> !LevelUpDue(c'))
    ensures !LevelUpDue(Active(b, PlayerSide)) ==> r == Step(b, true, input)
    ensures r.running ==> (r.b.state == b.state && r.b.moveToLearn == b.moveToLearn)
                          || (r.b.state == RunningTurn && r.b.moveToLearn.None?)
    ensures StuckFluctuating(Active(b, PlayerSide)) ==>
      r.running && Active(r.b, PlayerSide).level == Active(b, PlayerSide).level + fuel
    decreases fuel
  {
    if fuel == 0 || !LevelUpDue(Active(b, PlayerSide)) then Step(b, true, input)
    else
      var c := Active(b, PlayerSide);
      var s := LevelUpPass(b, input);
      assert StuckFluctuating(c) ==> s.running && Active(s.b, PlayerSide) == CheckForLevelUp(c).0 by {
        if StuckFluctuating(c) { FluctuatingStaysDue(c); }
      }
      if !s.running then s
      else
        var r := LevelUps(s.b, fuel - 1, s.input);
        LevelUpsCompose(b, s.b, r.b);
        r
  }

  /** Two battles that each differ from the one before only in the player's creature (by a
      level-up), the state and the move to learn, compose to one such difference. */
  lemma LevelUpsCompose(b: Battle, b1: Battle, b2: Battle)
    requires b.Valid() && b1.Valid() && b2.Valid()
    requires b1 == WithActive(b, PlayerSide, Active(b1, PlayerSide)).(state := b1.state, moveToLearn := b1.moveToLearn)
    requires b2 == WithActive(b1, PlayerSide, Active(b2, PlayerSide)).(state := b2.state, moveToLearn := b2.moveToLearn)
    requires LevelUpOnly(Active(b, PlayerSide), Active(b1, PlayerSide))
    requires LevelUpOnly(Active(b1, PlayerSide), Active(b2, PlayerSide))
    ensures b2 == WithActive(b, PlayerSide, Active(b2, PlayerSide)).(state := b2.state, moveToLearn := b2.moveToLearn)
    ensures LevelUpOnly(Active(b, PlayerSide), Active(b2, PlayerSide))
  {
  }

  /** Each pass of the level-up loop raises the level by exactly one, so `fuel` passes raise it
      by at most `fuel`. */
  lemma {:induction false} LevelUpsBounded(b: Battle, fuel: nat, input: seq<Answer>)
    requires b.Valid()
    ensures Active(LevelUps(b, fuel, input).b, PlayerSide).level <= Active(b, PlayerSide).level + fuel
    decreases fuel
  {
    if fuel > 0 && LevelUpDue(Active(b, PlayerSide)) {
      var s := LevelUpPass(b, input);
      if s.running {
        LevelUpsBounded(s.b, fuel - 1, s.input);
      }
    }
  }

  /** `HandlePokemonFainted`: when the enemy's creature fainted, the player's creature gains
      `ExpGain` experience and levels up as far as it goes; then `CheckForBattleOver`. The
      fainted creature is left as it was. */
  function HandlePokemonFainted(b: Battle, fainted: Side, fuel: nat, input: seq<Answer>): (r: Step)
    requires b.Valid()
    ensures r.b.Valid() && Frame(b, r.b)
    ensures r.b.enemyParty == b.enemyParty && r.b.playerIdx == b.playerIdx && r.b.enemyIdx == b.enemyIdx
    ensures Active(r.b, fainted).hp == Active(b, fainted).hp
    ensures fainted == PlayerSide ==>
      && r.running && r.input == input && r.b.moveToLearn == b.moveToLearn
      && (AllFainted(b.playerParty) ==> r.b.state == BattleOver && r.b.outcomes == b.outcomes + [false])
      && (!AllFainted(b.playerParty) ==> r.b.state == PartyScreen && r.b.outcomes == b.outcomes
                                         && r.b.calledFrom == Some(b.state))
    ensures fainted == EnemySide ==>
      var e, p, p' := Active(b, EnemySide), Active(b, PlayerSide), Active(r.b, PlayerSide);
      && p'.exp == p.exp + ExpGain(e.species.expYield, e.level, b.isTrainerBattle)
      && p'.species == p.species && p'.level >= p.level
      && (r.running ==>
            if !b.isTrainerBattle || AllFainted(b.enemyParty) then
              r.b.state == BattleOver && r.b.outcomes == b.outcomes + [true]
            else r.b.state == AboutToUse && r.b.outcomes == b.outcomes)
      && (!r.running ==> r.b.outcomes == b.outcomes)
  {
    if fainted == PlayerSide then Step(CheckForBattleOver(b, PlayerSide), true, input)
    else
      var e := Active(b, EnemySide);
      var p := Active(b, PlayerSide);
      var gain := ExpGain(e.species.expYield, e.level, b.isTrainerBattle);
      var s := LevelUps(WithActive(b, PlayerSide, p.(exp := p.exp + gain)), fuel, input);
      if !s.running then s
      else Step(CheckForBattleOver(s.b, EnemySide), true, s.input)
  }

  // ---------------------------------------------------------------------------
  // RunMove and RunAfterTurn

  /** `CheckIfMoveHits` for a creature whose stages are in range. */
  function MoveHits(move: MoveBase, attacker: Creature, draw: int): bool
    requires attacker.boosts.InRange()
  {
    assert attacker.boosts.Get(PokemonBase.Stat.Accuracy) == attacker.boosts.accuracy;
    assert attacker.boosts.Get(PokemonBase.Stat.Evasion) == attacker.boosts.evasion;
    CheckIfMoveHits(move, attacker, draw)
  }

  /** A move number that names one of the creature's moves; `None` stands for a null move. */
  predicate KnownMove(c: Creature, moveIdx: Option<nat>) {
    moveIdx.Some? && moveIdx.value < |c.moves|
  }

  /** `RunMove` of the side's creature with its move number `moveIdx`. A creature its conditions
      hold back spends no PP and leaves the target alone; a null move throws; otherwise the move
      is used as `UseMove` says, and a target the move hit and left at 0 HP faints (a miss
      never makes it faint). */
  function RunMove(b: Battle, source: Side, moveIdx: Option<nat>, d: MoveDraws, fuel: nat,
                   input: seq<Answer>): (r: Step)
    requires b.Valid()
    ensures r.b.Valid() && Frame(b, r.b)
    ensures r.b.playerIdx == b.playerIdx && r.b.enemyIdx == b.enemyIdx
    ensures var s, t := Active(b, source), Active(b, source.Other());
      var gate := OnBeforeMove(s, d.statusCheck, d.volatileCheck);
      var c1 := gate.0.(statusChanges := []);
      && (!gate.1 ==> && r.running && r.input == input && r.b.state == b.state
                      && Active(r.b, source) == c1 && Active(r.b, source.Other()) == t
                      && c1.moves == s.moves)
      && (gate.1 && !KnownMove(s, moveIdx) ==> !r.running)
      && (gate.1 && KnownMove(s, moveIdx) ==>
            var i := moveIdx.value;
            var hit := MoveHits(c1.moves[i].base, c1, d.hit);
            var u := UseMove(c1, t, i, hit, d);
            && Active(r.b, source.Other()).hp == u.1.hp
            && (source == EnemySide ==> Active(r.b, EnemySide) == u.0)
            && (!hit || u.1.hp > 0 ==> r == Step(WithBoth(b, source, u.0, u.1), true, input))
            && (hit && u.1.hp <= 0 ==>
                  r == HandlePokemonFainted(WithBoth(b, source, u.0, u.1), source.Other(), fuel, input)))
  {
    var s := Active(b, source);
    var gate := OnBeforeMove(s, d.statusCheck, d.volatileCheck);
    var c1 := gate.0.(statusChanges := []);
    if !gate.1 then Step(WithActive(b, source, c1), true, input)
    else if !KnownMove(s, moveIdx) then Step(WithActive(b, source, c1), false, input)
    else
      var i := moveIdx.value;
      var hit := MoveHits(c1.moves[i].base, c1, d.hit);
      var u := UseMove(c1, Active(b, source.Other()), i, hit, d);
      var b1 := WithBoth(b, source, u.0, u.1);
      if hit && u.1.hp <= 0 then HandlePokemonFainted(b1, source.Other(), fuel, input)
      else Step(b1, true, input)
  }

  /** A move that misses never makes its target faint: even against a target already at 0 HP
      the battle keeps its state and outcomes and the coroutine goes on, with only the user's
      creature (its gate and the spent PP) changed. */
  lemma MissNeverFaints(b: Battle, source: Side, i: nat, d: MoveDraws, fuel: nat, input: seq<Answer>)
    requires b.Valid()
    requires var gate := OnBeforeMove(Active(b, source), d.statusCheck, d.volatileCheck);
      && gate.1 && i < |Active(b, source).moves|
      && !MoveHits(gate.0.moves[i].base, gate.0.(statusChanges := []), d.hit)
    ensures var r := RunMove(b, source, Some(i), d, fuel, input);
      && r.running && r.input == input && r.b.state == b.state && r.b.outcomes == b.outcomes
      && Active(r.b, source.Other()) == Active(b, source.Other())
  {
  }

  /** The after-turn step once the turn may go on: the hooks run and their messages are shown;
      a creature left at 0 HP faints, after which the turn waits to go on again. */
  function AfterTurnHooks(b: Battle, side: Side, fuel: nat, input: seq<Answer>): (r: Step)
    requires b.Valid() && b.state == RunningTurn
    ensures r.b.Valid() && Frame(b, r.b)
    ensures r.running ==> r.b.state == RunningTurn
    ensures var c := OnAfterTurn(Active(b, side));
      && (c.hp > 0 ==> r == Step(WithActive(b, side, c.(statusChanges := [])), true, input))
      && (c.hp <= 0 && side == PlayerSide && AllFainted(b.playerParty[b.playerIdx := c.(statusChanges := [])]) ==>
            !r.running && r.b.outcomes == b.outcomes + [false])
    ensures var c := OnAfterTurn(Active(b, side)).(statusChanges := []);
      c.hp <= 0 ==>
        var f := HandlePokemonFainted(WithActive(b, side, c), side, fuel, input);
        && (!f.running ==> r == f)
        && (f.running ==> r == AwaitRunningTurn(f.b, f.input))
        && (side == EnemySide && !b.isTrainerBattle ==>
              && !r.running
              && (f.running ==> r.b.state == BattleOver && r.b.outcomes == b.outcomes + [true])
              && Active(r.b, PlayerSide).exp == Active(b, PlayerSide).exp + ExpGain(c.species.expYield, c.level, false))
  {
    var c := OnAfterTurn(Active(b, side)).(statusChanges := []);
    var b1 := WithActive(b, side, c);
    if c.hp > 0 then Step(b1, true, input)
    else
      var f := HandlePokemonFainted(b1, side, fuel, input);
      if !f.running then f else AwaitRunningTurn(f.b, f.input)
  }

  /** `RunAfterTurn` of the side's creature: nothing once the battle is over; otherwise the
      hooks wait until the turn may go on. */
  function RunAfterTurn(b: Battle, side: Side, fuel: nat, input: seq<Answer>): (r: Step)
    requires b.Valid()
    ensures r.b.Valid() && Frame(b, r.b)
    ensures b.state == BattleOver ==> r == Step(b, true, input)
    ensures b.state != BattleOver && r.running ==> r.b.state == RunningTurn
    ensures b.state == RunningTurn && OnAfterTurn(Active(b, side)).hp > 0 ==>
      r == Step(WithActive(b, side, OnAfterTurn(Active(b, side)).(statusChanges := [])), true, input)
  {
    if b.state == BattleOver then Step(b, true, input)
    else
      var w := AwaitRunningTurn(b, input);
      if !w.running then w
      else AfterTurnHooks(w.b, side, fuel, w.input)
  }

  // ---------------------------------------------------------------------------
  // Escaping and catching

  /** `TryToEscape`: a trainer battle refuses and the turn goes on; in a wild battle the attempt
      is counted first and `EscapeRoll` decides, with the creatures' effective speeds. A
      successful escape ends the battle as won; a zero enemy speed throws (`None`). */
  function TryToEscape(b: Battle, quick: int, roll: int): (r: Option<Battle>)
    requires b.Valid()
    ensures r.Some? ==> r.value.Valid() && Frame(b, r.value)
    ensures b.isTrainerBattle ==> r == Some(b.(state := RunningTurn))
    ensures !b.isTrainerBattle ==>
      var attempts := b.escapeAttempts + 1;
      var o := EscapeRoll(Speed(Active(b, PlayerSide)), Speed(Active(b, EnemySide)), attempts, quick, roll);
      && (r.None? <==> o == DivisionByZero)
      && (o == Escaped ==> r == Some(FinishBattle(b.(escapeAttempts := attempts), true)))
      && (o == CannotEscape ==> r == Some(b.(escapeAttempts := attempts, state := RunningTurn)))
    ensures !b.isTrainerBattle && Speed(Active(b, EnemySide)) < Speed(Active(b, PlayerSide)) && quick <= 8 ==>
      r.Some? && r.value.state == BattleOver && r.value.outcomes == b.outcomes + [true]
  {
    if b.isTrainerBattle then Some(b.(state := RunningTurn))
    else
      var b1 := b.(escapeAttempts := b.escapeAttempts + 1);
      match EscapeRoll(Speed(Active(b, PlayerSide)), Speed(Active(b, EnemySide)), b1.escapeAttempts, quick, roll)
      case Escaped => Some(FinishBattle(b1, true))
      // The source has already counted the attempt and set Busy when it throws here. The stop
      // leaves both out: it needs a stored speed below 5, which no non-negative base gives.
      case DivisionByZero => Option.None
      case _ => Some(b1.(state := RunningTurn))
  }

  /** The `a` of `TryToCatchPokemon` for the enemy's creature and a ball. */
  function EnemyCatchValue(b: Battle, modifier: real): real
    requires b.Valid() && Active(b, EnemySide).maxHp != 0
  {
    var e := Active(b, EnemySide);
    CatchValue(e.maxHp, e.hp, e.species.catchRate, modifier, GetStatusBonus(e.status))
  }

  /** `ThrowPokeballs` with a ball of the given catch-rate modifier; `bValue` and the four draws
      are those of `TryToCatchPokemon`. A trainer's creature cannot be caught and the turn goes
      on; four shakes add the enemy's creature to the player's party (when there is room) and
      end the battle as won; fewer let it break free and the turn goes on. */
  function ThrowPokeballs(b: Battle, modifier: real, bValue: real, draws: seq<int>): (r: Battle)
    requires b.Valid() && (!b.isTrainerBattle ==> Active(b, EnemySide).maxHp != 0)
    ensures r.Valid() && r.isTrainerBattle == b.isTrainerBattle && b.outcomes <= r.outcomes
    ensures r.enemyParty == b.enemyParty && r.playerIdx == b.playerIdx && r.enemyIdx == b.enemyIdx
    ensures b.isTrainerBattle ==> r == b.(state := RunningTurn)
    ensures !b.isTrainerBattle ==>
      var n := ShakeCount(EnemyCatchValue(b, modifier), bValue, draws);
      && (n < 4 ==> r == b.(state := RunningTurn))
      && (n == 4 ==>
            && r.state == BattleOver && r.outcomes == b.outcomes + [true]
            && |r.playerParty| == (if |b.playerParty| < MaxPartySize then |b.playerParty| + 1 else |b.playerParty|)
            && (|b.playerParty| < MaxPartySize ==> r.playerParty[|b.playerParty|] == OnBattleOver(Active(b, EnemySide)))
            && forall i :: 0 <= i < |b.playerParty| ==> r.playerParty[i] == OnBattleOver(b.playerParty[i]))
  {
    if b.isTrainerBattle then b.(state := RunningTurn)
    else
      var e := Active(b, EnemySide);
      if ShakeCount(EnemyCatchValue(b, modifier), bValue, draws) == 4 then
        FinishBattle(b.(playerParty := AddPokemon(b.playerParty, e)), true)
      else b.(state := RunningTurn)
  }

  // ---------------------------------------------------------------------------
  // RunTurns

  /** The player's choice for a turn; `MoveAction` carries `currentMove`, the chosen move's
      number, and `SwitchAction` the party member picked on the party screen. */
  datatype BattleAction = MoveAction(currentMove: int) | SwitchAction(member: nat) | ItemAction | RunAction

  /** Who moves first when the player uses move `k` and the enemy move `j`: the higher priority,
      and on equal priority the player unless the enemy is strictly faster. */
  function FirstMover(b: Battle, k: nat, j: nat): (first: Side)
    requires b.Valid() && k < |Active(b, PlayerSide).moves| && j < |Active(b, EnemySide).moves|
    ensures var pp, ep := Active(b, PlayerSide).moves[k].base.priority, Active(b, EnemySide).moves[j].base.priority;
      first == EnemySide <==> ep > pp || (ep == pp && Speed(Active(b, PlayerSide)) < Speed(Active(b, EnemySide)))
  {
    var p, e := Active(b, PlayerSide), Active(b, EnemySide);
    if PlayerGoesFirst(p.moves[k].base.priority, e.moves[j].base.priority, Speed(p), Speed(e)) then PlayerSide
    else EnemySide
  }

  /** The party member at `idx` on the side. */
  function Member(b: Battle, side: Side, idx: nat): Creature
    requires idx < (if side == PlayerSide then |b.playerParty| else |b.enemyParty|)
  {
    if side == PlayerSide then b.playerParty[idx] else b.enemyParty[idx]
  }

  /** The end of a turn: back to action selection unless the battle is over. */
  function Conclude(s: Step): (r: Step)
    ensures r.b == (if s.running && s.b.state != BattleOver then s.b.(state := ActionSelection) else s.b)
    ensures r.running == s.running && r.input == s.input
  {
    if s.running && s.b.state != BattleOver then Step(s.b.(state := ActionSelection), true, s.input) else s
  }

  /** One side's half of a turn: its move, then its after-turn step on the battle the move left;
      a move that ended the battle, or a coroutine that stopped, has no after-turn step. */
  function MoveThenAfterTurn(b: Battle, side: Side, moveIdx: Option<nat>, d: MoveDraws, fuel: nat,
                             input: seq<Answer>): (r: Step)
    requires b.Valid()
    ensures r.b.Valid() && Frame(b, r.b)
    ensures r.running ==> r.b.state == RunningTurn || r.b.state == BattleOver
    ensures var m := RunMove(b, side, moveIdx, d, fuel, input);
      && (!m.running || m.b.state == BattleOver ==> r == m)
      && (m.running ==> r == RunAfterTurn(m.b, side, fuel, m.input))
  {
    var m := RunMove(b, side, moveIdx, d, fuel, input);
    if !m.running then m else RunAfterTurn(m.b, side, fuel, m.input)
  }

  /** The two halves of a move turn: the first mover's, then the second mover's if the
      creature that was second at the start (party member `secondIdx`) still stands and the
      battle is not over. */
  function BothHalves(b: Battle, first: Side, secondIdx: nat, d: TurnDraws, fuel: nat, input: seq<Answer>): (r: Step)
    requires b.Valid() && secondIdx < (if first.Other() == PlayerSide then |b.playerParty| else |b.enemyParty|)
    ensures r.b.Valid() && Frame(b, r.b)
    ensures r.running ==> r.b.state == ActionSelection || r.b.state == BattleOver
    ensures var second, a1 := first.Other(), MoveThenAfterTurn(b, first, Active(b, first).currentMove, d.first, fuel, input);
      && (!a1.running || a1.b.state == BattleOver ==> r == a1)
      && (a1.running && a1.b.state != BattleOver && Member(a1.b, second, secondIdx).hp <= 0 ==> r == Conclude(a1))
      && (a1.running && a1.b.state != BattleOver && Member(a1.b, second, secondIdx).hp > 0 ==>
            r == Conclude(MoveThenAfterTurn(a1.b, second, Active(a1.b, second).currentMove, d.second, fuel, a1.input)))
  {
    var second := first.Other();
    var a1 := MoveThenAfterTurn(b, first, Active(b, first).currentMove, d.first, fuel, input);
    if !a1.running || a1.b.state == BattleOver then a1
    else if Member(a1.b, second, secondIdx).hp > 0 then
      Conclude(MoveThenAfterTurn(a1.b, second, Active(a1.b, second).currentMove, d.second, fuel, a1.input))
    else Conclude(a1)
  }

  /** What the Move branch of `RunTurns` does with the player's move `k`. A move number out of
      range, or an enemy without PP, throws. Otherwise the enemy picks a random move `j` with PP
      and both are remembered as the creatures' current moves. The higher priority moves first;
      on equal priority the player does, unless the enemy is strictly faster. The second side
      then moves only if the battle is not over and the creature that stood there when the turn
      began (`secondPokemon`) still has HP; a turn that goes on returns to action selection. */
  predicate MoveTurnRule(b: Battle, k: int, d: TurnDraws, fuel: nat, input: seq<Answer>, r: Step)
    requires b.Valid()
  {
    var p, e := Active(b, PlayerSide), Active(b, EnemySide);
    if !(0 <= k < |p.moves|) then r == Step(b, false, input)
    else match EnemyMoveChoice(e, d.enemyPick)
      case None => r == Step(WithActive(b, PlayerSide, p.(currentMove := Some(k))), false, input)
      case Some(j) =>
        var pp, ep := p.moves[k].base.priority, e.moves[j].base.priority;
        var enemyFirst := ep > pp || (ep == pp && Speed(p) < Speed(e));
        var first := if enemyFirst then EnemySide else PlayerSide;
        var second := first.Other();
        var secondIdx := if enemyFirst then b.playerIdx else b.enemyIdx;
        var b1 := WithBoth(b, PlayerSide, p.(currentMove := Some(k)), e.(currentMove := Some(j)));
        var a1 := MoveThenAfterTurn(b1, first, Some(if enemyFirst then j else k), d.first, fuel, input);
        Frame(b1, a1.b)
        && (!a1.running || a1.b.state == BattleOver ==> r == a1)
        && (a1.running && a1.b.state != BattleOver && Member(a1.b, second, secondIdx).hp <= 0 ==> r == Conclude(a1))
        && (a1.running && a1.b.state != BattleOver && Member(a1.b, second, secondIdx).hp > 0 ==>
              r == Conclude(MoveThenAfterTurn(a1.b, second, Active(a1.b, second).currentMove, d.second, fuel, a1.input)))
  }

  /** The Move branch of `RunTurns`, as `MoveTurnRule` describes it. */
  function MoveTurn(b: Battle, k: int, d: TurnDraws, fuel: nat, input: seq<Answer>): (r: Step)
    requires b.Valid()
    ensures r.b.Valid() && Frame(b, r.b)
    ensures r.running ==> r.b.state == ActionSelection || r.b.state == BattleOver
    ensures MoveTurnRule(b, k, d, fuel, input, r)
  {
    var p, e := Active(b, PlayerSide), Active(b, EnemySide);
    if !(0 <= k < |p.moves|) then Step(b, false, input)
    else
      var p1 := p.(currentMove := Some(k));
      match EnemyMoveChoice(e, d.enemyPick)
      case None => Step(WithActive(b, PlayerSide, p1), false, input)
      case Some(j) =>
        var first := FirstMover(b, k, j);
        BothHalves(WithBoth(b, PlayerSide, p1, e.(currentMove := Some(j))), first,
                   if first == PlayerSide then b.enemyIdx else b.playerIdx, d, fuel, input)
  }

  /** The enemy's half of a turn after a switch, an item or a failed escape: a random move among
      those with PP, which throws when there is none; the enemy's `RunMove`, then its
      `RunAfterTurn` unless the move ended the battle; then back to action selection. */
  function EnemyTurn(b: Battle, d: TurnDraws, fuel: nat, input: seq<Answer>): (r: Step)
    requires b.Valid()
    ensures r.b.Valid() && Frame(b, r.b)
    ensures r.running ==> r.b.state == ActionSelection || r.b.state == BattleOver
    ensures EnemyMoveChoice(Active(b, EnemySide), d.enemyPick).None? ==> r == Step(b, false, input)
    ensures EnemyMoveChoice(Active(b, EnemySide), d.enemyPick).Some? ==>
      var m := RunMove(b, EnemySide, EnemyMoveChoice(Active(b, EnemySide), d.enemyPick), d.first, fuel, input);
      && (!m.running || m.b.state == BattleOver ==> r == m)
      && (m.running && m.b.state != BattleOver ==> r == Conclude(RunAfterTurn(m.b, EnemySide, fuel, m.input)))
  {
    match EnemyMoveChoice(Active(b, EnemySide), d.enemyPick)
    case None => Step(b, false, input)
    case Some(j) => Conclude(MoveThenAfterTurn(b, EnemySide, Some(j), d.first, fuel, input))
  }

  /** The player's part of a non-move turn: the switch, nothing for an item (the bag has done its
      work), or the escape attempt; `None` where the escape attempt throws. */
  function PlayerAction(b: Battle, action: BattleAction, d: TurnDraws): (r: Option<Battle>)
    requires b.Valid() && !action.MoveAction?
    requires action.SwitchAction? ==> action.member < |b.playerParty|
    ensures r.Some? ==> r.value.Valid() && Frame(b, r.value)
    ensures action.SwitchAction? ==> r == Some(b.(playerIdx := action.member, state := RunningTurn))
    ensures action == ItemAction ==> r == Some(b)
    ensures action == RunAction ==> r == TryToEscape(b, d.escapeQuick, d.escapeRoll)
  {
    match action
    case SwitchAction(member) => Some(SwitchIn(b.(state := Busy), member, false))
    case RunAction => TryToEscape(b, d.escapeQuick, d.escapeRoll)
    case _ => Some(b)
  }

  /** The other branches of `RunTurns`: the player's action, then the enemy's half. Once the
      player's action has ended the battle, the `OnBattleOver` handler has deactivated the battle
      system (`GameController.EndBattle`) and the turn goes no further. */
  function OtherTurn(b: Battle, action: BattleAction, d: TurnDraws, fuel: nat, input: seq<Answer>): (r: Step)
    requires b.Valid() && !action.MoveAction?
    requires action.SwitchAction? ==> action.member < |b.playerParty|
    ensures r.b.Valid() && Frame(b, r.b)
    ensures r.running ==> r.b.state == ActionSelection || r.b.state == BattleOver
    ensures PlayerAction(b, action, d).None? ==> r == Step(b, false, input)
    ensures PlayerAction(b, action, d).Some? && PlayerAction(b, action, d).value.state == BattleOver ==>
      r == Step(PlayerAction(b, action, d).value, true, input)
    ensures PlayerAction(b, action, d).Some? && PlayerAction(b, action, d).value.state != BattleOver ==>
      r == EnemyTurn(PlayerAction(b, action, d).value, d, fuel, input)
  {
    match PlayerAction(b, action, d)
    case None => Step(b, false, input)
    case Some(b1) => if b1.state == BattleOver then Step(b1, true, input) else EnemyTurn(b1, d, fuel, input)
  }

  /** The same branch read without the engine's deactivation: lines 242-245 of `RunTurns` give
      the enemy its move even after a successful escape, whose `BattleOver` has already been
      recorded; only its after-turn step is skipped while the battle stays over. */
  function OtherTurnIgnoringDeactivation(b: Battle, action: BattleAction, d: TurnDraws, fuel: nat, input: seq<Answer>): (r: Step)
    requires b.Valid() && !action.MoveAction?
    requires action.SwitchAction? ==> action.member < |b.playerParty|
    ensures r.b.Valid() && Frame(b, r.b)
    ensures r.running ==> r.b.state == ActionSelection || r.b.state == BattleOver
    ensures PlayerAction(b, action, d).None? ==> r == Step(b, false, input)
    ensures PlayerAction(b, action, d).Some? ==> r == EnemyTurn(PlayerAction(b, action, d).value, d, fuel, input)
    ensures var b1 := PlayerAction(b, action, d);
      b1.Some? && b1.value.state == BattleOver && EnemyMoveChoice(Active(b1.value, EnemySide), d.enemyPick).Some? ==>
        var m := RunMove(b1.value, EnemySide, EnemyMoveChoice(Active(b1.value, EnemySide), d.enemyPick), d.first, fuel, input);
        m.running && m.b.state == BattleOver ==> r == m
  {
    match PlayerAction(b, action, d)
    case None => Step(b, false, input)
    case Some(b1) => EnemyTurn(b1, d, fuel, input)
  }

  /** The two readings agree on every turn whose player action has not ended the battle. On a
      turn it has ended, the deactivated battle stops right there, while without the deactivation
      the enemy's half still runs from the ended battle. */
  lemma DeactivationOnlyCutsEndedTurns(b: Battle, action: BattleAction, d: TurnDraws, fuel: nat, input: seq<Answer>)
    requires b.Valid() && !action.MoveAction?
    requires action.SwitchAction? ==> action.member < |b.playerParty|
    ensures !(PlayerAction(b, action, d).Some? && PlayerAction(b, action, d).value.state == BattleOver) ==>
      OtherTurn(b, action, d, fuel, input) == OtherTurnIgnoringDeactivation(b, action, d, fuel, input)
    ensures PlayerAction(b, action, d).Some? && PlayerAction(b, action, d).value.state == BattleOver ==>
      && OtherTurn(b, action, d, fuel, input) == Step(PlayerAction(b, action, d).value, true, input)
      && OtherTurnIgnoringDeactivation(b, action, d, fuel, input) == EnemyTurn(PlayerAction(b, action, d).value, d, fuel, input)
  {
  }

  /** After a successful escape the deactivated battle leaves the enemy's creature as it was;
      without the deactivation the enemy's move still runs and spends a PP, and when the battle
      is still over afterwards nothing else follows. */
  lemma EnemyMovesAfterEscapeWithoutDeactivation(b: Battle, d: TurnDraws, fuel: nat, input: seq<Answer>, j: nat)
    requires b.Valid() && PlayerAction(b, RunAction, d).Some?
    requires PlayerAction(b, RunAction, d).value.state == BattleOver
    requires EnemyMoveChoice(Active(b, EnemySide), d.enemyPick) == Some(j)
    requires OnBeforeMove(Active(b, EnemySide), d.first.statusCheck, d.first.volatileCheck).1
    ensures OtherTurn(b, RunAction, d, fuel, input).b.enemyParty == b.enemyParty
    ensures var b1 := PlayerAction(b, RunAction, d).value;
      var m := RunMove(b1, EnemySide, Some(j), d.first, fuel, input);
      && Active(m.b, EnemySide).moves[j].pp == Active(b, EnemySide).moves[j].pp - 1
      && (m.running && m.b.state == BattleOver ==> OtherTurnIgnoringDeactivation(b, RunAction, d, fuel, input) == m)
  {
    var b1 := PlayerAction(b, RunAction, d).value;
    assert Active(b1, EnemySide) == Active(b, EnemySide);
  }

  /** `RunTurns`: the state becomes RunningTurn and the action's branch runs: a move turn with
      its turn order and second-mover rule (`MoveTurnRule`), or the player's action followed by
      the enemy's half. A turn that goes on to its end leaves the battle in action selection or
      over. */
  function RunTurns(b: Battle, action: BattleAction, d: TurnDraws, fuel: nat, input: seq<Answer>): (r: Step)
    requires b.Valid()
    requires action.SwitchAction? ==> action.member < |b.playerParty|
    ensures r.b.Valid() && Frame(b, r.b)
    ensures r.running ==> r.b.state == ActionSelection || r.b.state == BattleOver
    ensures action.MoveAction? ==> MoveTurnRule(b.(state := RunningTurn), action.currentMove, d, fuel, input, r)
    ensures !action.MoveAction? ==>
      var b0 := b.(state := RunningTurn);
      && (PlayerAction(b0, action, d).None? ==> r == Step(b0, false, input))
      && (PlayerAction(b0, action, d).Some? && PlayerAction(b0, action, d).value.state == BattleOver ==>
            r == Step(PlayerAction(b0, action, d).value, true, input))
      && (PlayerAction(b0, action, d).Some? && PlayerAction(b0, action, d).value.state != BattleOver ==>
            r == EnemyTurn(PlayerAction(b0, action, d).value, d, fuel, input))
  {
    var b0 := b.(state := RunningTurn);
    if action.MoveAction? then MoveTurn(b0, action.currentMove, d, fuel, input)
    else OtherTurn(b0, action, d, fuel, input)
  }

  // ---------------------------------------------------------------------------
  // Items in battle

  /** The catch parameters of one ball throw: `bValue` and the four draws of
      `TryToCatchPokemon`. */
  datatype CatchDraws = CatchDraws(bValue: real, draws: seq<int>)

  /** A ball may be thrown at the enemy's creature: the catch formula divides by its MaxHp. */
  predicate Throwable(b: Battle, item: Item)
    requires b.Valid()
  {
    item.kind.Pokeball? && !b.isTrainerBattle ==> Active(b, EnemySide).maxHp != 0
  }

  /** `OnItemUsed`: a Pokéball is thrown; then, unless the catch ended the battle, the turn runs
      with the item as the player's action, so the enemy moves. */
  function OnItemUsed(b: Battle, item: Item, c: CatchDraws, d: TurnDraws, fuel: nat, input: seq<Answer>): (r: Step)
    requires b.Valid() && Throwable(b, item)
    ensures r.b.Valid() && r.b.isTrainerBattle == b.isTrainerBattle && b.outcomes <= r.b.outcomes
    ensures r.running ==> r.b.state == ActionSelection || r.b.state == BattleOver
    ensures !item.kind.Pokeball? ==> r == RunTurns(b.(state := Busy), ItemAction, d, fuel, input)
    ensures item.kind.Pokeball? && !b.isTrainerBattle
            && ShakeCount(EnemyCatchValue(b, item.kind.catchRateModifier), c.bValue, c.draws) == 4 ==>
      && r.running && r.b.state == BattleOver && r.b.outcomes == b.outcomes + [true]
      && (|b.playerParty| < MaxPartySize ==> && |r.b.playerParty| == |b.playerParty| + 1
                                             && r.b.playerParty[|b.playerParty|] == OnBattleOver(Active(b, EnemySide)))
  {
    var b1 := b.(state := Busy);
    var b2 := if item.kind.Pokeball? then ThrowPokeballs(b1, item.kind.catchRateModifier, c.bValue, c.draws) else b1;
    if b2.state == BattleOver then Step(b2, true, input)
    else RunTurns(b2, ItemAction, d, fuel, input)
  }

  /** The same handler read without the engine's deactivation: `RunTurns` is started whatever
      the throw did, so after a catch has ended the battle the turn is reset to RunningTurn and
      the enemy's half still runs. */
  function OnItemUsedIgnoringDeactivation(b: Battle, item: Item, c: CatchDraws, d: TurnDraws, fuel: nat,
                                          input: seq<Answer>): (r: Step)
    requires b.Valid() && Throwable(b, item)
    ensures r.b.Valid() && r.b.isTrainerBattle == b.isTrainerBattle && b.outcomes <= r.b.outcomes
    ensures r.running ==> r.b.state == ActionSelection || r.b.state == BattleOver
    ensures var b2 := if item.kind.Pokeball? then ThrowPokeballs(b.(state := Busy), item.kind.catchRateModifier, c.bValue, c.draws)
                      else b.(state := Busy);
      r == EnemyTurn(b2.(state := RunningTurn), d, fuel, input)
  {
    var b1 := b.(state := Busy);
    var b2 := if item.kind.Pokeball? then ThrowPokeballs(b1, item.kind.catchRateModifier, c.bValue, c.draws) else b1;
    RunTurns(b2, ItemAction, d, fuel, input)
  }

  /** The two readings of `OnItemUsed` agree unless the throw caught the enemy's creature. */
  lemma DeactivationOnlyCutsCatches(b: Battle, item: Item, c: CatchDraws, d: TurnDraws, fuel: nat, input: seq<Answer>)
    requires b.Valid() && Throwable(b, item)
    ensures !(item.kind.Pokeball? && !b.isTrainerBattle
              && ShakeCount(EnemyCatchValue(b, item.kind.catchRateModifier), c.bValue, c.draws) == 4) <==>
      OnItemUsed(b, item, c, d, fuel, input) == OnItemUsedIgnoringDeactivation(b, item, c, d, fuel, input)
  {
  }

  /** After a catch the deactivated battle leaves the enemy's creature as it was; without the
      deactivation the caught creature still uses its move and spends a PP, and when neither
      creature faints the turn ends in action selection although the battle has been won. */
  lemma EnemyMovesAfterCatchWithoutDeactivation(b: Battle, item: Item, c: CatchDraws, d: TurnDraws, fuel: nat,
                                                input: seq<Answer>, j: nat)
    requires b.Valid() && Throwable(b, item) && item.kind.Pokeball? && !b.isTrainerBattle
    requires ShakeCount(EnemyCatchValue(b, item.kind.catchRateModifier), c.bValue, c.draws) == 4
    requires EnemyMoveChoice(Active(b, EnemySide), d.enemyPick) == Some(j)
    requires OnBeforeMove(Active(b, EnemySide), d.first.statusCheck, d.first.volatileCheck).1
    ensures OnItemUsed(b, item, c, d, fuel, input).b.enemyParty == b.enemyParty
    ensures var b0 := ThrowPokeballs(b.(state := Busy), item.kind.catchRateModifier, c.bValue, c.draws).(state := RunningTurn);
      var m := RunMove(b0, EnemySide, Some(j), d.first, fuel, input);
      var r := OnItemUsedIgnoringDeactivation(b, item, c, d, fuel, input);
      && Active(m.b, EnemySide).moves[j].pp == Active(b, EnemySide).moves[j].pp - 1
      && (m.running && m.b.state == RunningTurn && OnAfterTurn(Active(m.b, EnemySide)).hp > 0 ==>
            && r.running && r.b.state == ActionSelection
            && r.b.outcomes == b.outcomes + [true])
  {
    var b0 := ThrowPokeballs(b.(state := Busy), item.kind.catchRateModifier, c.bValue, c.draws).(state := RunningTurn);
    assert Active(b0, EnemySide) == Active(b, EnemySide);
    assert b0.outcomes == b.outcomes + [true];
    EnemyTurnEndsInActionSelection(b0, d, fuel, input, j);
  }

  /** The enemy's half from a running turn whose move leaves the player's creature standing and
      whose after-turn step leaves the enemy's standing returns to action selection with no new
      outcome. */
  lemma EnemyTurnEndsInActionSelection(b: Battle, d: TurnDraws, fuel: nat, input: seq<Answer>, j: nat)
    requires b.Valid() && b.state == RunningTurn
    requires EnemyMoveChoice(Active(b, EnemySide), d.enemyPick) == Some(j)
    ensures var m := RunMove(b, EnemySide, Some(j), d.first, fuel, input);
      m.running && m.b.state == RunningTurn && OnAfterTurn(Active(m.b, EnemySide)).hp > 0 ==>
        var r := EnemyTurn(b, d, fuel, input);
        r.running && r.b.state == ActionSelection && r.b.outcomes == b.outcomes
  {
    var m := RunMove(b, EnemySide, Some(j), d.first, fuel, input);
    if m.running && m.b.state == RunningTurn {
      assert m.b.outcomes == b.outcomes;
    }
  }

  /** What the bag screen reports back while the battle is in the Bag state. */
  datatype BagEvent = BagBack | ItemUsed(item: Item)

  /** The Bag branch of `HandleUpdate` as written: only the back action reaches the bag screen,
      so an item used there never reaches the battle. */
  function HandleBagAsWritten(b: Battle, ev: BagEvent): (r: Battle)
    ensures ev == BagBack ==> r == b.(state := ActionSelection)
    ensures ev.ItemUsed? ==> r == b
  {
    match ev
    case BagBack => b.(state := ActionSelection)
    case ItemUsed(_) => b
  }

  /** The Bag branch of `HandleUpdate` with the item callback handed on: the back action returns
      to action selection, a used item goes to `OnItemUsed`. */
  function HandleBag(b: Battle, ev: BagEvent, c: CatchDraws, d: TurnDraws, fuel: nat, input: seq<Answer>): (r: Step)
    requires b.Valid() && (ev.ItemUsed? ==> Throwable(b, ev.item))
    ensures ev == BagBack ==> r == Step(b.(state := ActionSelection), true, input)
    ensures ev.ItemUsed? ==> r == OnItemUsed(b, ev.item, c, d, fuel, input)
  {
    match ev
    case BagBack => Step(b.(state := ActionSelection), true, input)
    case ItemUsed(item) => OnItemUsed(b, item, c, d, fuel, input)
  }

  /** In a wild battle, a ball that is certain to catch wins the battle once the callback is
      handed on, while as written the battle stays in the bag with nothing caught. */
  lemma BagDropsUsedItems(b: Battle, item: Item, c: CatchDraws, d: TurnDraws, fuel: nat, input: seq<Answer>)
    requires b.Valid() && b.state == Bag && !b.isTrainerBattle && item.kind.Pokeball?
    requires Active(b, EnemySide).maxHp != 0
    requires EnemyCatchValue(b, item.kind.catchRateModifier) >= 255.0
    ensures HandleBagAsWritten(b, ItemUsed(item)).state == Bag
    ensures HandleBagAsWritten(b, ItemUsed(item)).outcomes == b.outcomes
    ensures HandleBagAsWritten(b, ItemUsed(item)).playerParty == b.playerParty
    ensures var r := HandleBag(b, ItemUsed(item), c, d, fuel, input);
      r.b.state == BattleOver && r.b.outcomes == b.outcomes + [true]
  {
  }

  // ---------------------------------------------------------------------------
  // Menus

  /** The arrow key read by a menu in one frame; at most one counts. */
  datatype Arrow = ArrowRight | ArrowLeft | ArrowDown | ArrowUp | NoArrow

  /** The confirm key (Space) or the back key (Left Shift), if pressed. */
  datatype Press = Confirm | Cancel | NoPress

  /** The two-column cursor step: Right and Left move by one, Down and Up by a row of two. */
  function Shift(cursor: int, arrow: Arrow): (r: int)
    ensures arrow == NoArrow ==> r == cursor
    ensures arrow == ArrowRight ==> r == cursor + 1
    ensures arrow == ArrowLeft ==> r == cursor - 1
    ensures arrow == ArrowDown ==> r == cursor + 2
    ensures arrow == ArrowUp ==> r == cursor - 2
  {
    match arrow
    case ArrowRight => cursor + 1
    case ArrowLeft => cursor - 1
    case ArrowDown => cursor + 2
    case ArrowUp => cursor - 2
    case NoArrow => cursor
  }

  /** Opposite arrows undo each other, and a row down is two steps right. */
  lemma ShiftInverse(cursor: int)
    ensures Shift(Shift(cursor, ArrowRight), ArrowLeft) == cursor
    ensures Shift(Shift(cursor, ArrowLeft), ArrowRight) == cursor
    ensures Shift(Shift(cursor, ArrowDown), ArrowUp) == cursor
    ensures Shift(Shift(cursor, ArrowUp), ArrowDown) == cursor
    ensures Shift(Shift(cursor, ArrowRight), ArrowRight) == Shift(cursor, ArrowDown)
  {
  }

  /** Where a menu frame leaves the battle. */
  datatype MenuOutcome =
    | Stay                          // nothing confirmed
    | GoTo(b: Battle)               // a new menu state
    | StartTurn(action: BattleAction)
    | Throws                        // the move list is empty and indexing it throws

  /** `HandleActionSelection`: the cursor moves over the four actions and stays in [0, 3];
      confirming opens move selection, the bag or the party screen, or runs the turn with the
      escape attempt. */
  function HandleActionSelection(b: Battle, cursor: int, arrow: Arrow, press: Press): (r: (int, MenuOutcome))
    ensures 0 <= r.0 <= 3
    ensures 0 <= Shift(cursor, arrow) <= 3 ==> r.0 == Shift(cursor, arrow)
    ensures press != Confirm ==> r.1 == Stay
    ensures press == Confirm ==>
      && (r.0 == 0 ==> r.1 == GoTo(b.(state := MoveSelection)))
      && (r.0 == 1 ==> r.1 == GoTo(b.(state := Bag)))
      && (r.0 == 2 ==> r.1 == GoTo(b.(calledFrom := Some(b.state), state := PartyScreen)))
      && (r.0 == 3 ==> r.1 == StartTurn(RunAction))
  {
    var c := Clamp(Shift(cursor, arrow), 0, 3);
    if press != Confirm then (c, Stay)
    else if c == 0 then (c, GoTo(b.(state := MoveSelection)))
    else if c == 1 then (c, GoTo(b.(state := Bag)))
    else if c == 2 then (c, GoTo(OpenPartyScreen(b)))
    else (c, StartTurn(RunAction))
  }

  /** `HandleMoveSelection`: the cursor stays within the player's moves; confirming a move with
      exactly 0 PP is ignored, any other move starts the turn; the back key returns to action
      selection. With no moves at all the move list is indexed out of range. */
  function HandleMoveSelection(b: Battle, cursor: int, arrow: Arrow, press: Press): (r: (int, MenuOutcome))
    requires b.Valid()
    ensures var moves := Active(b, PlayerSide).moves;
      && (|moves| == 0 <==> r.1 == Throws)
      && (|moves| > 0 ==> 0 <= r.0 < |moves|)
      && (0 <= Shift(cursor, arrow) < |moves| ==> r.0 == Shift(cursor, arrow))
      && (|moves| > 0 && press == Confirm ==>
            (r.1 == StartTurn(MoveAction(r.0)) <==> moves[r.0].pp != 0)
            && (moves[r.0].pp == 0 ==> r.1 == Stay))
      && (|moves| > 0 && press == Cancel ==> r.1 == GoTo(b.(state := ActionSelection)))
      && (|moves| > 0 && press == NoPress ==> r.1 == Stay)
  {
    var moves := Active(b, PlayerSide).moves;
    var c := Clamp(Shift(cursor, arrow), 0, |moves| - 1);
    if |moves| == 0 then (c, Throws)
    else if press == Confirm then
      if moves[c].pp == 0 then (c, Stay) else (c, StartTurn(MoveAction(c)))
    else if press == Cancel then (c, GoTo(b.(state := ActionSelection)))
    else (c, Stay)
  }

  // ---------------------------------------------------------------------------
  // Setting up a battle

  /** `StartBattle` with `SetupBattle` run to its end: the player's first healthy creature
      against the wild one, no escape attempts yet, action selection. A party with nobody
      healthy makes the setup dereference null (`None`). */
  function StartWildBattle(playerParty: seq<Creature>, wild: Creature): (r: Option<Battle>)
    requires StagesInRange(playerParty) && wild.boosts.InRange()
    ensures r.None? <==> AllFainted(playerParty)
    ensures r.Some? ==> && r.value.Valid() && !r.value.isTrainerBattle
                        && r.value.enemyParty == [wild] && r.value.playerParty == playerParty
                        && Active(r.value, PlayerSide).hp > 0 && r.value.escapeAttempts == 0
                        && r.value.state == ActionSelection && r.value.outcomes == []
                        && forall j :: 0 <= j < r.value.playerIdx ==> playerParty[j].hp <= 0
  {
    match GetHealthyPokemon(playerParty)
    case None => Option.None
    case Some(i) => Some(Battle(playerParty, i, [wild], 0, false, 0, ActionSelection, Option.None, Option.None, []))
  }

  /** `StartTrainerBattle` with `SetupBattle` run to its end: the first healthy creature of each
      side, no escape attempts yet, action selection. Either side with nobody healthy makes the
      setup dereference null (`None`). */
  function StartTrainerBattle(playerParty: seq<Creature>, trainerParty: seq<Creature>): (r: Option<Battle>)
    requires StagesInRange(playerParty) && StagesInRange(trainerParty)
    ensures r.None? <==> AllFainted(playerParty) || AllFainted(trainerParty)
    ensures r.Some? ==> && r.value.Valid() && r.value.isTrainerBattle
                        && r.value.enemyParty == trainerParty && r.value.playerParty == playerParty
                        && Active(r.value, PlayerSide).hp > 0 && Active(r.value, EnemySide).hp > 0
                        && r.value.escapeAttempts == 0 && r.value.state == ActionSelection && r.value.outcomes == []
  {
    match (GetHealthyPokemon(trainerParty), GetHealthyPokemon(playerParty))
    case (Some(e), Some(p)) => Some(Battle(playerParty, p, trainerParty, e, true, 0, ActionSelection, Option.None, Option.None, []))
    case _ => Option.None
  }
}

=== FILE: battle_core.dfy ===
/** The state of a battle (`BattleSystem.cs`) and the handlers that answer its prompts: the
    party screen, the "about to use" question and the move-to-forget choice. Each battle unit
    is an index into its side's party, so a creature changed through its unit is changed in the
    party, as the shared objects of the source are. A wild battle's enemy party is the wild
    creature alone. */
module BattleCore {
  import opened Options
  import opened Moves
  import opened Pokemon
  import opened PokemonParty

  datatype BattleState =
    | Start | ActionSelection | MoveSelection | RunningTurn | Busy
    | PartyScreen | BattleOver | AboutToUse | MoveToForget | Bag

  datatype Side = PlayerSide | EnemySide {
    function Other(): Side {
      if this == PlayerSide then EnemySide else PlayerSide
    }
  }

  /** Every creature of the party has all its stages in [-6, 6]. */
  predicate StagesInRange(party: seq<Creature>) {
    forall i :: 0 <= i < |party| ==> party[i].boosts.InRange()
  }

  /** Every member of the party has fainted. */
  predicate AllFainted(party: seq<Creature>) {
    forall i :: 0 <= i < |party| ==> party[i].hp <= 0
  }

  datatype Battle = Battle(
    playerParty: seq<Creature>,
    playerIdx: nat,                    // playerUnit.Pokemon
    enemyParty: seq<Creature>,         // the trainer's party, or the wild creature alone
    enemyIdx: nat,                     // enemyUnit.Pokemon
    isTrainerBattle: bool,
    escapeAttempts: int,
    state: BattleState,
    calledFrom: Option<BattleState>,   // partyScreen.CalledFrom
    moveToLearn: Option<MoveBase>,
    outcomes: seq<bool>)               // the argument of every OnBattleOver event raised so far
  {
    predicate Valid() {
      playerIdx < |playerParty| && enemyIdx < |enemyParty|
      && StagesInRange(playerParty) && StagesInRange(enemyParty)
    }
  }

  /** What no step of a battle changes: the party sizes and the kind of battle; and the
      OnBattleOver events raised so far stay raised. */
  predicate Frame(b: Battle, r: Battle) {
    && |r.playerParty| == |b.playerParty| && |r.enemyParty| == |b.enemyParty|
    && r.isTrainerBattle == b.isTrainerBattle
    && b.outcomes <= r.outcomes
  }

  /** The creature standing in the side's battle unit. */
  function Active(b: Battle, side: Side): (c: Creature)
    requires b.Valid()
    ensures c.boosts.InRange()
    ensures side == PlayerSide ==> c == b.playerParty[b.playerIdx]
    ensures side == EnemySide ==> c == b.enemyParty[b.enemyIdx]
  {
    if side == PlayerSide then b.playerParty[b.playerIdx] else b.enemyParty[b.enemyIdx]
  }

  /** The battle with the side's active creature replaced by `c`, and nothing else changed. */
  function WithActive(b: Battle, side: Side, c: Creature): (r: Battle)
    requires b.Valid() && c.boosts.InRange()
    ensures r.Valid() && Frame(b, r) && r.outcomes == b.outcomes
    ensures Active(r, side) == c && Active(r, side.Other()) == Active(b, side.Other())
    ensures side == PlayerSide ==> r == b.(playerParty := b.playerParty[b.playerIdx := c])
    ensures side == EnemySide ==> r == b.(enemyParty := b.enemyParty[b.enemyIdx := c])
  {
    if side == PlayerSide then b.(playerParty := b.playerParty[b.playerIdx := c])
    else b.(enemyParty := b.enemyParty[b.enemyIdx := c])
  }

  /** The battle with the side's active creature replaced by `s` and the other side's by `t`. */
  function WithBoth(b: Battle, side: Side, s: Creature, t: Creature): (r: Battle)
    requires b.Valid() && s.boosts.InRange() && t.boosts.InRange()
    ensures r.Valid() && Frame(b, r) && r.outcomes == b.outcomes
    ensures Active(r, side) == s && Active(r, side.Other()) == t
    ensures r == b.(playerParty := r.playerParty, enemyParty := r.enemyParty)
    ensures forall j :: 0 <= j < |b.playerParty| && j != b.playerIdx ==> r.playerParty[j] == b.playerParty[j]
    ensures forall j :: 0 <= j < |b.enemyParty| && j != b.enemyIdx ==> r.enemyParty[j] == b.enemyParty[j]
  {
    WithActive(WithActive(b, side, s), side.Other(), t)
  }

  /** `ShowStatusChanges`: the queued messages are shown, leaving the queue empty. */
  function ShowStatusChanges(b: Battle, side: Side): (r: Battle)
    requires b.Valid()
    ensures r.Valid() && Frame(b, r)
    ensures Active(r, side) == Active(b, side).(statusChanges := [])
    ensures Active(r, side.Other()) == Active(b, side.Other())
  {
    WithActive(b, side, Active(b, side).(statusChanges := []))
  }

  // ---------------------------------------------------------------------------
  // The end of a battle

  /** `BattleOver(won)`: the state becomes BattleOver, every member of the PLAYER's party runs
      `OnBattleOver` (the enemy's creatures keep their stages), and the event is raised with
      `won`. */
  function FinishBattle(b: Battle, won: bool): (r: Battle)
    requires b.Valid()
    ensures r.Valid() && Frame(b, r)
    ensures r.state == BattleOver && r.outcomes == b.outcomes + [won]
    ensures forall i :: 0 <= i < |b.playerParty| ==> r.playerParty[i] == OnBattleOver(b.playerParty[i])
    ensures r.(playerParty := b.playerParty, state := b.state, outcomes := b.outcomes) == b
  {
    var party := seq(|b.playerParty|, i requires 0 <= i < |b.playerParty| => OnBattleOver(b.playerParty[i]));
    b.(state := BattleOver, playerParty := party, outcomes := b.outcomes + [won])
  }

  /** `OpenPartyScreen`: the screen remembers the state it was called from. */
  function OpenPartyScreen(b: Battle): (r: Battle)
    ensures r == b.(calledFrom := Some(b.state), state := PartyScreen)
  {
    b.(calledFrom := Some(b.state), state := PartyScreen)
  }

  /** `CheckForBattleOver` after the side's creature fainted. The player loses when no member
      of the party can fight, and otherwise must pick one; the player wins a wild battle at once
      and a trainer battle when the trainer has nobody left, and otherwise is asked whether to
      switch before the trainer's next creature comes out. */
  function CheckForBattleOver(b: Battle, fainted: Side): (r: Battle)
    requires b.Valid()
    ensures r.Valid() && Frame(b, r)
    ensures r.playerParty == b.playerParty || r.state == BattleOver
    ensures r.enemyParty == b.enemyParty && r.playerIdx == b.playerIdx && r.enemyIdx == b.enemyIdx
    ensures fainted == PlayerSide ==>
      if AllFainted(b.playerParty) then r == FinishBattle(b, false)
      else r == b.(calledFrom := Some(b.state), state := PartyScreen)
    ensures fainted == EnemySide ==>
      if !b.isTrainerBattle || AllFainted(b.enemyParty) then r == FinishBattle(b, true)
      else r == b.(state := AboutToUse)
  {
    if fainted == PlayerSide then
      if GetHealthyPokemon(b.playerParty).Some? then OpenPartyScreen(b) else FinishBattle(b, false)
    else if !b.isTrainerBattle then FinishBattle(b, true)
    else if GetHealthyPokemon(b.enemyParty).Some? then b.(state := AboutToUse)
    else FinishBattle(b, true)
  }

  // ---------------------------------------------------------------------------
  // Switching creatures

  /** `SendNextTrainerPokemon`: the trainer's first healthy creature enters the enemy unit and
      the turn goes on. With nobody healthy the source dereferences null and the state stays
      Busy. */
  function SendNextTrainerPokemon(b: Battle): (r: Battle)
    requires b.Valid()
    ensures r.Valid() && Frame(b, r) && r.outcomes == b.outcomes
    ensures r.playerParty == b.playerParty && r.playerIdx == b.playerIdx && r.enemyParty == b.enemyParty
    ensures AllFainted(b.enemyParty) ==> r == b.(state := Busy)
    ensures !AllFainted(b.enemyParty) ==>
      && r.state == RunningTurn && Active(r, EnemySide).hp > 0
      && (forall j :: 0 <= j < r.enemyIdx ==> b.enemyParty[j].hp <= 0)
      && r == b.(enemyIdx := r.enemyIdx, state := RunningTurn)
  {
    match GetHealthyPokemon(b.enemyParty)
    case None => b.(state := Busy)
    case Some(i) => b.(enemyIdx := i, state := RunningTurn)
  }

  /** `SwitchPokemon(member, isTrainerAboutToUse)`: the member enters the player's unit; after
      an "about to use" question the trainer's next creature follows, otherwise the turn goes
      on. */
  function SwitchIn(b: Battle, member: nat, isTrainerAboutToUse: bool): (r: Battle)
    requires b.Valid() && member < |b.playerParty|
    ensures r.Valid() && Frame(b, r) && r.playerIdx == member && r.playerParty == b.playerParty
    ensures !isTrainerAboutToUse ==> r == b.(playerIdx := member, state := RunningTurn)
    ensures isTrainerAboutToUse ==> r == SendNextTrainerPokemon(b.(playerIdx := member))
  {
    var b1 := b.(playerIdx := member);
    if isTrainerAboutToUse then SendNextTrainerPokemon(b1) else b1.(state := RunningTurn)
  }

  /** How the party screen's `onSelected` treats a member. */
  datatype MemberCheck = AlreadyFainted | AlreadyInBattle | SwitchAsTurn | SwitchNow

  /** The checks of `onSelected`: a fainted member and the member already in battle are refused
      (the screen stays open); otherwise, from action selection the switch is the player's
      turn, and from anywhere else it happens at once. */
  function CheckMember(b: Battle, member: nat): (r: MemberCheck)
    requires b.Valid() && member < |b.playerParty|
    ensures r == AlreadyFainted <==> b.playerParty[member].hp <= 0
    ensures r == AlreadyInBattle <==> b.playerParty[member].hp > 0 && member == b.playerIdx
    ensures r == SwitchAsTurn || r == SwitchNow ==> b.playerParty[member].hp > 0 && member != b.playerIdx
    ensures r == SwitchAsTurn <==> r != AlreadyFainted && r != AlreadyInBattle && b.calledFrom == Some(ActionSelection)
  {
    if b.playerParty[member].hp <= 0 then AlreadyFainted
    else if member == b.playerIdx then AlreadyInBattle
    else if b.calledFrom == Some(ActionSelection) then SwitchAsTurn
    else SwitchNow
  }

  // ---------------------------------------------------------------------------
  // Answers to prompts

  /** One answer of the player at a prompt. */
  datatype Answer =
    | PickMember(member: nat)   // party screen: `onSelected` on this member
    | Back                      // party screen: `onBack`
    | Yes | No                  // the "about to use" question
    | ForgetMove(index: int)    // move-to-forget: 0..3 a known move, 4 keeps them all

  /** The move-to-forget handler: 4 declines, any other index replaces that move with a fresh
      copy of the move to learn; then the turn goes on. An index the handler cannot use (out of
      range, or nothing to learn) throws before the state changes. */
  function MoveForgetSelected(b: Battle, index: int): (r: Battle)
    requires b.Valid()
    ensures r.Valid() && Frame(b, r) && r.outcomes == b.outcomes
    ensures var c := Active(b, PlayerSide);
      if b.moveToLearn.None? || !(index == 4 || 0 <= index < |c.moves|) then r == b
      else
        && r.state == RunningTurn && r.moveToLearn.None?
        && (index == 4 ==> Active(r, PlayerSide) == c)
        && (index != 4 ==>
              && |Active(r, PlayerSide).moves| == |c.moves|
              && Active(r, PlayerSide).moves[index] == NewMove(b.moveToLearn.value)
              && (forall j :: 0 <= j < |c.moves| && j != index ==> Active(r, PlayerSide).moves[j] == c.moves[j]))
        && Active(r, PlayerSide) == c.(moves := Active(r, PlayerSide).moves)
        && r == WithActive(b, PlayerSide, Active(r, PlayerSide)).(state := RunningTurn, moveToLearn := None)
  {
    var c := Active(b, PlayerSide);
    if b.moveToLearn.None? || !(index == 4 || 0 <= index < |c.moves|) then b
    else
      var c1 := ReplaceMove(c, index, b.moveToLearn.value);
      WithActive(b, PlayerSide, c1).(state := RunningTurn, moveToLearn := None)
  }

  /** The party screen's `onBack`: refused while the player's creature has fainted; after an
      "about to use" question the trainer's creature comes out; otherwise back to action
      selection. */
  function PartyBack(b: Battle): (r: Battle)
    requires b.Valid()
    ensures r.Valid() && Frame(b, r) && r.outcomes == b.outcomes && r.playerParty == b.playerParty
    ensures Active(b, PlayerSide).hp <= 0 ==> r == b
    ensures Active(b, PlayerSide).hp > 0 && b.calledFrom == Some(AboutToUse) ==>
      r == SendNextTrainerPokemon(b.(calledFrom := None))
    ensures Active(b, PlayerSide).hp > 0 && b.calledFrom != Some(AboutToUse) ==>
      r == b.(calledFrom := None, state := ActionSelection)
  {
    if Active(b, PlayerSide).hp <= 0 then b
    else if b.calledFrom == Some(AboutToUse) then SendNextTrainerPokemon(b.(calledFrom := None))
    else b.(calledFrom := None, state := ActionSelection)
  }

  /** One answer applied to the prompt the battle shows. An answer that does not fit the prompt
      is ignored; a member picked from action selection starts a new turn, which is `RunTurns`'
      business and not a prompt's. */
  function Resolve(b: Battle, a: Answer): (r: Battle)
    requires b.Valid()
    ensures r.Valid() && Frame(b, r) && r.outcomes == b.outcomes
    ensures b.state == MoveToForget ==> (a.ForgetMove? ==> r == MoveForgetSelected(b, a.index)) && (!a.ForgetMove? ==> r == b)
    ensures b.state != MoveToForget ==> r.moveToLearn == b.moveToLearn && r.playerParty == b.playerParty
    ensures b.state == PartyScreen && a.PickMember? && a.member < |b.playerParty| && CheckMember(b, a.member) == SwitchNow ==>
      r == SwitchIn(b.(state := Busy, calledFrom := None), a.member, b.calledFrom == Some(AboutToUse))
    ensures b.state == PartyScreen && a.PickMember? && !(a.member < |b.playerParty| && CheckMember(b, a.member) == SwitchNow) ==>
      r == b
    ensures b.state == PartyScreen && a == Back ==> r == PartyBack(b)
    ensures b.state == PartyScreen && !a.PickMember? && a != Back ==> r == b
    ensures b.state == AboutToUse && a == Yes ==> r == OpenPartyScreen(b)
    ensures b.state == AboutToUse && a == No ==> r == SendNextTrainerPokemon(b)
    ensures b.state == AboutToUse && a != Yes && a != No ==> r == b
    ensures b.state != MoveToForget && b.state != PartyScreen && b.state != AboutToUse ==> r == b
  {
    match b.state
    case MoveToForget =>
      if a.ForgetMove? then MoveForgetSelected(b, a.index) else b
    case PartyScreen =>
      if a.PickMember? then
        if a.member < |b.playerParty| && CheckMember(b, a.member) == SwitchNow then
          SwitchIn(b.(state := Busy, calledFrom := None), a.member, b.calledFrom == Some(AboutToUse))
        else b
      else if a == Back then PartyBack(b)
      else b
    case AboutToUse =>
      if a == Yes then OpenPartyScreen(b)
      else if a == No then SendNextTrainerPokemon(b)
      else b
    case _ => b
  }

  // ---------------------------------------------------------------------------
  // Coroutine waits

  /** Where a coroutine stands: the battle, whether it is still running (false: it threw, or
      waits for an answer the input does not contain), and the answers not yet consumed. */
  datatype Step = Step(b: Battle, running: bool, input: seq<Answer>)

  /** `WaitUntil(state == RunningTurn)`: answers are consumed one by one until the turn may go
      on; when they run out first, the coroutine waits forever. */
  function AwaitRunningTurn(b: Battle, input: seq<Answer>): (r: Step)
    requires b.Valid()
    ensures r.b.Valid() && Frame(b, r.b) && r.b.outcomes == b.outcomes
    ensures r.running <==> r.b.state == RunningTurn
    ensures b.state == RunningTurn ==> r == Step(b, true, input)
    ensures b.state == BattleOver ==> !r.running && r.b == b
    ensures |r.input| <= |input|
    decreases |input|
  {
    if b.state == RunningTurn then Step(b, true, input)
    else if |input| == 0 then Step(b, false, input)
    else AwaitRunningTurn(Resolve(b, input[0]), input[1..])
  }

  /** `WaitUntil(state != MoveToForget)`: answers are consumed until the move-to-forget prompt
      is closed. Only the player's creature's moves, the state and the move to learn can
      change meanwhile. */
  function AwaitMoveForgotten(b: Battle, input: seq<Answer>): (r: Step)
    requires b.Valid()
    ensures r.b.Valid() && Frame(b, r.b) && r.b.outcomes == b.outcomes
    ensures r.running <==> r.b.state != MoveToForget
    ensures b.state != MoveToForget ==> r == Step(b, true, input)
    ensures r.b == WithActive(b, PlayerSide, Active(r.b, PlayerSide)).(state := r.b.state, moveToLearn := r.b.moveToLearn)
    ensures Active(r.b, PlayerSide) == Active(b, PlayerSide).(moves := Active(r.b, PlayerSide).moves)
    ensures |Active(r.b, PlayerSide).moves| == |Active(b, PlayerSide).moves|
    ensures b.state == MoveToForget && r.running ==> r.b.state == RunningTurn && r.b.moveToLearn.None?
    ensures |r.input| <= |input|
    decreases |input|
  {
    if b.state != MoveToForget then Step(b, true, input)
    else if |input| == 0 then Step(b, false, input)
    else AwaitMoveForgotten(Resolve(b, input[0]), input[1..])
  }
}

=== FILE: battle_rules.dfy ===
/** The self-contained decisions of `BattleSystem.cs`: who moves first, whether a move hits,
    how much experience a knock-out is worth, the catch shake count and the escape roll. Each
    `UnityEngine.Random.Range` result is a parameter with its range stated. */
module BattleRules {
  import opened Mathf
  import opened PokemonBase
  import opened Moves
  import opened Pokemon

  // ---------------------------------------------------------------------------
  // Turn order

  /** The player acts first unless the enemy's move has the higher priority, or the priorities
      tie and the enemy is strictly faster. A speed tie goes to the player. */
  function PlayerGoesFirst(playerPriority: int, enemyPriority: int,
                           playerSpeed: int, enemySpeed: int): (first: bool)
    ensures !first <==> enemyPriority > playerPriority
                        || (enemyPriority == playerPriority && playerSpeed < enemySpeed)
  {
    if enemyPriority > playerPriority then false
    else if enemyPriority == playerPriority then playerSpeed >= enemySpeed
    else true
  }

  // ---------------------------------------------------------------------------
  // Hit check

  /** The accuracy table of `CheckIfMoveHits`: {1, 4/3, 5/3, 2, 7/3, 8/3, 3}. */
  function AccuracyBoost(k: int): (b: real)
    requires 0 <= k <= 6
    ensures 1.0 <= b <= 3.0
  {
    [1.0, 4.0 / 3.0, 5.0 / 3.0, 2.0, 7.0 / 3.0, 8.0 / 3.0, 3.0][k]
  }

  /** The accuracy multiplier of a stage in closed form: (3 + s) / 3 upwards, 3 / (3 - s) down. */
  function StageFactor(s: int): (f: real)
    ensures f > 0.0
  {
    if s >= 0 then (3 + s) as real / 3.0 else 3.0 / (3 - s) as real
  }

  /** The Accuracy-stage step of `CheckIfMoveHits`: multiply by the table entry of a raised
      stage, divide by that of a lowered one. */
  function AccuracyStep(x: real, s: int): (a: real)
    requires -6 <= s <= 6
    ensures a == x * StageFactor(s)
  {
    if s > 0 then
      BoostIsFactor(s);
      x * AccuracyBoost(s)
    else
      DivideByBoost(x, -s);
      x / AccuracyBoost(-s)
  }

  /** The Evasion-stage step: divide by the table entry of a raised stage, multiply by that of a
      lowered one. */
  function EvasionStep(x: real, s: int): (a: real)
    requires -6 <= s <= 6
    ensures a == x / StageFactor(s)
  {
    if s > 0 then
      BoostIsFactor(s);
      x / AccuracyBoost(s)
    else
      MultiplyByBoost(x, -s);
      x * AccuracyBoost(-s)
  }

  /** The scaled accuracy exactly as computed: the Accuracy step, then the Evasion step. Both
      stages are the ATTACKER's own; the defender's evasion plays no part. */
  function ScaledAccuracy(x: real, accStage: int, evaStage: int): (a: real)
    requires -6 <= accStage <= 6 && -6 <= evaStage <= 6
  {
    EvasionStep(AccuracyStep(x, accStage), evaStage)
  }

  /** The computed scaling is the closed-form product accuracy * factor(acc) / factor(eva). */
  lemma ScaledAccuracyClosedForm(x: real, accStage: int, evaStage: int)
    requires -6 <= accStage <= 6 && -6 <= evaStage <= 6
    ensures ScaledAccuracy(x, accStage, evaStage)
            == x * StageFactor(accStage) / StageFactor(evaStage)
  {
    var fa, fe := StageFactor(accStage), StageFactor(evaStage);
    var a1 := AccuracyStep(x, accStage);
    Substitute(x, fa, fe, a1, EvasionStep(a1, evaStage));
  }

  lemma Substitute(x: real, fa: real, fe: real, a1: real, a2: real)
    requires fe > 0.0 && a1 == x * fa && a2 == a1 / fe
    ensures a2 == x * fa / fe
  {
  }

  /** Above stage 0 the table entry is the stage's factor. */
  lemma BoostIsFactor(k: int)
    requires 0 <= k <= 6
    ensures AccuracyBoost(k) == StageFactor(k)
  {
  }

  /** Dividing by the entry of stage k multiplies by the factor of stage -k. */
  lemma DivideByBoost(x: real, k: int)
    requires 0 <= k <= 6
    ensures x / AccuracyBoost(k) == x * StageFactor(-k)
  {
    if k == 0 {
    } else if k == 1 {
      assert x / (4.0 / 3.0) == x * (3.0 / 4.0);
    } else if k == 2 {
      assert x / (5.0 / 3.0) == x * (3.0 / 5.0);
    } else if k == 3 {
      assert x / 2.0 == x * (3.0 / 6.0);
    } else if k == 4 {
      assert x / (7.0 / 3.0) == x * (3.0 / 7.0);
    } else if k == 5 {
      assert x / (8.0 / 3.0) == x * (3.0 / 8.0);
    } else {
      assert x / 3.0 == x * (3.0 / 9.0);
    }
  }

  /** Multiplying by the entry of stage k divides by the factor of stage -k. */
  lemma MultiplyByBoost(x: real, k: int)
    requires 0 <= k <= 6
    ensures x * AccuracyBoost(k) == x / StageFactor(-k)
  {
    if k == 0 {
    } else if k == 1 {
      assert x / (3.0 / 4.0) == x * (4.0 / 3.0);
    } else if k == 2 {
      assert x / (3.0 / 5.0) == x * (5.0 / 3.0);
    } else if k == 3 {
      assert x / (3.0 / 6.0) == x * 2.0;
    } else if k == 4 {
      assert x / (3.0 / 7.0) == x * (7.0 / 3.0);
    } else if k == 5 {
      assert x / (3.0 / 8.0) == x * (8.0 / 3.0);
    } else {
      assert x / (3.0 / 9.0) == x * 3.0;
    }
  }

  /** A higher stage never has a lower factor. */
  lemma StageFactorMonotone(s: int, t: int)
    requires s <= t
    ensures StageFactor(s) <= StageFactor(t)
  {
    if s < 0 && t < 0 {
      DivideMonotoneDenominator(3.0, (3 - t) as real, (3 - s) as real);
    } else if s < 0 {
      DivideMonotoneDenominator(3.0, 3.0, (3 - s) as real);
    }
  }

  lemma DivideMonotoneDenominator(n: real, d1: real, d2: real)
    requires n >= 0.0 && 0.0 < d1 <= d2
    ensures n / d2 <= n / d1
  {
  }

  /** `CheckIfMoveHits` with `draw` standing for `Random.Range(1, 101)`: a move that always hits
      does; otherwise the draw must not exceed the move's accuracy scaled by the ATTACKER's own
      Accuracy and Evasion stages (the defender's stages play no part). */
  function CheckIfMoveHits(move: MoveBase, attacker: Creature, draw: int): (hit: bool)
    requires -6 <= attacker.boosts.accuracy <= 6 && -6 <= attacker.boosts.evasion <= 6
    ensures move.alwaysHits ==> hit
    ensures !move.alwaysHits ==>
      (hit <==> draw as real <= ScaledAccuracy(move.accuracy as real, attacker.boosts.accuracy, attacker.boosts.evasion))
  {
    move.alwaysHits
    || draw as real <= ScaledAccuracy(move.accuracy as real, attacker.boosts.accuracy, attacker.boosts.evasion)
  }

  /** The hit rule in closed form: the draw is compared with accuracy * (3 + a) / 3 for a raised
      Accuracy stage a or 3 / (3 - a) for a lowered one, divided by the same factor of the
      attacker's Evasion stage. */
  lemma HitRuleClosedForm(move: MoveBase, attacker: Creature, draw: int)
    requires -6 <= attacker.boosts.accuracy <= 6 && -6 <= attacker.boosts.evasion <= 6
    ensures var acc, eva := attacker.boosts.accuracy, attacker.boosts.evasion;
      CheckIfMoveHits(move, attacker, draw)
      <==> move.alwaysHits || draw as real <= move.accuracy as real * StageFactor(acc) / StageFactor(eva)
  {
    ScaledAccuracyClosedForm(move.accuracy as real, attacker.boosts.accuracy, attacker.boosts.evasion);
  }

  /** With both stages at 0 a move hits iff the draw is at most its accuracy, so a move of
      accuracy 100 or more never misses. */
  lemma NeutralStagesHitIffDrawWithinAccuracy(move: MoveBase, attacker: Creature, draw: int)
    requires attacker.boosts.accuracy == 0 && attacker.boosts.evasion == 0 && !move.alwaysHits
    requires 1 <= draw <= 100
    ensures CheckIfMoveHits(move, attacker, draw) <==> draw <= move.accuracy
    ensures move.accuracy >= 100 ==> CheckIfMoveHits(move, attacker, draw)
  {
  }

  // ---------------------------------------------------------------------------
  // Experience

  /** The experience a knocked-out creature is worth: `FloorToInt(expYield * level * bonus / 7)`
      with a bonus of 1.5 in trainer battles and 1 otherwise, computed exactly on integers. */
  function ExpGain(expYield: int, level: int, isTrainerBattle: bool): (gain: int)
    ensures !isTrainerBattle ==> gain == ((expYield * level) as real / 7.0).Floor
    ensures isTrainerBattle ==> gain == ((expYield * level) as real * 1.5 / 7.0).Floor
    ensures expYield >= 0 && level >= 0 ==> gain >= 0
  {
    var n := expYield * level;
    if isTrainerBattle then
      FloorOfQuotient(3 * n, 14);
      assert n as real * 1.5 / 7.0 == (3 * n) as real / 14.0;
      (3 * n) / 14
    else
      FloorOfQuotient(n, 7);
      n / 7
  }

  /** A trainer's creature is never worth less than the same creature met in the wild. */
  lemma TrainerBonusNeverLowers(expYield: int, level: int)
    requires expYield >= 0 && level >= 0
    ensures ExpGain(expYield, level, true) >= ExpGain(expYield, level, false)
  {
    var n := expYield * level;
    assert n >= 0 by { MulNonNegative(expYield, level); }
    assert (3 * n) / 14 >= n / 7 by {
      assert 3 * n >= 2 * n;
      assert (2 * n) / 14 == n / 7;
    }
  }

  lemma MulNonNegative(a: int, b: int)
    requires a >= 0 && b >= 0
    ensures a * b >= 0
  {
  }

  // ---------------------------------------------------------------------------
  // Catching

  /** `a` of `TryToCatchPokemon`: (3 MaxHp - 2 HP) * catch rate * ball modifier * status bonus,
      over 3 MaxHp, in real arithmetic. */
  function CatchValue(maxHp: int, hp: int, catchRate: int, modifier: real, bonus: real): (a: real)
    requires maxHp != 0
    ensures a == HpFraction(maxHp, hp) * (catchRate as real * modifier * bonus)
    ensures hp == maxHp ==> a == catchRate as real * modifier * bonus / 3.0
    ensures hp == 0 ==> a == catchRate as real * modifier * bonus
  {
    HpFractionEnds(maxHp, hp);
    Regroup((3 * maxHp - 2 * hp) as real, (3 * maxHp) as real, catchRate as real, modifier, bonus);
    (3 * maxHp - 2 * hp) as real * catchRate as real * modifier * bonus / (3 * maxHp) as real
  }

  /** The HP part of `a`: (3 MaxHp - 2 HP) / (3 MaxHp). */
  function HpFraction(maxHp: int, hp: int): real
    requires maxHp != 0
  {
    (3 * maxHp - 2 * hp) as real / (3 * maxHp) as real
  }

  /** At full HP the fraction is a third, at 0 HP it is one. */
  lemma HpFractionEnds(maxHp: int, hp: int)
    requires maxHp != 0
    ensures hp == maxHp ==> HpFraction(maxHp, hp) == 1.0 / 3.0
    ensures hp == 0 ==> HpFraction(maxHp, hp) == 1.0
  {
    var x := maxHp as real;
    assert (3 * maxHp) as real == 3.0 * x;
    if hp == maxHp {
      assert (3 * maxHp - 2 * hp) as real == x;
      Third(x);
    } else if hp == 0 {
      assert (3 * maxHp - 2 * hp) as real == 3.0 * x;
      SelfDivision(3.0 * x);
    }
  }

  lemma SelfDivision(y: real)
    requires y != 0.0
    ensures y / y == 1.0
  {
  }

  /** Within [0, MaxHp], more HP gives a smaller fraction, never below a third nor above one. */
  lemma HpFractionFalls(maxHp: int, hp1: int, hp2: int)
    requires 0 <= hp1 <= hp2 <= maxHp && maxHp > 0
    ensures 1.0 / 3.0 <= HpFraction(maxHp, hp2) <= HpFraction(maxHp, hp1) <= 1.0
  {
    var m := (3 * maxHp) as real;
    DivMono((3 * maxHp - 2 * hp2) as real, (3 * maxHp - 2 * hp1) as real, m);
    DivMono(maxHp as real, (3 * maxHp - 2 * hp2) as real, m);
    DivMono((3 * maxHp - 2 * hp1) as real, m, m);
    HpFractionEnds(maxHp, maxHp);
    SelfDivision(m);
  }

  lemma Regroup(n: real, m: real, c: real, mo: real, bo: real)
    requires m != 0.0
    ensures n * c * mo * bo / m == n / m * (c * mo * bo)
  {
    RealAssoc(n, c, mo, bo);
    DivSwap(n, c * mo * bo, m);
  }

  lemma RealAssoc(n: real, c: real, mo: real, bo: real)
    ensures n * c * mo * bo == n * (c * mo * bo)
  {
  }

  lemma DivSwap(n: real, k: real, m: real)
    requires m != 0.0
    ensures n * k / m == n / m * k
  {
    var q := n / m;
    assert n == q * m;
    assert n * k == (q * k) * m;
  }

  lemma Third(x: real)
    requires x != 0.0
    ensures x / (3.0 * x) == 1.0 / 3.0
  {
    assert (1.0 / 3.0) * (3.0 * x) == x;
  }

  /** Less HP never makes a creature harder to catch: for an HP within [0, MaxHp] and a
      non-negative catch rate, ball modifier and status bonus, `a` falls as HP rises and lies
      between a third of their product (full HP) and the product itself (0 HP). */
  lemma CatchValueFallsWithHp(maxHp: int, hp1: int, hp2: int, catchRate: int, modifier: real, bonus: real)
    requires 0 <= hp1 <= hp2 <= maxHp && maxHp > 0
    requires catchRate >= 0 && modifier >= 0.0 && bonus >= 0.0
    ensures CatchValue(maxHp, hp1, catchRate, modifier, bonus) >= CatchValue(maxHp, hp2, catchRate, modifier, bonus)
    ensures var k := catchRate as real * modifier * bonus;
      k / 3.0 <= CatchValue(maxHp, hp2, catchRate, modifier, bonus) <= k
  {
    var k := catchRate as real * modifier * bonus;
    RealProductNonNegative(catchRate as real, modifier, bonus);
    HpFractionFalls(maxHp, hp1, hp2);
    var f1, f2 := HpFraction(maxHp, hp1), HpFraction(maxHp, hp2);
    MulMonoReal(f2, f1, k);
    MulMonoReal(1.0 / 3.0, f2, k);
    MulMonoReal(f2, 1.0, k);
  }

  lemma RealProductNonNegative(x: real, y: real, z: real)
    requires x >= 0.0 && y >= 0.0 && z >= 0.0
    ensures x * y * z >= 0.0
  {
    assert x * y >= 0.0;
  }

  lemma DivMono(x: real, y: real, m: real)
    requires x <= y && m > 0.0
    ensures x / m <= y / m
  {
  }

  lemma MulMonoReal(x: real, y: real, k: real)
    requires x <= y && k >= 0.0
    ensures x * k <= y * k
  {
  }

  /** The number of leading draws below `b`, at most four: the shakes before the first failure. */
  function LeadingBelow(draws: seq<int>, b: real): (n: nat)
    ensures n <= |draws| && n <= 4
    ensures forall i :: 0 <= i < n ==> (draws[i] as real) < b
    ensures n < 4 && n < |draws| ==> draws[n] as real >= b
  {
    if |draws| == 0 then 0
    else if draws[0] as real >= b then 0
    else
      var rest := LeadingBelow(draws[1..], b);
      if rest >= 3 then 4 else 1 + rest
  }

  /** The shake count of `TryToCatchPokemon` for `a`, `b` and the draws: four, a catch, exactly
      when `a` reaches 255 or all four draws fall below `b`. */
  function ShakeCount(a: real, b: real, draws: seq<int>): (n: nat)
    ensures n <= 4
    ensures n == 4 <==> a >= 255.0 || (|draws| >= 4 && forall i :: 0 <= i < 4 ==> draws[i] as real < b)
  {
    if a >= 255.0 then 4 else LeadingBelow(draws, b)
  }

  /** `TryToCatchPokemon`. `a` is `CatchValue`; `b` (the source's `1048560 / sqrt(sqrt(16711680 / a))`)
      and the four `Random.Range(0, 65535)` draws are parameters. An `a` of 255 or more catches
      outright; otherwise the count stops at the first draw not below `b`. */
  method TryToCatchPokemon(a: real, b: real, draws: seq<int>) returns (shakes: int)
    requires |draws| == 4 && forall i :: 0 <= i < 4 ==> 0 <= draws[i] < 65535
    ensures a >= 255.0 ==> shakes == 4
    ensures a < 255.0 ==> shakes == LeadingBelow(draws, b)
    ensures 0 <= shakes <= 4 && shakes == ShakeCount(a, b, draws)
    ensures shakes == 4 <==> a >= 255.0 || forall i :: 0 <= i < 4 ==> draws[i] as real < b
  {
    if a >= 255.0 {
      return 4;
    }
    shakes := 0;
    while shakes < 4
      invariant 0 <= shakes <= 4
      invariant forall i :: 0 <= i < shakes ==> draws[i] as real < b
      invariant LeadingBelow(draws, b) >= shakes
      invariant shakes < 4 ==> LeadingBelow(draws[shakes..], b) + shakes == LeadingBelow(draws, b)
      decreases 4 - shakes
    {
      LeadingBelowStep(draws, b, shakes);
      if draws[shakes] as real >= b {
        break;
      }
      shakes := shakes + 1;
    }
  }

  lemma LeadingBelowStep(draws: seq<int>, b: real, k: int)
    requires 0 <= k < |draws| == 4
    ensures draws[k..][0] == draws[k]
    ensures draws[k..][1..] == draws[k + 1..]
  {
  }

  // ---------------------------------------------------------------------------
  // Escaping

  /** The outcome of one escape attempt. */
  datatype EscapeOutcome =
    | NoEscapeFromTrainer   // trainer battle: refused, attempts unchanged
    | Escaped
    | CannotEscape
    | DivisionByZero         // the integer division throws and the coroutine ends

  /** The odds of `TryToEscape` after the attempt counter has been incremented to `attempts`.
      `quick` stands for `Random.Range(0, 10)`, `roll` for `Random.Range(0, 256)`. */
  function EscapeRoll(playerSpeed: int, enemySpeed: int, attempts: int, quick: int, roll: int): (o: EscapeOutcome)
    ensures o != NoEscapeFromTrainer
    ensures enemySpeed < playerSpeed && quick <= 8 ==> o == Escaped
    ensures !(enemySpeed < playerSpeed && quick <= 8) && enemySpeed == 0 ==> o == DivisionByZero
    ensures !(enemySpeed < playerSpeed && quick <= 8) && enemySpeed != 0 ==>
      (o == Escaped <==> roll < CsRem(CsDiv(playerSpeed * 128, enemySpeed) + 30 * attempts, 256))
    ensures o == DivisionByZero ==> enemySpeed == 0
  {
    if enemySpeed < playerSpeed && quick <= 8 then Escaped
    else if enemySpeed == 0 then DivisionByZero
    else
      var f := CsRem(CsDiv(playerSpeed * 128, enemySpeed) + 30 * attempts, 256);
      if roll < f then Escaped else CannotEscape
  }

  /** Between creatures of equal speed (without the quick escape) the threshold is
      `(128 + 30 * attempts) % 256`: it grows for four attempts, then wraps around, so a roll of
      200 escapes on the fourth attempt (threshold 248) but not on the fifth (threshold 22). */
  lemma EqualSpeedEscapeThreshold(speed: int, attempts: int, roll: int)
    requires speed > 0 && attempts >= 0
    ensures EscapeRoll(speed, speed, attempts, 9, roll) == Escaped <==> roll < (128 + 30 * attempts) % 256
  {
    SelfQuotient(speed);
    var n := 128 + 30 * attempts;
    assert CsRem(n, 256) == n % 256;
  }

  /** A speed times 128, divided by the same speed, is 128. */
  lemma SelfQuotient(speed: int)
    requires speed > 0
    ensures CsDiv(speed * 128, speed) == 128
  {
    var a := speed * 128;
    var q := a / speed;
    DivBounds(a, speed);
    assert q * speed <= 128 * speed < q * speed + speed;
    if q < 128 {
      assert (q + 1) * speed <= 128 * speed by { MulMono(q + 1, 128, speed); }
    } else if q > 128 {
      assert 129 * speed <= q * speed by { MulMono(129, q, speed); }
    }
  }

  lemma MulMono(x: int, y: int, k: int)
    requires x <= y && k >= 0
    ensures x * k <= y * k
  {
  }
}

=== FILE: conditions_db.dfy ===
/** The data half of `ConditionsDB.cs`: condition ids, the catalogue of display texts, the
    `Init` pass that stamps each condition with its key, and the catch bonus per status.
    The per-condition hooks live in module StatusConditions, next to the creature they change. */
module ConditionsDB {
  import opened Options

  /** `ConditionID` without its `none` member: an absent condition is `Option.None` here. */
  datatype ConditionId = Psn | Brn | Slp | Par | Frz | Confusion

  /** A catalogue entry. `id` is `None` until `Init` has run (the C# default `none`). */
  datatype Condition = Condition(id: Option<ConditionId>, name: string, startMessage: string)

  /** The dictionary as declared, before `Init`. */
  function Declared(): (m: map<ConditionId, Condition>)
    ensures m.Keys == {Psn, Brn, Slp, Par, Frz, Confusion}
  {
    var m := map[
      Psn := Condition(None, "Poison", "has been poisoned!"),
      Brn := Condition(None, "Burn", "has been burned!"),
      Slp := Condition(None, "Sleep", "has fallen asleep"),
      Par := Condition(None, "Paralyzed", "has been paralyzed!"),
      Frz := Condition(None, "Freeze", "has been frozen solid!"),
      Confusion := Condition(None, "Confusion", "is now confused!")
    ];
    m
  }

  /** `Init`: every entry's `id` becomes its own key; names, messages and keys are unchanged. */
  function Init(conditions: map<ConditionId, Condition>): (r: map<ConditionId, Condition>)
    ensures r.Keys == conditions.Keys
    ensures forall k :: k in r ==> r[k].id == Some(k)
    ensures forall k :: k in r ==>
      r[k].name == conditions[k].name && r[k].startMessage == conditions[k].startMessage
  {
    map k | k in conditions :: conditions[k].(id := Some(k))
  }

  /** The catalogue the game uses once `Init` has run. */
  function Conditions(): map<ConditionId, Condition> {
    Init(Declared())
  }

  /** `GetStatusBonus`: the catch-rate multiplier of a persistent status. */
  function GetStatusBonus(status: Option<ConditionId>): (bonus: real)
    ensures status == None ==> bonus == 1.0
    ensures status == Some(Slp) || status == Some(Frz) ==> bonus == 2.0
    ensures status == Some(Par) || status == Some(Psn) || status == Some(Brn) ==> bonus == 1.5
    ensures status == Some(Confusion) ==> bonus == 1.0
  {
    match status
    case None => 1.0
    case Some(id) =>
      if id == Slp || id == Frz then 2.0
      else if id == Par || id == Psn || id == Brn then 1.5
      else 1.0
  }

  /** Every condition id has an entry in the catalogue. */
  lemma CatalogueIsTotal(id: ConditionId)
    ensures id in Conditions()
    ensures Conditions()[id].id == Some(id)
  {
  }
}

=== FILE: inventory_ui.dfy ===
/** The decisions of the bag screen (`InventoryUI.cs`): category and item navigation, the gate
    that decides whether a chosen item may be used here, the TM-teaching flow, the move-forget
    answer and the scroll arrows. Widgets, dialogs and coroutine waits are not modelled; each
    function returns the state the screen ends in. */
module InventoryUI {
  import opened Options
  import opened Mathf
  import opened Moves
  import opened Pokemon
  import opened Items

  datatype InventoryUIState = ItemSelection | PartySelection | Busy | MoveToForget

  /** The arrow key read by `HandleUpdate` in the item-selection state (at most one counts). */
  datatype Key = Down | Up | Right | Left | NoKey

  /** The selection part of the screen: selected item and category. */
  datatype Selection = Selection(item: int, category: int)

  /** The category after the key, wrapped into [0, count - 1]. */
  function WrapCategory(category: int, count: int): (r: int)
    ensures count >= 1 && -1 <= category <= count ==> 0 <= r < count
    ensures category > count - 1 ==> r == 0
    ensures category < 0 && !(category > count - 1) ==> r == count - 1
    ensures 0 <= category <= count - 1 ==> r == category
  {
    if category > count - 1 then 0
    else if category < 0 then count - 1
    else category
  }

  /** `HandleUpdate` in the item-selection state, for one key. `slotCounts[k]` is the number of
      item slots in category `k` (`GetSlotsByCategory(k).Count`), one entry per category.
      A change of category resets the selection to the first slot (`ResetSelection`) and the
      list rebuild clamps it again; otherwise the selection is clamped to the category's slots,
      and clamped once more by `UpdateItemSelection` when that changed it. On an empty category
      the two clamps undo each other, so a selection of -1 or 0 stays where it is. */
  function Navigate(sel: Selection, key: Key, slotCounts: seq<nat>): (r: Selection)
    requires |slotCounts| >= 1 && 0 <= sel.category < |slotCounts|
    ensures 0 <= r.category < |slotCounts|
    ensures key == Right && sel.category == |slotCounts| - 1 ==> r.category == 0
    ensures key == Left && sel.category == 0 ==> r.category == |slotCounts| - 1
    ensures key == Right && sel.category < |slotCounts| - 1 ==> r.category == sel.category + 1
    ensures key == Left && sel.category > 0 ==> r.category == sel.category - 1
    ensures key != Left && key != Right ==> r.category == sel.category
    ensures r.category != sel.category ==> r.item == (if slotCounts[r.category] == 0 then -1 else 0)
    ensures slotCounts[r.category] > 0 ==> 0 <= r.item < slotCounts[r.category]
    ensures slotCounts[r.category] == 0 ==> r.item == -1 || r.item == 0
    ensures slotCounts[r.category] == 0 && r.category == sel.category && (sel.item == -1 || sel.item == 0) ==>
      r.item == sel.item
    ensures r.category == sel.category && key == Down && 0 <= sel.item + 1 < slotCounts[r.category] ==>
      r.item == sel.item + 1
    ensures r.category == sel.category && key == Up && 0 <= sel.item - 1 < slotCounts[r.category] ==>
      r.item == sel.item - 1
  {
    var item := match key case Down => sel.item + 1 case Up => sel.item - 1 case _ => sel.item;
    var cat := match key case Right => sel.category + 1 case Left => sel.category - 1 case _ => sel.category;
    var cat' := WrapCategory(cat, |slotCounts|);
    var last := slotCounts[cat'] as int - 1;
    var clamped := Clamp(item, 0, last);
    if cat' != sel.category then
      Selection(Clamp(0, 0, last), cat')
    else if clamped != sel.item then
      Selection(Clamp(clamped, 0, last), cat')
    else
      Selection(clamped, cat')
  }

  /** A frame without a key changes nothing a second frame would change again: the selection
      settles after one frame, on an empty category too. */
  lemma NoKeySettles(sel: Selection, slotCounts: seq<nat>)
    requires |slotCounts| >= 1 && 0 <= sel.category < |slotCounts|
    ensures var r := Navigate(sel, NoKey, slotCounts);
      Navigate(r, NoKey, slotCounts) == r
  {
  }

  /** Pressing Right walks through the categories in order while the end is not reached. */
  lemma {:induction false} PressRightCounts(sel: Selection, slotCounts: seq<nat>, n: nat)
    requires |slotCounts| >= 1 && 0 <= sel.category < |slotCounts|
    requires sel.category + n < |slotCounts|
    ensures PressRight(sel, slotCounts, n).category == sel.category + n
    decreases n
  {
    if n > 0 {
      PressRightCounts(sel, slotCounts, n - 1);
    }
  }

  lemma {:induction false} PressRightSplit(sel: Selection, slotCounts: seq<nat>, a: nat, b: nat)
    requires |slotCounts| >= 1 && 0 <= sel.category < |slotCounts|
    ensures PressRight(sel, slotCounts, a + b) == PressRight(PressRight(sel, slotCounts, a), slotCounts, b)
    decreases b
  {
    if b > 0 {
      PressRightSplit(sel, slotCounts, a, b - 1);
    }
  }

  /** Pressing Right once per category brings the selection back to the category it left. */
  lemma RightCyclesThroughCategories(sel: Selection, slotCounts: seq<nat>)
    requires |slotCounts| >= 1 && 0 <= sel.category < |slotCounts|
    ensures PressRight(sel, slotCounts, |slotCounts|).category == sel.category
  {
    var n := |slotCounts|;
    var toLast := n - 1 - sel.category;
    PressRightCounts(sel, slotCounts, toLast);
    var atLast := PressRight(sel, slotCounts, toLast);
    PressRightSplit(sel, slotCounts, toLast, 1);
    var atFirst := PressRight(sel, slotCounts, toLast + 1);
    assert atFirst.category == 0;
    PressRightSplit(sel, slotCounts, toLast + 1, sel.category);
    PressRightCounts(atFirst, slotCounts, sel.category);
  }

  /** `n` presses of the Right key. */
  function PressRight(sel: Selection, slotCounts: seq<nat>, n: nat): (r: Selection)
    requires |slotCounts| >= 1 && 0 <= sel.category < |slotCounts|
    ensures 0 <= r.category < |slotCounts|
    decreases n
  {
    if n == 0 then sel else Navigate(PressRight(sel, slotCounts, n - 1), Right, slotCounts)
  }

  /** `UpdateItemSelection`'s clamp after the list changed (an item was used up): the selection
      stays put when still valid and moves to the last slot otherwise. */
  function UpdateItemSelection(selected: int, slotCount: nat): (r: int)
    ensures slotCount > 0 ==> 0 <= r < slotCount
    ensures 0 <= selected < slotCount ==> r == selected
    ensures slotCount > 0 && selected >= slotCount ==> r == slotCount - 1
    ensures slotCount == 0 ==> r == -1 || (selected < 0 && r == 0)
  {
    Clamp(selected, 0, slotCount - 1)
  }

  /** What `ItemSelected` does with the chosen item. */
  datatype SelectOutcome =
    | Rejected            // "a time and place for everything": back to item selection
    | UseDirectly         // Pokéball category: `UseItem` without choosing a creature
    | OpenParty(showTm: bool)   // choose a creature first; TMs mark who can learn them

  /** The usability gate of `ItemSelected`: in battle an item must be usable in battle, outside
      battle it must be usable outside battle; an accepted item of the Pokéball category is used
      at once and any other opens the party screen. `pokeballCategory` is the index of
      `ItemCategory.Pokeballs`, whose declaration is not part of this model. */
  function ItemSelected(item: Item, inBattle: bool, category: int, pokeballCategory: int): (r: (SelectOutcome, InventoryUIState))
    ensures r.0.Rejected? <==> (inBattle && !item.CanUseInBattle()) || (!inBattle && !item.CanUseOutsideBattle())
    ensures r.0.Rejected? ==> r.1 == ItemSelection
    ensures r.0.UseDirectly? <==> !r.0.Rejected? && category == pokeballCategory
    ensures r.0.OpenParty? ==> r.1 == PartySelection && (r.0.showTm <==> item.kind.Tm?)
    ensures item.kind.Tm? ==> inBattle ==> r.0.Rejected?
  {
    var allowed := if inBattle then item.CanUseInBattle() else item.CanUseOutsideBattle();
    if !allowed then (Rejected, ItemSelection)
    else if category == pokeballCategory then (UseDirectly, Busy)
    else (OpenParty(item.kind.Tm?), PartySelection)
  }

  /** How `HandleTmItems` ends. */
  datatype TmOutcome =
    | NotATm
    | AlreadyKnows
    | CannotLearn
    | Learned
    | ChooseMoveToForget

  /** `HandleTmItems` for the chosen creature: a non-TM does nothing; a known move or one the
      species cannot learn from items leaves the moves alone; with fewer than four moves the move
      is appended; with four or more the screen enters the move-to-forget prompt. */
  function HandleTmItems(item: Item, c: Creature): (r: (Creature, TmOutcome, InventoryUIState))
    ensures !item.kind.Tm? ==> r.0 == c && r.1 == NotATm
    ensures item.kind.Tm? ==> && (r.1 == AlreadyKnows <==> HasMove(c, item.kind.move))
                              && (r.1 == CannotLearn <==> !HasMove(c, item.kind.move)
                                                          && !CanBeTaught(item.kind.move, c))
    ensures r.1 != Learned ==> r.0 == c
    ensures r.1 == Learned <==> item.kind.Tm? && !HasMove(c, item.kind.move)
                                && CanBeTaught(item.kind.move, c) && |c.moves| < 4
    ensures r.1 == Learned ==> r.0.moves == c.moves + [NewMove(item.kind.move)]
    ensures r.1 == ChooseMoveToForget <==> item.kind.Tm? && !HasMove(c, item.kind.move)
                                           && CanBeTaught(item.kind.move, c) && |c.moves| >= 4
    ensures r.1 == ChooseMoveToForget ==> r.2 == MoveToForget
    ensures r.0.(moves := c.moves) == c
  {
    match item.kind
    case Tm(move, _) =>
      if HasMove(c, move) then (c, AlreadyKnows, Busy)
      else if !CanBeTaught(move, c) then (c, CannotLearn, Busy)
      else if |c.moves| < 4 then (LearnMove(c, move), Learned, Busy)
      else (c, ChooseMoveToForget, MoveToForget)
    case _ => (c, NotATm, Busy)
  }

  /** Teaching a TM never leaves a creature with more than four moves when it had at most four. */
  lemma TmTeachingKeepsFourMoves(item: Item, c: Creature)
    requires |c.moves| <= 4
    ensures |HandleTmItems(item, c).0.moves| <= 4
  {
  }

  /** `OnMoveToForgetSelected`: choice 4 keeps the moves, any other choice replaces exactly that
      slot with a fresh copy of the move being learned; the screen returns to item selection. */
  function OnMoveToForgetSelected(c: Creature, moveIndex: int, moveToLearn: MoveBase): (r: (Creature, InventoryUIState))
    requires moveIndex == 4 || 0 <= moveIndex < |c.moves|
    ensures moveIndex == 4 ==> r.0 == c
    ensures moveIndex != 4 ==> && |r.0.moves| == |c.moves|
                               && r.0.moves[moveIndex] == NewMove(moveToLearn)
                               && forall j :: 0 <= j < |c.moves| && j != moveIndex ==> r.0.moves[j] == c.moves[j]
    ensures r.1 == ItemSelection
  {
    (ReplaceMove(c, moveIndex, moveToLearn), ItemSelection)
  }

  /** The visible part of `HandleScrolling`: rows scrolled past and the two arrows. */
  datatype Scroll = Scroll(rowsScrolled: int, upArrow: bool, downArrow: bool)

  /** `HandleScrolling`: with at most four slots nothing is touched (`None`); otherwise the list
      scrolls so the selection stays in view, the up arrow shows past the fifth slot and the down
      arrow while more than four slots follow the selection. */
  function HandleScrolling(selected: int, slotCount: int): (r: Option<Scroll>)
    ensures r.None? <==> slotCount <= 4
    ensures r.Some? ==> (r.value.upArrow <==> selected > 4)
    ensures r.Some? ==> (r.value.downArrow <==> selected + 4 < slotCount)
    ensures r.Some? && selected >= 0 ==> 0 <= r.value.rowsScrolled <= selected
    ensures r.Some? && selected >= 4 ==> r.value.rowsScrolled == selected - 4
  {
    if slotCount <= 4 then None
    else Some(Scroll(Clamp(selected - 4, 0, selected), selected > 4, selected + 4 < slotCount))
  }

  /** For a selection within a list of more than four slots, the five rows from the first one
      not scrolled past hold the selection and lie inside the list; the up arrow shows exactly
      when some row has been scrolled past; and one step down the list scrolls by at most one
      row. */
  lemma ScrollKeepsSelectionInView(selected: int, slotCount: int)
    requires 0 <= selected < slotCount && slotCount > 4
    ensures var sc := HandleScrolling(selected, slotCount).value;
      && sc.rowsScrolled <= selected <= sc.rowsScrolled + 4
      && sc.rowsScrolled + 5 <= slotCount
      && (sc.upArrow <==> sc.rowsScrolled > 0)
    ensures selected + 1 < slotCount ==>
      var next := HandleScrolling(selected + 1, slotCount).value.rowsScrolled;
      var here := HandleScrolling(selected, slotCount).value.rowsScrolled;
      here <= next <= here + 1
  {
  }
}

=== FILE: item_db.dfy ===
/** `ItemDB`: the item registry, keyed by the item's (possibly overridden) `Name`, first loaded
    entry wins. The loaded list stands for `Resources.LoadAll<ItemBase>`. */
module ItemDB {
  import opened Options
  import opened Items
  import NameRegistry

  function ItemName(item: Item): string {
    item.Name()
  }

  /** `Init`: a fresh registry holding, for every loaded name, the first item with it. */
  method Init(loaded: seq<Item>) returns (db: map<string, Item>)
    ensures db.Keys == set i | 0 <= i < |loaded| :: loaded[i].Name()
    ensures forall i :: NameRegistry.FirstWithName(loaded, ItemName, i) ==> db[loaded[i].Name()] == loaded[i]
  {
    db := NameRegistry.Init(loaded, ItemName);
    assert (set i | 0 <= i < |loaded| :: ItemName(loaded[i])) == (set i | 0 <= i < |loaded| :: loaded[i].Name());
    forall i | NameRegistry.FirstWithName(loaded, ItemName, i)
      ensures db[loaded[i].Name()] == loaded[i]
    {
      NameRegistry.BuildKeepsFirst(loaded, ItemName, i);
    }
  }
}

=== FILE: items.dfy ===
/** Items: a minimal stand-in for `ItemBase` (whose source is not part of this model) and the
    two kinds the battle and the inventory screen distinguish, TMs/HMs (`TmItem.cs`) and
    Pokéballs (`PokeballItem.cs`). The `ItemBase` defaults of the three virtual properties are
    carried as fields; each kind overrides the ones its class overrides. */
module Items {
  import opened Moves
  import opened Pokemon

  datatype ItemKind =
    | Tm(move: MoveBase, isHM: bool)
    | Pokeball(catchRateModifier: real)
    | OtherItem

  datatype Item = Item(
    baseName: string,
    baseCanUseInBattle: bool,
    baseCanUseOutsideBattle: bool,
    baseIsReusable: bool,
    kind: ItemKind)
  {
    /** `Name`: a TM shows its base name, `" - "` and the taught move's name. */
    function Name(): (n: string)
      ensures kind.Tm? ==> && |n| == |baseName| + 3 + |kind.move.name|
                           && n[..|baseName|] == baseName
                           && n[|baseName|..|baseName| + 3] == " - "
                           && n[|baseName| + 3..] == kind.move.name
      ensures !kind.Tm? ==> n == baseName
    {
      if kind.Tm? then baseName + " - " + kind.move.name else baseName
    }

    /** `CanUseInBattle`: never for a TM, the `ItemBase` default otherwise. */
    function CanUseInBattle(): (b: bool)
      ensures kind.Tm? ==> !b
      ensures !kind.Tm? ==> b == baseCanUseInBattle
    {
      !kind.Tm? && baseCanUseInBattle
    }

    /** `CanUseOutsideBattle`: never for a Pokéball, the `ItemBase` default otherwise. */
    function CanUseOutsideBattle(): (b: bool)
      ensures kind.Pokeball? ==> !b
      ensures !kind.Pokeball? ==> b == baseCanUseOutsideBattle
    {
      !kind.Pokeball? && baseCanUseOutsideBattle
    }

    /** `IsReusable`: a TM is reusable iff it is an HM. */
    function IsReusable(): (b: bool)
      ensures kind.Tm? ==> (b <==> kind.isHM)
      ensures !kind.Tm? ==> b == baseIsReusable
    {
      if kind.Tm? then kind.isHM else baseIsReusable
    }
  }

  /** `Use`. A TM reports success iff the creature now knows its move (the teaching itself is
      done by the inventory screen); a Pokéball always succeeds; the other item classes are not
      part of this model and their answer is the parameter `otherUse`. */
  function Use(item: Item, c: Creature, otherUse: bool): (used: bool)
    ensures item.kind.Tm? ==> (used <==> exists i :: 0 <= i < |c.moves| && c.moves[i].base == item.kind.move)
    ensures item.kind.Pokeball? ==> used
    ensures item.kind.OtherItem? ==> used == otherUse
  {
    match item.kind
    case Tm(move, _) => HasMove(c, move)
    case Pokeball(_) => true
    case OtherItem => otherUse
  }

  /** `CanBeTaught`: the species lists the TM's move among its item-learnable moves. */
  function CanBeTaught(move: MoveBase, c: Creature): (b: bool)
    ensures b <==> exists i :: 0 <= i < |c.species.learnableByItems| && c.species.learnableByItems[i] == move
  {
    move in c.species.learnableByItems
  }
}

=== FILE: mathf.dfy ===
/** The two pieces of integer arithmetic the game relies on: Unity's `Mathf.Clamp` on `int`
    and C#'s `/` on `int`, which truncates toward zero (Dafny's `/` is Euclidean). */
module Mathf {

  /** `Mathf.Clamp(value, min, max)`: the lower bound is tested first, so when `min > max`
      the result is `min` for values below `min` and `max` otherwise. */
  function Clamp(value: int, min: int, max: int): (r: int)
    ensures min <= max ==> min <= r <= max
    ensures min <= value <= max ==> r == value
    ensures value < min ==> r == min
    ensures min <= value && max < value ==> r == max
  {
    if value < min then min
    else if value > max then max
    else value
  }

  /** C# integer division: the quotient truncated toward zero. Its magnitude is the quotient of
      the magnitudes, and it is negative exactly when the operands' signs differ. */
  function CsDiv(a: int, b: int): (q: int)
    requires b != 0
    ensures a >= 0 && b > 0 ==> q == a / b
    ensures Abs(q) == Abs(a) / Abs(b)
    ensures q == 0 || (q > 0 <==> (a > 0) == (b > 0))
  {
    if (a >= 0) == (b > 0) || a == 0 then Abs(a) / Abs(b)
    else -(Abs(a) / Abs(b))
  }

  /** The truncated quotient never overshoots: `|q * b| <= |a| < |q * b| + |b|`. */
  lemma {:induction false} CsDivBounds(a: int, b: int)
    requires b != 0
    ensures Abs(CsDiv(a, b) * b) <= Abs(a) < Abs(CsDiv(a, b) * b) + Abs(b)
  {
    var q := CsDiv(a, b);
    DivBounds(Abs(a), Abs(b));
    AbsOfProduct(q, b);
    var p := Abs(q) * Abs(b);
    assert p == (Abs(a) / Abs(b)) * Abs(b);
  }

  /** C#'s `%`: what the truncated division leaves over. It is smaller than the divisor in
      magnitude and takes the sign of the dividend. */
  function CsRem(a: int, m: int): (r: int)
    requires m != 0
    ensures a == CsDiv(a, m) * m + r
    ensures Abs(r) < Abs(m)
    ensures r == 0 || (r > 0 <==> a > 0)
    ensures a >= 0 && m > 0 ==> r == a % m
  {
    var q := CsDiv(a, m);
    CsDivBounds(a, m);
    SignOfProduct(q, m);
    a - q * m
  }

  lemma DivBounds(n: nat, m: int)
    requires m > 0
    ensures (n / m) * m <= n < (n / m) * m + m
  {
  }

  lemma AbsOfProduct(x: int, y: int)
    ensures Abs(x * y) == Abs(x) * Abs(y)
  {
    if x < 0 && y < 0 {
      assert x * y == (-x) * (-y);
    } else if x < 0 {
      assert -(x * y) == (-x) * y;
    } else if y < 0 {
      assert -(x * y) == x * (-y);
    }
  }

  lemma SignOfProduct(x: int, y: int)
    ensures x * y == 0 || (x * y > 0 <==> (x > 0) == (y > 0))
  {
    if x < 0 && y < 0 {
      assert x * y == (-x) * (-y);
    } else if x < 0 && y > 0 {
      assert -(x * y) == (-x) * y;
    } else if x > 0 && y < 0 {
      assert -(x * y) == x * (-y);
    }
  }

  function Abs(x: int): nat {
    if x < 0 then -x else x
  }
}

=== FILE: moves.dfy ===
/** Minimal stand-ins for `MoveBase`, `Move` and the move-effect records, whose source is not
    part of this model. They carry exactly the fields the battle rules read. */
module Moves {
  import opened Options
  import opened PokemonBase
  import opened ConditionsDB

  datatype MoveCategory = Physical | Special | Status

  /** Who a move's effects land on: `Self` boosts the user, anything else the opponent. */
  datatype MoveTarget = Foe | Self

  datatype StatBoost = StatBoost(stat: Stat, boost: int)

  /** `MoveEffects`: boosts (an empty list stands for `null`), a persistent status and a
      volatile status (`None` stands for `ConditionID.none`). */
  datatype MoveEffects = MoveEffects(
    boosts: seq<StatBoost>,
    status: Option<ConditionId>,
    volatileStatus: Option<ConditionId>)

  /** `SecondaryEffects`: effects applied with `chance` percent probability to `target`. */
  datatype SecondaryEffects = SecondaryEffects(effects: MoveEffects, chance: int, target: MoveTarget)

  /** `MoveBase`. `initialPp` is the PP a freshly constructed `Move` starts with, whatever the
      `Move` constructor computes it from. */
  datatype MoveBase = MoveBase(
    name: string,
    moveType: PokemonType,
    category: MoveCategory,
    power: int,
    accuracy: int,
    alwaysHits: bool,
    priority: int,
    initialPp: int,
    target: MoveTarget,
    effects: MoveEffects,
    secondaries: seq<SecondaryEffects>)

  /** A learned move: its definition and its remaining PP. */
  datatype Move = Move(base: MoveBase, pp: int)

  /** `new Move(base)`. */
  function NewMove(base: MoveBase): (m: Move)
    ensures m.base == base && m.pp == base.initialPp
  {
    Move(base, base.initialPp)
  }

  /** What a move saves (`MoveSaveData`); how a `Move` produces and re-reads it is a parameter
      of the creature's save functions. */
  datatype MoveSaveData = MoveSaveData(name: string, pp: int)
}

=== FILE: options.dfy ===
/** The optional value the game expresses with `null`: a lookup miss, an empty status slot,
    a `FirstOrDefault` that found nothing. */
module Options {

  datatype Option<+T> = None | Some(value: T) {

    /** The wrapped value, or `default` when there is none. */
    function GetOr(default: T): T {
      match this
      case Some(v) => v
      case None => default
    }
  }
}

=== FILE: party.dfy ===
/** `PokemonParty`: the ordered list of creatures a trainer carries, at most six by
    `AddPokemon`'s rule. */
module PokemonParty {
  import opened Options
  import opened Species
  import opened Pokemon

  const MaxPartySize := 6

  /** `Awake`: every member runs `Init`, so each starts at full HP, with fresh stats, no status,
      no stage changes and an empty message queue; order and membership are kept. */
  function Awake(party: seq<Creature>): (r: seq<Creature>)
    ensures |r| == |party|
    ensures forall i :: 0 <= i < |r| ==>
      && r[i].species == party[i].species && r[i].level == party[i].level
      && r[i].hp == r[i].maxHp && StatsConsistent(r[i])
      && r[i].status.None? && r[i].volatileStatus.None? && r[i].boosts == NoBoosts
      && r[i].exp == party[i].species.ExpForLevel(party[i].level)
  {
    seq(|party|, i requires 0 <= i < |party| => Init(party[i]))
  }

  /** `GetHealthyPokemon`: the index of the first member with HP above 0, or `None` (null). */
  function GetHealthyPokemon(party: seq<Creature>): (r: Option<nat>)
    ensures r.Some? ==> r.value < |party| && party[r.value].hp > 0
    ensures r.Some? ==> forall j :: 0 <= j < r.value ==> party[j].hp <= 0
    ensures r.None? <==> forall j :: 0 <= j < |party| ==> party[j].hp <= 0
  {
    if |party| == 0 then None
    else if party[0].hp > 0 then Some(0)
    else
      match GetHealthyPokemon(party[1..])
      case None => None
      case Some(i) => Some(i + 1)
  }

  /** `AddPokemon`: appended at the end iff fewer than six members; otherwise dropped. */
  function AddPokemon(party: seq<Creature>, c: Creature): (r: seq<Creature>)
    ensures |party| < MaxPartySize ==> r == party + [c]
    ensures |party| >= MaxPartySize ==> r == party
    ensures |party| <= MaxPartySize ==> |r| <= MaxPartySize
  {
    if |party| < MaxPartySize then party + [c] else party
  }

  /** However many creatures are offered, a party that started with at most six members never
      holds more than six, and keeps its original members in front. */
  lemma {:induction false} AddPokemonKeepsCap(party: seq<Creature>, offered: seq<Creature>)
    requires |party| <= MaxPartySize
    ensures var r := AddAll(party, offered);
      |party| <= |r| <= MaxPartySize && r[..|party|] == party
    decreases |offered|
  {
    if |offered| > 0 {
      var p1 := AddPokemon(party, offered[0]);
      AddPokemonKeepsCap(p1, offered[1..]);
      var r := AddAll(party, offered);
      assert r[..|p1|][..|party|] == r[..|party|];
    }
  }

  /** `AddPokemon` applied to each offered creature in turn. */
  function AddAll(party: seq<Creature>, offered: seq<Creature>): seq<Creature>
    decreases |offered|
  {
    if |offered| == 0 then party else AddAll(AddPokemon(party, offered[0]), offered[1..])
  }

  /** `CheckForEvolutions`: exactly the members whose `CheckForEvolution` finds an entry evolve,
      into that entry's species; membership, order, levels, HP and moves are unchanged. */
  function CheckForEvolutions(party: seq<Creature>): (r: seq<Creature>)
    ensures |r| == |party|
    ensures forall i :: 0 <= i < |party| ==>
      && r[i].level == party[i].level && r[i].hp == party[i].hp && r[i].moves == party[i].moves
      && (CheckForEvolution(party[i]).None? ==> r[i] == party[i])
      && (CheckForEvolution(party[i]).Some? ==>
            r[i].species == CheckForEvolution(party[i]).value.evolvesInto && StatsConsistent(r[i]))
  {
    seq(|party|, i requires 0 <= i < |party| =>
      match CheckForEvolution(party[i])
      case None => party[i]
      case Some(e) => Evolve(party[i], e))
  }
}

=== FILE: pokemon.dfy ===
/** A creature (`Pokemon.cs`): a leveled instance of a species with its calculated stats,
    boost stages, HP, learned moves, status slots and queue of pending status messages. */
module Pokemon {
  import opened Options
  import opened Mathf
  import opened PokemonBase
  import opened ConditionsDB
  import opened Moves
  import opened Species

  /** The texts a creature queues in `StatusChanges`, one constructor per message of the source. */
  datatype Message =
    | Rose(who: string, stat: Stat)
    | Fell(who: string, stat: Stat)
    | StatusStarted(who: string, condition: ConditionId)
    | WokeUp(who: string)
    | FastAsleep(who: string)
    | ParalyzedCantMove(who: string)
    | ThawedOut(who: string)
    | FrozenSolid(who: string)
    | SnappedOut(who: string)
    | IsConfused(who: string)
    | HurtItself
    | PoisonTick(who: string)
    | BurnTick(who: string)

  /** The calculated stat table (`Stats`). */
  datatype Stats = Stats(attack: int, defense: int, spAttack: int, spDefense: int, speed: int) {
    function Get(s: Stat): int
      requires s.IsCalculated()
    {
      match s
      case Attack => attack
      case Defense => defense
      case SpAttack => spAttack
      case SpDefense => spDefense
      case Speed => speed
    }
  }

  /** The boost-stage table (`StatBoosts`), one stage per stat including Accuracy and Evasion. */
  datatype Boosts = Boosts(
    attack: int, defense: int, spAttack: int, spDefense: int, speed: int,
    accuracy: int, evasion: int)
  {
    function Get(s: Stat): int {
      match s
      case Attack => attack
      case Defense => defense
      case SpAttack => spAttack
      case SpDefense => spDefense
      case Speed => speed
      case Accuracy => accuracy
      case Evasion => evasion
    }

    function Set(s: Stat, v: int): (r: Boosts)
      ensures r.Get(s) == v
      ensures forall t :: t != s ==> r.Get(t) == Get(t)
    {
      match s
      case Attack => this.(attack := v)
      case Defense => this.(defense := v)
      case SpAttack => this.(spAttack := v)
      case SpDefense => this.(spDefense := v)
      case Speed => this.(speed := v)
      case Accuracy => this.(accuracy := v)
      case Evasion => this.(evasion := v)
    }

    /** Every stage lies in [-6, 6]. */
    predicate InRange() {
      forall s :: -6 <= Get(s) <= 6
    }
  }

  /** `ResetStatBoost`: all seven stages at 0. */
  const NoBoosts := Boosts(0, 0, 0, 0, 0, 0, 0)

  datatype Creature = Creature(
    species: Species,
    level: int,
    exp: int,
    hp: int,
    maxHp: int,
    stats: Stats,
    boosts: Boosts,
    moves: seq<Move>,
    currentMove: Option<nat>,
    status: Option<ConditionId>,
    statusTime: int,
    volatileStatus: Option<ConditionId>,
    volatileStatusTime: int,
    statusChanges: seq<Message>)
  {
    function Name(): string {
      species.name
    }
  }

  // ---------------------------------------------------------------------------
  // Stats

  /** `Mathf.FloorToInt((base * level) / 100f) + 5`. */
  function CalculatedStat(base: int, level: int): (r: int)
    ensures 100 * (r - 5) <= base * level < 100 * (r - 4)
  {
    (base * level) / 100 + 5
  }

  /** `Mathf.FloorToInt((base * level) / 100f) + 10 + level`. */
  function CalculatedMaxHp(base: int, level: int): (r: int)
    ensures 100 * (r - 10 - level) <= base * level < 100 * (r - 9 - level)
  {
    (base * level) / 100 + 10 + level
  }

  /** The stats and MaxHp are the ones `CalculateStats` derives from species and level. */
  predicate StatsConsistent(c: Creature) {
    && (forall s: Stat | s.IsCalculated() :: c.stats.Get(s) == CalculatedStat(c.species.BaseStat(s), c.level))
    && c.maxHp == CalculatedMaxHp(c.species.maxHp, c.level)
  }

  /** `CalculateStats`: recomputes the five stats and MaxHp from species and level; boost stages,
      HP and everything else are left alone. */
  function CalculateStats(c: Creature): (r: Creature)
    ensures StatsConsistent(r)
    ensures r.(stats := c.stats, maxHp := c.maxHp) == c
  {
    var sp := c.species;
    c.(stats := Stats(
         CalculatedStat(sp.attack, c.level),
         CalculatedStat(sp.defense, c.level),
         CalculatedStat(sp.spAttack, c.level),
         CalculatedStat(sp.spDefense, c.level),
         CalculatedStat(sp.speed, c.level)),
       maxHp := CalculatedMaxHp(sp.maxHp, c.level))
  }

  /** The source's `boostValues` table {1, 1.5, 2, 2.5, 3, 3.5, 4}, indexed by |stage|. */
  function BoostValue(k: int): real
    requires 0 <= k <= 6
  {
    [1.0, 1.5, 2.0, 2.5, 3.0, 3.5, 4.0][k]
  }

  /** Floor of a quotient of integers, as a real, is the integer floor division. */
  lemma FloorOfQuotient(n: int, d: int)
    requires d > 0
    ensures (n as real / d as real).Floor == n / d
  {
    var q := n / d;
    var x := n as real / d as real;
    var dr := d as real;
    assert x * dr == n as real;
    assert q as real * dr <= n as real by {
      assert q * d <= n;
      assert (q * d) as real == q as real * dr;
    }
    assert n as real < (q as real + 1.0) * dr by {
      assert n < q * d + d;
      assert (q * d + d) as real == (q as real + 1.0) * dr;
    }
    RealScale(q as real, x, dr);
    RealScaleStrict(x, q as real + 1.0, dr);
  }

  lemma RealScale(a: real, b: real, d: real)
    requires d > 0.0 && a * d <= b * d
    ensures a <= b
  {
  }

  lemma RealScaleStrict(a: real, b: real, d: real)
    requires d > 0.0 && a * d < b * d
    ensures a < b
  {
  }

  /** `GetStat`: the calculated stat times the stage multiplier, floored; a negative stage
      divides by the multiplier of its magnitude. Computed here on integers. */
  function GetStat(c: Creature, s: Stat): (r: int)
    requires s.IsCalculated()
    requires -6 <= c.boosts.Get(s) <= 6
    ensures var v, k := c.stats.Get(s), c.boosts.Get(s);
      && (k >= 0 ==> r == (v as real * BoostValue(k)).Floor)
      && (k < 0 ==> r == (v as real / BoostValue(-k)).Floor)
    ensures c.stats.Get(s) >= 5 ==> r >= 1
  {
    var v, k := c.stats.Get(s), c.boosts.Get(s);
    var r := if k >= 0 then (v * (2 + k)) / 2 else (2 * v) / (2 - k);
    StageMultiplierExact(v, k);
    r
  }

  lemma StageMultiplierExact(v: int, k: int)
    requires -6 <= k <= 6
    ensures k >= 0 ==> (v * (2 + k)) / 2 == (v as real * BoostValue(k)).Floor
    ensures k < 0 ==> (2 * v) / (2 - k) == (v as real / BoostValue(-k)).Floor
  {
    if k >= 0 {
      var m := 2 + k;
      assert BoostValue(k) == m as real / 2.0;
      CastProduct(v, m);
      TimesQuotient(v as real, m as real, 2.0);
      FloorOfQuotient(v * m, 2);
    } else {
      var m := 2 - k;
      assert BoostValue(-k) == m as real / 2.0;
      CastProduct(2, v);
      OverQuotient(v as real, m as real, 2.0);
      FloorOfQuotient(2 * v, m);
    }
  }

  lemma CastProduct(a: int, b: int)
    ensures (a * b) as real == a as real * b as real
  {
  }

  lemma TimesQuotient(x: real, m: real, d: real)
    requires d != 0.0
    ensures x * (m / d) == (x * m) / d
  {
  }

  lemma OverQuotient(x: real, m: real, d: real)
    requires d != 0.0 && m != 0.0
    ensures x / (m / d) == (d * x) / m
  {
  }

  function Attack(c: Creature): int requires c.boosts.InRange() { GetStat(c, Stat.Attack) }
  function Defense(c: Creature): int requires c.boosts.InRange() { GetStat(c, Stat.Defense) }
  function SpAttack(c: Creature): int requires c.boosts.InRange() { GetStat(c, Stat.SpAttack) }
  function SpDefense(c: Creature): int requires c.boosts.InRange() { GetStat(c, Stat.SpDefense) }
  function Speed(c: Creature): int requires c.boosts.InRange() { GetStat(c, Stat.Speed) }

  // ---------------------------------------------------------------------------
  // Boost stages

  /** The message `ApplyBoosts` queues for one entry: "rose" iff the requested delta is positive. */
  function BoostMessage(who: string, sb: StatBoost): Message {
    if sb.boost > 0 then Rose(who, sb.stat) else Fell(who, sb.stat)
  }

  /** True iff some entry of the list names stat `s`. */
  predicate Mentions(list: seq<StatBoost>, s: Stat) {
    exists i :: 0 <= i < |list| && list[i].stat == s
  }

  /** One iteration of the `ApplyBoosts` loop. */
  function ApplyBoost(c: Creature, sb: StatBoost): (r: Creature)
    ensures r.boosts.Get(sb.stat) == Clamp(c.boosts.Get(sb.stat) + sb.boost, -6, 6)
    ensures forall t :: t != sb.stat ==> r.boosts.Get(t) == c.boosts.Get(t)
    ensures r.statusChanges == c.statusChanges + [BoostMessage(c.Name(), sb)]
    ensures r.(boosts := c.boosts, statusChanges := c.statusChanges) == c
  {
    var stage := Clamp(c.boosts.Get(sb.stat) + sb.boost, -6, 6);
    c.(boosts := c.boosts.Set(sb.stat, stage),
       statusChanges := c.statusChanges + [BoostMessage(c.Name(), sb)])
  }

  /** `ApplyBoosts`: one message per entry is appended to the queue and nothing but the stages
      and the queue changes. What happens to the stages is stated by `ApplyBoostsStages`, and
      the message contents by `ApplyBoostsMessages`. */
  function ApplyBoosts(c: Creature, list: seq<StatBoost>): (r: Creature)
    ensures r.(boosts := c.boosts, statusChanges := c.statusChanges) == c
    ensures |r.statusChanges| == |c.statusChanges| + |list|
    ensures r.statusChanges[..|c.statusChanges|] == c.statusChanges
    decreases |list|
  {
    if |list| == 0 then c
    else
      var c1 := ApplyBoost(c, list[0]);
      var r := ApplyBoosts(c1, list[1..]);
      assert r.statusChanges[..|c.statusChanges|] == r.statusChanges[..|c1.statusChanges|][..|c.statusChanges|];
      r
  }

  /** The i-th appended message reports the i-th entry: "rose" iff its delta is positive. */
  lemma {:induction false} ApplyBoostsMessages(c: Creature, list: seq<StatBoost>)
    ensures var r := ApplyBoosts(c, list);
      forall i :: 0 <= i < |list| ==>
        r.statusChanges[|c.statusChanges| + i] == BoostMessage(c.Name(), list[i])
    decreases |list|
  {
    if |list| > 0 {
      var c1 := ApplyBoost(c, list[0]);
      var r := ApplyBoosts(c1, list[1..]);
      ApplyBoostsMessages(c1, list[1..]);
      forall i | 0 <= i < |list|
        ensures r.statusChanges[|c.statusChanges| + i] == BoostMessage(c.Name(), list[i])
      {
        if i > 0 {
          assert list[1..][i - 1] == list[i];
          assert |c.statusChanges| + i == |c1.statusChanges| + (i - 1);
        } else {
          assert r.statusChanges[..|c1.statusChanges|] == c1.statusChanges;
          assert r.statusChanges[|c.statusChanges|] == r.statusChanges[..|c1.statusChanges|][|c.statusChanges|];
        }
      }
    }
  }

  /** Stages of stats the list never names are untouched; every named stage ends in [-6, 6];
      a table already in range stays in range. */
  lemma {:induction false} ApplyBoostsStages(c: Creature, list: seq<StatBoost>)
    ensures var r := ApplyBoosts(c, list);
      && (forall s :: !Mentions(list, s) ==> r.boosts.Get(s) == c.boosts.Get(s))
      && (forall s :: Mentions(list, s) ==> -6 <= r.boosts.Get(s) <= 6)
      && (c.boosts.InRange() ==> r.boosts.InRange())
    decreases |list|
  {
    if |list| > 0 {
      var c1 := ApplyBoost(c, list[0]);
      var r := ApplyBoosts(c1, list[1..]);
      ApplyBoostsStages(c1, list[1..]);
      forall s ensures Mentions(list, s) <==> s == list[0].stat || Mentions(list[1..], s) {
        if Mentions(list, s) && s != list[0].stat {
          var i :| 0 <= i < |list| && list[i].stat == s;
          assert list[1..][i - 1].stat == s;
        }
        if Mentions(list[1..], s) {
          var i :| 0 <= i < |list[1..]| && list[1..][i].stat == s;
          assert list[i + 1].stat == s;
        }
        if s == list[0].stat {
          assert list[0].stat == s;
        }
      }
    }
  }

  /** Applying two boost lists one after the other is applying their concatenation. */
  lemma {:induction false} ApplyBoostsConcat(c: Creature, a: seq<StatBoost>, b: seq<StatBoost>)
    ensures ApplyBoosts(c, a + b) == ApplyBoosts(ApplyBoosts(c, a), b)
    decreases |a|
  {
    if |a| == 0 {
      assert a + b == b;
    } else {
      assert (a + b)[1..] == a[1..] + b;
      assert (a + b)[0] == a[0];
      ApplyBoostsConcat(ApplyBoost(c, a[0]), a[1..], b);
    }
  }

  // ---------------------------------------------------------------------------
  // HP

  /** `DecreaseHP`: HP minus `damage`, clamped into [0, MaxHp]; nothing else changes. */
  function DecreaseHP(c: Creature, damage: int): (r: Creature)
    ensures c.maxHp >= 0 ==> 0 <= r.hp <= c.maxHp
    ensures 0 <= c.hp - damage <= c.maxHp ==> r.hp == c.hp - damage
    ensures c.hp - damage < 0 ==> r.hp == 0
    ensures damage >= 0 && 0 <= c.hp <= c.maxHp ==> r.hp <= c.hp
    ensures r.(hp := c.hp) == c
  {
    c.(hp := Clamp(c.hp - damage, 0, c.maxHp))
  }

  /** `IncreaseHP`: HP plus `amount`, clamped into [0, MaxHp]; nothing else changes. */
  function IncreaseHP(c: Creature, amount: int): (r: Creature)
    ensures c.maxHp >= 0 ==> 0 <= r.hp <= c.maxHp
    ensures 0 <= c.hp + amount <= c.maxHp ==> r.hp == c.hp + amount
    ensures c.maxHp >= 0 && c.hp + amount > c.maxHp ==> r.hp == c.maxHp
    ensures amount >= 0 && 0 <= c.hp ==> r.hp >= c.hp || r.hp == c.maxHp
    ensures r.(hp := c.hp) == c
  {
    c.(hp := Clamp(c.hp + amount, 0, c.maxHp))
  }

  // ---------------------------------------------------------------------------
  // Levels, moves and evolution

  /** The strict level-up test of `CheckForLevelUp`. */
  predicate LevelUpDue(c: Creature) {
    c.exp > c.species.ExpForLevel(c.level + 1)
  }

  /** `CheckForLevelUp`: answers true and raises the level by exactly one, recomputing the stats,
      iff Exp is strictly above the next level's threshold; otherwise nothing changes. */
  function CheckForLevelUp(c: Creature): (r: (Creature, bool))
    ensures r.1 <==> c.exp > c.species.ExpForLevel(c.level + 1)
    ensures r.1 ==> (r.0.level == c.level + 1 && StatsConsistent(r.0)
                     && r.0.(level := c.level, stats := c.stats, maxHp := c.maxHp) == c)
    ensures !r.1 ==> r.0 == c
  {
    if c.exp > c.species.ExpForLevel(c.level + 1) then
      (CalculateStats(c.(level := c.level + 1)), true)
    else
      (c, false)
  }

  /** Levelling up never lowers MaxHp (for a non-negative base HP), so HP stays within it. */
  lemma LevelUpKeepsHpWithinMax(c: Creature)
    requires StatsConsistent(c) && c.species.maxHp >= 0 && 0 <= c.hp <= c.maxHp
    ensures var r := CheckForLevelUp(c).0; 0 <= r.hp <= r.maxHp
  {
    var b, l := c.species.maxHp, c.level;
    assert b * (l + 1) == b * l + b;
    assert (b * (l + 1)) / 100 >= (b * l) / 100;
  }

  /** Index of the first learnable move whose level equals `level`, if any. */
  function FirstLearnableAt(ls: seq<LearnableMove>, level: int): (r: Option<nat>)
    ensures r.Some? ==> (r.value < |ls| && ls[r.value].level == level
                         && forall j :: 0 <= j < r.value ==> ls[j].level != level)
    ensures r.None? ==> forall j :: 0 <= j < |ls| ==> ls[j].level != level
  {
    if |ls| == 0 then Option.None
    else if ls[0].level == level then Some(0)
    else
      match FirstLearnableAt(ls[1..], level)
      case None => Option.None
      case Some(i) => Some(i + 1)
  }

  /** `m` stands in `ls` at a position before which no entry is for `level`. */
  predicate FirstLearnable(ls: seq<LearnableMove>, level: int, m: LearnableMove) {
    exists i :: 0 <= i < |ls| && ls[i] == m && forall j :: 0 <= j < i ==> ls[j].level != level
  }

  /** `GetLearnableMoveAtCurrentLevel`: the first learnable move for exactly the current level. */
  function GetLearnableMoveAtCurrentLevel(c: Creature): (r: Option<LearnableMove>)
    ensures r.Some? ==> r.value in c.species.learnableMoves && r.value.level == c.level
    ensures r.Some? ==> FirstLearnable(c.species.learnableMoves, c.level, r.value)
    ensures r.None? ==> forall m :: m in c.species.learnableMoves ==> m.level != c.level
  {
    match FirstLearnableAt(c.species.learnableMoves, c.level)
    case None => Option.None
    case Some(i) => Some(c.species.learnableMoves[i])
  }

  /** `LearnMove`: appends a fresh move unless the creature already has MORE than four, so a
      creature with exactly four moves ends up with five. */
  function LearnMove(c: Creature, move: MoveBase): (r: Creature)
    ensures |c.moves| > 4 ==> r == c
    ensures |c.moves| <= 4 ==> (|r.moves| == |c.moves| + 1 && r.moves[..|c.moves|] == c.moves
                                && r.moves[|c.moves|] == NewMove(move))
    ensures r.(moves := c.moves) == c
  {
    if |c.moves| > 4 then c
    else c.(moves := c.moves + [NewMove(move)])
  }

  /** Number of learned moves whose definition is `move`. */
  function CountWithBase(moves: seq<Move>, move: MoveBase): (n: nat)
    ensures n > 0 <==> exists i :: 0 <= i < |moves| && moves[i].base == move
  {
    if |moves| == 0 then 0
    else
      var rest := CountWithBase(moves[1..], move);
      assert forall i :: 1 <= i < |moves| ==> moves[i] == moves[1..][i - 1];
      (if moves[0].base == move then 1 else 0) + rest
  }

  /** `HasMove`: some learned move has this definition. */
  function HasMove(c: Creature, move: MoveBase): (r: bool)
    ensures r <==> exists i :: 0 <= i < |c.moves| && c.moves[i].base == move
  {
    CountWithBase(c.moves, move) > 0
  }

  /** `OnMoveToForgetSelected` and the battle's move-forget handler: choice 4 keeps the moves,
      any other choice replaces exactly that slot with a fresh copy of the new move. */
  function ReplaceMove(c: Creature, choice: int, newMove: MoveBase): (r: Creature)
    requires choice == 4 || 0 <= choice < |c.moves|
    ensures choice == 4 ==> r == c
    ensures choice != 4 ==> (|r.moves| == |c.moves| && r.moves[choice] == NewMove(newMove)
                             && forall j :: 0 <= j < |c.moves| && j != choice ==> r.moves[j] == c.moves[j])
    ensures r.(moves := c.moves) == c
  {
    if choice == 4 then c
    else c.(moves := c.moves[choice := NewMove(newMove)])
  }

  /** Index of the first evolution whose required level equals `level`, if any. */
  function FirstEvolutionAt(es: seq<Evolution>, level: int): (r: Option<nat>)
    ensures r.Some? ==> (r.value < |es| && es[r.value].requiredLevel == level
                         && forall j :: 0 <= j < r.value ==> es[j].requiredLevel != level)
    ensures r.None? ==> forall j :: 0 <= j < |es| ==> es[j].requiredLevel != level
  {
    if |es| == 0 then Option.None
    else if es[0].requiredLevel == level then Some(0)
    else
      match FirstEvolutionAt(es[1..], level)
      case None => Option.None
      case Some(i) => Some(i + 1)
  }

  /** `e` stands in `es` at a position before which no entry requires `level`. */
  predicate FirstEvolution(es: seq<Evolution>, level: int, e: Evolution) {
    exists i :: 0 <= i < |es| && es[i] == e && forall j :: 0 <= j < i ==> es[j].requiredLevel != level
  }

  /** `CheckForEvolution`: the first evolution entry for exactly the current level. */
  function CheckForEvolution(c: Creature): (r: Option<Evolution>)
    ensures r.Some? ==> r.value in c.species.evolutions && r.value.requiredLevel == c.level
    ensures r.Some? ==> FirstEvolution(c.species.evolutions, c.level, r.value)
    ensures r.None? ==> forall e :: e in c.species.evolutions ==> e.requiredLevel != c.level
  {
    match FirstEvolutionAt(c.species.evolutions, c.level)
    case None => Option.None
    case Some(i) => Some(c.species.evolutions[i])
  }

  /** `Evolve`: the creature becomes the target species with freshly calculated stats; level,
      HP, Exp, moves, statuses and boosts stay as they were. */
  function Evolve(c: Creature, evolution: Evolution): (r: Creature)
    ensures r.species == evolution.evolvesInto && StatsConsistent(r)
    ensures r.(species := c.species, stats := c.stats, maxHp := c.maxHp) == c
  {
    CalculateStats(c.(species := evolution.evolvesInto))
  }

  /** Indices of the moves that still have PP, in list order. */
  function MovesWithPP(moves: seq<Move>): (idx: seq<nat>)
    ensures forall k :: 0 <= k < |idx| ==> idx[k] < |moves| && moves[idx[k]].pp > 0
    ensures forall k, l :: 0 <= k < l < |idx| ==> idx[k] < idx[l]
    ensures forall j :: 0 <= j < |moves| && moves[j].pp > 0 ==> j in idx
    decreases |moves|
  {
    if |moves| == 0 then []
    else
      var init := MovesWithPP(moves[..|moves| - 1]);
      assert forall j :: 0 <= j < |moves| - 1 ==> moves[..|moves| - 1][j] == moves[j];
      if moves[|moves| - 1].pp > 0 then init + [|moves| - 1] else init
  }

  /** The moves with PP among the first `i` are the first entries of those among all moves;
      every later entry lies at `i` or beyond. */
  lemma {:induction false} MovesWithPPPrefix(moves: seq<Move>, i: nat)
    requires i <= |moves|
    ensures var p, w := MovesWithPP(moves[..i]), MovesWithPP(moves);
      && |p| <= |w| && w[..|p|] == p
      && forall k :: |p| <= k < |w| ==> w[k] >= i
    decreases |moves|
  {
    if i < |moves| {
      var init := moves[..|moves| - 1];
      assert init[..i] == moves[..i];
      MovesWithPPPrefix(init, i);
    } else {
      assert moves[..i] == moves;
    }
  }

  /** The `draw`-th move with PP is preceded by exactly `draw` moves with PP. */
  lemma MovesWithPPRank(moves: seq<Move>, draw: nat)
    requires draw < |MovesWithPP(moves)|
    ensures |MovesWithPP(moves[..MovesWithPP(moves)[draw]])| == draw
  {
    var w := MovesWithPP(moves);
    var v := w[draw];
    MovesWithPPPrefix(moves, v);
    var p := MovesWithPP(moves[..v]);
    assert forall k :: 0 <= k < |p| ==> w[k] == p[k];
    SortedSplit(w, |p|, v, draw);
  }

  /** In a strictly increasing sequence, a value sits exactly after the entries below it. */
  lemma SortedSplit(w: seq<nat>, m: nat, v: nat, d: nat)
    requires m <= |w| && d < |w| && w[d] == v
    requires forall k, l :: 0 <= k < l < |w| ==> w[k] < w[l]
    requires forall k :: 0 <= k < m ==> w[k] < v
    requires forall k :: m <= k < |w| ==> w[k] >= v
    ensures d == m
  {
    assert !(d < m);
    var atM := if m < |w| then w[m] else v;
    assert atM >= v;
    assert !(m < d);
  }

  /** `GetRandomMove` with `draw` standing for `Random.Range(0, count)` over the moves with PP:
      the chosen move has PP and exactly `draw` moves with PP come before it. With no such move
      the source indexes an empty list and throws: `None`. */
  function GetRandomMove(c: Creature, draw: int): (r: Option<nat>)
    requires 0 <= draw && (draw == 0 || draw < |MovesWithPP(c.moves)|)
    ensures r.Some? ==> r.value < |c.moves| && c.moves[r.value].pp > 0
    ensures r.Some? ==> |MovesWithPP(c.moves[..r.value])| == draw
    ensures r.None? <==> forall j :: 0 <= j < |c.moves| ==> c.moves[j].pp <= 0
  {
    var withPP := MovesWithPP(c.moves);
    if |withPP| == 0 then Option.None
    else
      MovesWithPPRank(c.moves, draw);
      Some(withPP[draw])
  }

  /** `OnBattleOver`: the volatile status is cleared and every stage reset; the persistent
      status, HP and PP carry over to the next battle. */
  function OnBattleOver(c: Creature): (r: Creature)
    ensures r.volatileStatus.None? && r.boosts == NoBoosts && r.boosts.InRange()
    ensures r.(volatileStatus := c.volatileStatus, boosts := c.boosts) == c
  {
    c.(volatileStatus := Option.None, boosts := NoBoosts)
  }

  // ---------------------------------------------------------------------------
  // Creation

  /** The learnable moves whose level is at most `level`, in list order. */
  function Eligible(ls: seq<LearnableMove>, level: int): (r: seq<MoveBase>)
    ensures |r| <= |ls|
    decreases |ls|
  {
    if |ls| == 0 then []
    else Eligible(ls[..|ls| - 1], level)
         + (if ls[|ls| - 1].level <= level then [ls[|ls| - 1].base] else [])
  }

  /** The first `n` entries of `bases` (all of them when fewer), each as a fresh move. */
  function FreshMoves(bases: seq<MoveBase>, n: nat): (r: seq<Move>)
    ensures |r| == Min(n, |bases|)
    ensures forall i :: 0 <= i < |r| ==> r[i] == NewMove(bases[i])
  {
    seq(Min(n, |bases|), i requires 0 <= i < Min(n, |bases|) => NewMove(bases[i]))
  }

  function Min(a: int, b: int): int {
    if a <= b then a else b
  }

  /** The moves `Init` gives a creature: the first four learnable moves at or below its level. */
  function InitialMoves(ls: seq<LearnableMove>, level: int): seq<Move> {
    FreshMoves(Eligible(ls, level), 4)
  }

  lemma EligiblePrefix(ls: seq<LearnableMove>, level: int, j: nat, k: nat)
    requires j <= k <= |ls|
    ensures Eligible(ls[..j], level) <= Eligible(ls[..k], level)
    decreases k - j
  {
    if j < k {
      EligiblePrefix(ls, level, j, k - 1);
      assert ls[..k][..k - 1] == ls[..k - 1];
    }
  }

  /** The `Init` move loop as written: walk the learnable moves, add each one at or below the
      level, and stop as soon as four moves are held. */
  method SelectInitialMoves(ls: seq<LearnableMove>, level: int) returns (moves: seq<Move>)
    ensures |moves| <= 4
    ensures moves == InitialMoves(ls, level)
  {
    moves := [];
    var i := 0;
    while i < |ls|
      invariant 0 <= i <= |ls|
      invariant moves == FreshMoves(Eligible(ls[..i], level), 4)
      invariant |moves| < 4
    {
      assert ls[..i + 1][..i] == ls[..i];
      if ls[i].level <= level {
        moves := moves + [NewMove(ls[i].base)];
      }
      if |moves| >= 4 {
        EligiblePrefix(ls, level, i + 1, |ls|);
        assert ls[..|ls|] == ls;
        return;
      }
      i := i + 1;
    }
    assert ls[..i] == ls;
  }

  /** `Init`: the initial moves, Exp at the level's threshold, fresh stats, full HP, an empty
      message queue, stages at 0 and both status slots empty. */
  function Init(c: Creature): (r: Creature)
    ensures r.moves == InitialMoves(c.species.learnableMoves, c.level) && |r.moves| <= 4
    ensures r.exp == c.species.ExpForLevel(c.level)
    ensures StatsConsistent(r) && r.hp == r.maxHp
    ensures r.statusChanges == [] && r.boosts == NoBoosts
    ensures r.status.None? && r.volatileStatus.None?
    ensures r.species == c.species && r.level == c.level
  {
    var c1 := c.(moves := InitialMoves(c.species.learnableMoves, c.level),
                 exp := c.species.ExpForLevel(c.level));
    var c2 := CalculateStats(c1);
    c2.(hp := c2.maxHp, statusChanges := [], boosts := NoBoosts, status := Option.None, volatileStatus := Option.None)
  }

  /** `new Pokemon(species, level)`: a creature with C# default fields, then `Init`. */
  function NewCreature(species: Species, level: int): (r: Creature)
    ensures r.species == species && r.level == level && r.hp == r.maxHp && StatsConsistent(r)
    ensures r.currentMove.None? && r.statusTime == 0 && r.volatileStatusTime == 0
  {
    Init(Creature(species, level, 0, 0, 0, Stats(0, 0, 0, 0, 0), NoBoosts, [], Option.None,
                  Option.None, 0, Option.None, 0, []))
  }

  // ---------------------------------------------------------------------------
  // Saving

  datatype PokemonSaveData = PokemonSaveData(
    name: string, hp: int, level: int, exp: int,
    statusId: Option<ConditionId>, moves: seq<MoveSaveData>)

  /** `GetSaveData`; `saveMove` stands for `Move.GetSaveData`. */
  function GetSaveData(c: Creature, saveMove: Move -> MoveSaveData): (s: PokemonSaveData)
    ensures s.name == c.species.name && s.hp == c.hp && s.level == c.level && s.exp == c.exp
    ensures s.statusId == c.status
    ensures |s.moves| == |c.moves| && forall i :: 0 <= i < |c.moves| ==> s.moves[i] == saveMove(c.moves[i])
  {
    PokemonSaveData(c.species.name, c.hp, c.level, c.exp, c.status,
      seq(|c.moves|, i requires 0 <= i < |c.moves| => saveMove(c.moves[i])))
  }

  /** The save-data constructor. The species is looked up by name in `db` (`PokemonDB`);
      a miss leaves the base null and the stat calculation throws, which is `None` here.
      `restoreMove` stands for `new Move(MoveSaveData)`. Timers and the current move keep
      their C# defaults. */
  function FromSaveData(s: PokemonSaveData, db: map<string, Species>,
                        restoreMove: MoveSaveData -> Move): (r: Option<Creature>)
    ensures r.None? <==> s.name !in db
    ensures r.Some? ==> var c := r.value;
      && c.species == db[s.name] && c.hp == s.hp && c.level == s.level && c.exp == s.exp
      && c.status == s.statusId && c.volatileStatus.None? && c.boosts == NoBoosts
      && c.statusChanges == [] && c.statusTime == 0 && c.volatileStatusTime == 0
      && StatsConsistent(c)
      && |c.moves| == |s.moves| && forall i :: 0 <= i < |s.moves| ==> c.moves[i] == restoreMove(s.moves[i])
  {
    if s.name !in db then Option.None
    else
      var moves := seq(|s.moves|, i requires 0 <= i < |s.moves| => restoreMove(s.moves[i]));
      Some(CalculateStats(Creature(db[s.name], s.level, s.exp, s.hp, 0, Stats(0, 0, 0, 0, 0),
                                   NoBoosts, moves, Option.None, s.statusId, 0, Option.None, 0, [])))
  }

  /** Saving then loading keeps species, HP, level, Exp, status and the moves in order (each one
      through the move's own save round trip); volatile status and stages come back reset. */
  lemma SaveRoundTrip(c: Creature, db: map<string, Species>,
                      saveMove: Move -> MoveSaveData, restoreMove: MoveSaveData -> Move)
    requires c.species.name in db && db[c.species.name] == c.species
    ensures var r := FromSaveData(GetSaveData(c, saveMove), db, restoreMove);
      && r.Some?
      && r.value.species == c.species && r.value.hp == c.hp && r.value.level == c.level
      && r.value.exp == c.exp && r.value.status == c.status
      && |r.value.moves| == |c.moves|
      && (forall i :: 0 <= i < |c.moves| ==> r.value.moves[i] == restoreMove(saveMove(c.moves[i])))
      && r.value.volatileStatus.None? && r.value.boosts == NoBoosts
      && (StatsConsistent(c) ==> r.value.stats == c.stats && r.value.maxHp == c.maxHp)
  {
    var r := FromSaveData(GetSaveData(c, saveMove), db, restoreMove);
    if StatsConsistent(c) {
      var d := r.value;
      assert d.stats.Get(Stat.Attack) == c.stats.Get(Stat.Attack);
      assert d.stats.Get(Stat.Defense) == c.stats.Get(Stat.Defense);
      assert d.stats.Get(Stat.SpAttack) == c.stats.Get(Stat.SpAttack);
      assert d.stats.Get(Stat.SpDefense) == c.stats.Get(Stat.SpDefense);
      assert d.stats.Get(Stat.Speed) == c.stats.Get(Stat.Speed);
    }
  }

  /** With moves that survive their own round trip, the whole move list comes back unchanged. */
  lemma SaveRoundTripMoves(c: Creature, db: map<string, Species>,
                           saveMove: Move -> MoveSaveData, restoreMove: MoveSaveData -> Move)
    requires c.species.name in db && db[c.species.name] == c.species
    requires forall m :: restoreMove(saveMove(m)) == m
    ensures var r := FromSaveData(GetSaveData(c, saveMove), db, restoreMove);
      r.Some? && r.value.moves == c.moves
  {
    SaveRoundTrip(c, db, saveMove, restoreMove);
  }

  // ---------------------------------------------------------------------------
  // Damage inputs

  /** The part of `TakeDamage` that is integer or exact: the type multiplier against both of the
      defender's types, and the attack/defense pair chosen by the move's category. */
  function DamageInputs(move: MoveBase, attacker: Creature, defender: Creature): (r: (real, int, int))
    requires attacker.boosts.InRange() && defender.boosts.InRange()
    ensures r.0 == GetEffectiveness(move.moveType, defender.species.type1)
                   * GetEffectiveness(move.moveType, defender.species.type2)
    ensures move.category == Special ==> r.1 == SpAttack(attacker) && r.2 == SpDefense(defender)
    ensures move.category != Special ==> r.1 == Attack(attacker) && r.2 == Defense(defender)
  {
    var e := GetEffectiveness(move.moveType, defender.species.type1)
             * GetEffectiveness(move.moveType, defender.species.type2);
    if move.category == Special then (e, SpAttack(attacker), SpDefense(defender))
    else (e, Attack(attacker), Defense(defender))
  }

  /** `TakeDamage` with the float damage formula's result given as `damage`: it goes through
      `DecreaseHP`, so HP never drops below 0. */
  function TakeDamage(defender: Creature, damage: int): (r: Creature)
    ensures defender.maxHp >= 0 ==> 0 <= r.hp <= defender.maxHp
    ensures damage >= 0 && 0 <= defender.hp <= defender.maxHp ==> r.hp <= defender.hp
    ensures r.(hp := defender.hp) == defender
  {
    DecreaseHP(defender, damage)
  }
}

=== FILE: pokemon_base.dfy ===
/** The species-level rules of `PokemonBase.cs`: the elemental types, the growth-rate
    experience curves, the stat names and the 18x18 type-effectiveness chart. */
module PokemonBase {
  import opened Mathf

  /** Elemental types, in declaration order; `None` (ordinal 0) marks an absent second type. */
  datatype PokemonType =
    | None | Normal | Fire | Water | Grass | Flying | Fighting | Poison | Electric
    | Ground | Rock | Psychic | Ice | Bug | Ghost | Steel | Dragon | Dark | Fairy
  {
    /** The enum's integer value, `(int)type`. */
    function Ordinal(): (n: nat)
      ensures n <= 18
      ensures n == 0 <==> this == None
    {
      match this
      case None => 0 case Normal => 1 case Fire => 2 case Water => 3 case Grass => 4
      case Flying => 5 case Fighting => 6 case Poison => 7 case Electric => 8
      case Ground => 9 case Rock => 10 case Psychic => 11 case Ice => 12 case Bug => 13
      case Ghost => 14 case Steel => 15 case Dragon => 16 case Dark => 17 case Fairy => 18
    }
  }

  datatype GrowthRate = Fast | MediumFast | MediumSlow | Slow | Fluctuating

  /** The five real stats followed by the two boost-only stages. */
  datatype Stat = Attack | Defense | SpAttack | SpDefense | Speed | Accuracy | Evasion {
    predicate IsCalculated() {
      !(Accuracy? || Evasion?)
    }
  }

  /** `GetExpForLevel`: total experience a creature of this growth rate has at `level`.
      Every division is C#'s truncating integer division; the MediumSlow factor `6 / 5` is the
      integer 1; Fluctuating is defined below level 100 only and every uncovered case is -1. */
  function GetExpForLevel(rate: GrowthRate, level: int): int
  {
    var cube := level * level * level;
    match rate
    case Fast => CsDiv(4 * cube, 5)
    case MediumFast => cube
    case MediumSlow => CsDiv(6, 5) * cube - 15 * (level * level) + 100 * level - 140
    case Slow => CsDiv(5 * cube, 4)
    case Fluctuating =>
      if level < 15 then CsDiv(cube * (CsDiv(level + 1, 3) + 24), 50)
      else if level >= 15 && level < 36 then CsDiv(cube * (level + 14), 50)
      else if level >= 36 && level < 100 then CsDiv(cube * (CsDiv(level + 1, 3) + 32), 50)
      else -1
  }

  /** For non-negative levels C#'s truncating division is floor division, so each curve is
      its textbook formula with `/`; MediumSlow loses its 6/5 factor; Fluctuating has the
      three level bands and is -1 from level 100 on. */
  lemma ExpCurveFormulas(rate: GrowthRate, level: int)
    requires level >= 0
    ensures var e := GetExpForLevel(rate, level);
      match rate
      case Fast => e == 4 * (level * level * level) / 5
      case MediumFast => e == level * level * level
      case MediumSlow => e == level * level * level - 15 * (level * level) + 100 * level - 140
      case Slow => e == 5 * (level * level * level) / 4
      case Fluctuating =>
        && (level < 15 ==> e == level * level * level * ((level + 1) / 3 + 24) / 50)
        && (15 <= level < 36 ==> e == level * level * level * (level + 14) / 50)
        && (36 <= level < 100 ==> e == level * level * level * ((level + 1) / 3 + 32) / 50)
        && (level >= 100 ==> e == -1)
  {
    var cube := level * level * level;
    assert cube >= 0 by { MulLeftMono(level, 0, level * level); assert level * level >= 0 by { MulLeftMono(level, 0, level); } }
    assert CsDiv(6, 5) == 1;
    match rate
    case Fast =>
      assert 4 * cube >= 0;
    case MediumFast =>
    case MediumSlow =>
    case Slow =>
      assert 5 * cube >= 0;
    case Fluctuating =>
      var third := CsDiv(level + 1, 3);
      assert third == (level + 1) / 3;
      assert third >= 0;
      if level < 15 {
        assert cube * (third + 24) >= 0 by { MulLeftMono(cube, 0, third + 24); }
      } else if level < 36 {
        assert cube * (level + 14) >= 0 by { MulLeftMono(cube, 0, level + 14); }
      } else if level < 100 {
        assert cube * (third + 32) >= 0 by { MulLeftMono(cube, 0, third + 32); }
      }
  }

  /** Cubes are strictly increasing on the naturals. */
  lemma CubeStrictlyIncreasing(a: int, b: int)
    requires 0 <= a < b
    ensures a * a * a < b * b * b
  {
    assert a * a <= a * b by { MulLeftMono(a, a, b); }
    assert a * b < b * b by { MulRightStrict(a, b, b); }
    assert a * a * a <= a * a * b by { MulLeftMono(a * a, a, b); }
    assert a * a * b < b * b * b by {
      assert a * a < b * b;
      MulRightStrict(a * a, b * b, b);
    }
  }

  lemma MulLeftMono(k: int, x: int, y: int)
    requires k >= 0 && x <= y
    ensures k * x <= k * y
  {
  }

  lemma MulRightStrict(x: int, y: int, k: int)
    requires x < y && k > 0
    ensures x * k < y * k
  {
  }

  /** The MediumFast curve is strictly increasing in the level for non-negative levels. */
  lemma MediumFastStrictlyIncreasing(a: int, b: int)
    requires 0 <= a < b
    ensures GetExpForLevel(MediumFast, a) < GetExpForLevel(MediumFast, b)
  {
    CubeStrictlyIncreasing(a, b);
  }

  /** The MediumSlow polynomial grows by `3n^2 - 27n + 86 > 0` from level n to n + 1,
      so it is strictly increasing at every level. */
  lemma MediumSlowStep(n: int)
    requires n >= 0
    ensures GetExpForLevel(MediumSlow, n) < GetExpForLevel(MediumSlow, n + 1)
  {
    var m := n + 1;
    assert m * m * m == n * n * n + 3 * (n * n) + 3 * n + 1;
    assert m * m == n * n + 2 * n + 1;
    var diff := 3 * (n * n) - 27 * n + 86;
    assert diff > 0 by {
      // 3n^2 - 27n + 86 = 3(n - 4.5)^2 + 25.25, checked here over the integers.
      if n <= 4 {
        assert 27 * n <= 108;
        assert diff >= 86 - 27 * n + 3 * (n * n);
      } else {
        assert n * n >= 5 * n by { MulLeftMono(n, 5, n); }
      }
    }
  }

  /** Once a Fluctuating creature's next level is 100 or more, the curve answers -1. */
  lemma FluctuatingUndefinedFromHundred(level: int)
    requires level >= 100
    ensures GetExpForLevel(Fluctuating, level) == -1
  {
  }

  /** One chart entry; `Value` is the float the source stores. */
  datatype Factor = Immune | Half | Neutral | Double {
    function Value(): (v: real)
      ensures v == 0.0 || v == 0.5 || v == 1.0 || v == 2.0
    {
      match this
      case Immune => 0.0
      case Half => 0.5
      case Neutral => 1.0
      case Double => 2.0
    }
  }

  /** The chart row of an attacking type: entry `k` is its factor against the type of ordinal `k + 1`. */
  function ChartRow(attack: PokemonType): (row: seq<Factor>)
    requires attack != PokemonType.None
    ensures |row| == 18
  {
    var O := Immune; var H := Half; var N := Neutral; var D := Double;
    match attack
    //                 NOR FIR WAT GRA FLY FIG POI ELE GRO ROC PSY ICE BUG GHO STE DRA DAR FAI
    case Normal   => [ N,  N,  N,  N,  N,  N,  N,  N,  N,  H,  N,  N,  N,  O,  H,  N,  N,  N ]
    case Fire     => [ N,  H,  H,  D,  N,  N,  N,  N,  N,  H,  N,  D,  D,  N,  D,  H,  N,  N ]
    case Water    => [ N,  D,  H,  H,  N,  N,  N,  N,  D,  D,  N,  N,  N,  N,  N,  H,  N,  N ]
    case Grass    => [ N,  H,  D,  H,  H,  N,  H,  N,  D,  D,  N,  N,  H,  N,  H,  H,  N,  N ]
    case Flying   => [ N,  N,  N,  D,  N,  D,  N,  H,  N,  H,  N,  N,  D,  N,  H,  N,  N,  N ]
    case Fighting => [ D,  N,  N,  N,  H,  N,  H,  N,  N,  D,  H,  D,  H,  O,  D,  N,  D,  H ]
    case Poison   => [ N,  N,  N,  D,  N,  N,  H,  N,  H,  H,  N,  N,  N,  H,  O,  N,  N,  D ]
    case Electric => [ N,  N,  D,  H,  D,  N,  N,  H,  O,  N,  N,  N,  N,  N,  N,  H,  N,  N ]
    case Ground   => [ N,  D,  N,  H,  O,  N,  D,  D,  N,  D,  N,  N,  H,  N,  D,  N,  N,  N ]
    case Rock     => [ N,  D,  N,  N,  D,  H,  N,  N,  H,  N,  N,  D,  D,  N,  H,  N,  N,  N ]
    case Psychic  => [ N,  N,  N,  N,  N,  D,  D,  N,  N,  N,  H,  N,  N,  N,  H,  N,  O,  N ]
    case Ice      => [ N,  H,  H,  D,  D,  N,  N,  N,  D,  N,  N,  H,  N,  N,  H,  D,  N,  N ]
    case Bug      => [ N,  H,  N,  D,  H,  H,  H,  N,  N,  N,  D,  N,  N,  H,  H,  N,  H,  N ]
    case Ghost    => [ O,  N,  N,  N,  N,  N,  N,  N,  N,  N,  D,  N,  N,  D,  N,  N,  H,  N ]
    case Steel    => [ N,  H,  H,  N,  N,  N,  N,  H,  N,  D,  N,  D,  N,  N,  H,  N,  N,  D ]
    case Dragon   => [ N,  N,  N,  N,  N,  N,  N,  N,  N,  N,  N,  N,  N,  N,  H,  D,  N,  O ]
    case Dark     => [ N,  N,  N,  N,  N,  H,  N,  N,  N,  N,  D,  N,  N,  D,  N,  N,  H,  H ]
    case Fairy    => [ N,  H,  N,  N,  N,  D,  H,  N,  N,  N,  N,  N,  N,  N,  H,  D,  D,  N ]
  }

  /** `TypeChart.GetEffectiveness`: 1 whenever either side is `None`, otherwise the chart entry
      at row `attack - 1`, column `defense - 1`. */
  function GetEffectiveness(attack: PokemonType, defense: PokemonType): (r: real)
    ensures attack == PokemonType.None || defense == PokemonType.None ==> r == 1.0
    ensures attack != PokemonType.None && defense != PokemonType.None ==>
      r == ChartRow(attack)[defense.Ordinal() - 1].Value()
    ensures r == 0.0 || r == 0.5 || r == 1.0 || r == 2.0
  {
    if attack == PokemonType.None || defense == PokemonType.None then 1.0
    else ChartRow(attack)[defense.Ordinal() - 1].Value()
  }

  /** The multiplier `TakeDamage` uses is the product of the lookups against both defending
      types, so it is one of 0, 1/4, 1/2, 1, 2 or 4. */
  lemma EffectivenessProductValues(move: PokemonType, type1: PokemonType, type2: PokemonType)
    ensures var e := GetEffectiveness(move, type1) * GetEffectiveness(move, type2);
      e == 0.0 || e == 0.25 || e == 0.5 || e == 1.0 || e == 2.0 || e == 4.0
  {
  }

  /** The immunities the chart records. */
  lemma ChartImmunities()
    ensures GetEffectiveness(Normal, Ghost) == 0.0
    ensures GetEffectiveness(Electric, Ground) == 0.0
    ensures GetEffectiveness(Ground, Flying) == 0.0
    ensures GetEffectiveness(Ghost, Normal) == 0.0
  {
  }
}

=== FILE: pokemon_db.dfy ===
/** `PokemonDB`: the species registry, keyed by species name, first loaded entry wins. The
    loaded list stands for `Resources.LoadAll<PokemonBase>`. */
module PokemonDB {
  import opened Options
  import opened Species
  import NameRegistry

  function SpeciesName(s: Species): string {
    s.name
  }

  /** `Init`: a fresh registry holding, for every loaded name, the first species with it. */
  method Init(loaded: seq<Species>) returns (db: map<string, Species>)
    ensures db.Keys == set i | 0 <= i < |loaded| :: loaded[i].name
    ensures forall i :: NameRegistry.FirstWithName(loaded, SpeciesName, i) ==> db[loaded[i].name] == loaded[i]
  {
    db := NameRegistry.Init(loaded, SpeciesName);
    assert (set i | 0 <= i < |loaded| :: SpeciesName(loaded[i])) == (set i | 0 <= i < |loaded| :: loaded[i].name);
    forall i | NameRegistry.FirstWithName(loaded, SpeciesName, i)
      ensures db[loaded[i].name] == loaded[i]
    {
      NameRegistry.BuildKeepsFirst(loaded, SpeciesName, i);
    }
  }
}

=== FILE: registry.dfy ===
/** The first-wins name registry shared by `PokemonDB` and `ItemDB`: a dictionary built from a
    loaded list, where the first entry carrying a name is kept and later duplicates skipped. */
module NameRegistry {
  import opened Options

  /** The dictionary the `Init` loop leaves behind after walking `items` front to back. */
  function Build<T>(items: seq<T>, name: T -> string): (m: map<string, T>)
    ensures m.Keys == set i | 0 <= i < |items| :: name(items[i])
    decreases |items|
  {
    if |items| == 0 then map[]
    else
      var init := items[..|items| - 1];
      var last := items[|items| - 1];
      var m := Build(init, name);
      assert forall i :: 0 <= i < |init| ==> init[i] == items[i];
      assert (set i | 0 <= i < |items| :: name(items[i]))
          == (set i | 0 <= i < |init| :: name(init[i])) + {name(last)} by {
        forall i | 0 <= i < |items|
          ensures name(items[i]) in (set i | 0 <= i < |init| :: name(init[i])) + {name(last)}
        {
          if i < |init| { assert name(init[i]) == name(items[i]); }
        }
      }
      if name(last) in m then m else m[name(last) := last]
  }

  /** Index `i` is the first entry of `items` carrying its name. */
  predicate FirstWithName<T>(items: seq<T>, name: T -> string, i: int) {
    0 <= i < |items| && forall j :: 0 <= j < i ==> name(items[j]) != name(items[i])
  }

  /** Every name maps to the FIRST entry that carries it. */
  lemma {:induction false} BuildKeepsFirst<T>(items: seq<T>, name: T -> string, i: int)
    requires FirstWithName(items, name, i)
    ensures name(items[i]) in Build(items, name)
    ensures Build(items, name)[name(items[i])] == items[i]
    decreases |items|
  {
    var init := items[..|items| - 1];
    if i < |items| - 1 {
      assert init[i] == items[i];
      assert forall j :: 0 <= j < i ==> init[j] == items[j];
      BuildKeepsFirst(init, name, i);
    } else {
      assert forall j :: 0 <= j < |init| ==> name(init[j]) != name(items[i]);
    }
  }

  /** Every stored value is the first entry with its name. */
  lemma BuildValuesAreFirsts<T>(items: seq<T>, name: T -> string, k: string)
    requires k in Build(items, name)
    ensures exists i :: (FirstWithName(items, name, i) && name(items[i]) == k
                         && Build(items, name)[k] == items[i])
  {
    var i :| 0 <= i < |items| && name(items[i]) == k;
    var f := FirstIndex(items, name, i);
    BuildKeepsFirst(items, name, f);
  }

  /** The first index whose entry has the same name as entry `i`. */
  function FirstIndex<T>(items: seq<T>, name: T -> string, i: int): (f: int)
    requires 0 <= i < |items|
    ensures FirstWithName(items, name, f) && f <= i && name(items[f]) == name(items[i])
    decreases i
  {
    if exists j :: 0 <= j < i && name(items[j]) == name(items[i]) then
      var j :| 0 <= j < i && name(items[j]) == name(items[i]);
      FirstIndex(items, name, j)
    else i
  }

  /** The `Init` loop: a fresh dictionary (previous contents are discarded), then each entry is
      skipped if its name is already present and stored otherwise. */
  method Init<T>(items: seq<T>, name: T -> string) returns (m: map<string, T>)
    ensures m == Build(items, name)
    ensures m.Keys == set i | 0 <= i < |items| :: name(items[i])
  {
    m := map[];
    var i := 0;
    while i < |items|
      invariant 0 <= i <= |items|
      invariant m == Build(items[..i], name)
    {
      assert items[..i + 1][..i] == items[..i];
      if name(items[i]) in m {
        i := i + 1;
        continue;
      }
      m := m[name(items[i]) := items[i]];
      i := i + 1;
    }
    assert items[..i] == items;
  }

  /** `GetPokemonByName` / `GetItemByName`: `None` (null) for an absent name, the stored value
      for a present one. */
  function Lookup<T>(m: map<string, T>, key: string): (r: Option<T>)
    ensures r.None? <==> key !in m
    ensures r.Some? ==> key in m && r.value == m[key]
  {
    if key !in m then None else Some(m[key])
  }

  /** A lookup after `Init` finds the first loaded entry with that name, and misses exactly the
      names nobody loaded. */
  lemma LookupAfterInit<T>(items: seq<T>, name: T -> string, key: string)
    ensures Lookup(Build(items, name), key).None? <==> forall i :: 0 <= i < |items| ==> name(items[i]) != key
    ensures Lookup(Build(items, name), key).Some? ==>
      exists i :: (FirstWithName(items, name, i) && name(items[i]) == key
                   && Lookup(Build(items, name), key).value == items[i])
  {
    if key in Build(items, name) {
      BuildValuesAreFirsts(items, name, key);
    }
  }
}

=== FILE: scenes.dfy ===
/** Scene neighbourhood loading (`SceneDetails.cs`): the world is split into scenes, each with a
    list of connected scenes, and entering a scene's trigger loads it and its neighbours and
    unloads what was only needed around the previous scene. A scene is named by its game-object
    name; its `IsLoaded` flag is membership in `loaded`. The asynchronous load/unload and the
    saving of entity states are not modelled. */
module SceneDetails {
  import opened Options

  type SceneId = string

  datatype World = World(
    connected: map<SceneId, seq<SceneId>>,   // each scene's `connectedScenes`
    loaded: set<SceneId>,                     // scenes whose `IsLoaded` is true
    current: Option<SceneId>,                 // `GameController.CurrentScene`
    prev: Option<SceneId>)                    // `GameController.PrevScene`
  {
    /** The current scene is a scene of this world. */
    predicate Valid() {
      current.Some? ==> current.value in connected
    }
  }

  // ---------------------------------------------------------------------------
  // LoadScene / UnloadScene

  /** `LoadScene`: sets the flag, and does nothing when it is already set. */
  function LoadScene(loaded: set<SceneId>, s: SceneId): (r: set<SceneId>)
    ensures s in r
    ensures s in loaded ==> r == loaded
    ensures r - {s} == loaded - {s}
  {
    if s in loaded then loaded else loaded + {s}
  }

  /** `UnloadScene`: clears the flag, and does nothing when it is already clear. */
  function UnloadScene(loaded: set<SceneId>, s: SceneId): (r: set<SceneId>)
    ensures s !in r
    ensures s !in loaded ==> r == loaded
    ensures r - {s} == loaded - {s}
  {
    if s in loaded then loaded - {s} else loaded
  }

  /** Both flag operations are idempotent. */
  lemma LoadUnloadIdempotent(loaded: set<SceneId>, s: SceneId)
    ensures LoadScene(LoadScene(loaded, s), s) == LoadScene(loaded, s)
    ensures UnloadScene(UnloadScene(loaded, s), s) == UnloadScene(loaded, s)
  {
  }

  // ---------------------------------------------------------------------------
  // The two loops of OnTriggerEnter2D

  /** The load loop: `LoadScene` on each connected scene in turn. */
  function LoadAll(loaded: set<SceneId>, scenes: seq<SceneId>): (r: set<SceneId>)
    ensures r == loaded + set s | s in scenes
    decreases |scenes|
  {
    if |scenes| == 0 then loaded
    else
      var r := LoadAll(LoadScene(loaded, scenes[0]), scenes[1..]);
      assert (set s | s in scenes) == {scenes[0]} + set s | s in scenes[1..];
      r
  }

  /** The unload loop over the previous scene's neighbours: each one that is neither connected
      to the entered scene nor the entered scene itself is unloaded. */
  function UnloadNeighbours(loaded: set<SceneId>, neighbours: seq<SceneId>,
                            keep: seq<SceneId>, self: SceneId): (r: set<SceneId>)
    ensures r == loaded - set s | s in neighbours && s !in keep && s != self
    decreases |neighbours|
  {
    if |neighbours| == 0 then loaded
    else
      var s0 := neighbours[0];
      var step := if s0 !in keep && s0 != self then UnloadScene(loaded, s0) else loaded;
      var r := UnloadNeighbours(step, neighbours[1..], keep, self);
      assert (set s | s in neighbours && s !in keep && s != self)
          == (if s0 !in keep && s0 != self then {s0} else {})
             + set s | s in neighbours[1..] && s !in keep && s != self;
      r
  }

  // ---------------------------------------------------------------------------
  // OnTriggerEnter2D

  /** The part shared by both versions of the trigger: load the scene, make it current, load
      its neighbours, and unload the previous scene's neighbours that are no longer wanted. */
  function EnterAndTrim(w: World, self: SceneId): (r: World)
    requires w.Valid() && self in w.connected
    ensures r.connected == w.connected && r.current == Some(self) && r.prev == w.current
    ensures r.Valid()
  {
    var conn := w.connected[self];
    var loaded1 := LoadAll(LoadScene(w.loaded, self), conn);
    var loaded2 := if w.current.None? then loaded1
                   else UnloadNeighbours(loaded1, w.connected[w.current.value], conn, self);
    World(w.connected, loaded2, Some(self), w.current)
  }

  /** `OnTriggerEnter2D`: only the player's collider does anything. The entered scene and all
      its neighbours end up loaded; a scene is unloaded only if it is the previous scene or one
      of its neighbours, and never the entered scene or one of its neighbours; without a previous
      scene the trigger only loads. The previous scene itself is unloaded unless it is connected
      to the entered scene or is the entered scene. */
  function OnTriggerEnter(w: World, self: SceneId, tag: string): (r: World)
    requires w.Valid() && self in w.connected
    ensures tag != "Player" ==> r == w
    ensures tag == "Player" ==> && r.current == Some(self) && r.prev == w.current
                                && r.connected == w.connected && r.Valid()
    ensures tag == "Player" ==> self in r.loaded && forall s :: s in w.connected[self] ==> s in r.loaded
    ensures tag == "Player" ==> forall s :: s in w.loaded && s !in r.loaded ==>
      && w.current.Some?
      && (s == w.current.value || s in w.connected[w.current.value])
      && s != self && s !in w.connected[self]
    ensures tag == "Player" ==> forall s :: s in r.loaded ==> s in w.loaded || s == self || s in w.connected[self]
    ensures tag == "Player" && w.current.None? ==> r.loaded == w.loaded + {self} + set s | s in w.connected[self]
    ensures tag == "Player" && w.current.Some? ==>
      var p := w.current.value;
      && (forall s :: s in w.connected[p] && s !in w.connected[self] && s != self ==> s !in r.loaded)
      && (p !in w.connected[self] && p != self ==> p !in r.loaded)
  {
    if tag != "Player" then w
    else
      var r := EnterAndTrim(w, self);
      if w.current.Some? && w.current.value !in w.connected[self] && w.current.value != self then
        r.(loaded := UnloadScene(r.loaded, w.current.value))
      else r
  }

  /** The trigger exactly as the source writes it: the previous scene is unloaded whenever it is
      not connected to the entered scene, even when it IS the entered scene. */
  function OnTriggerEnterAsWritten(w: World, self: SceneId, tag: string): (r: World)
    requires w.Valid() && self in w.connected
    ensures tag != "Player" ==> r == w
    ensures tag == "Player" && w.current.Some? && w.current.value !in w.connected[self] ==>
      w.current.value !in r.loaded
  {
    if tag != "Player" then w
    else
      var r := EnterAndTrim(w, self);
      if w.current.Some? && w.current.value !in w.connected[self] then
        r.(loaded := UnloadScene(r.loaded, w.current.value))
      else r
  }

  /** The two versions agree on every entry except re-entering the current scene. */
  lemma AsWrittenAgreesExceptReentry(w: World, self: SceneId, tag: string)
    requires w.Valid() && self in w.connected
    requires w.current != Some(self)
    ensures OnTriggerEnterAsWritten(w, self, tag) == OnTriggerEnter(w, self, tag)
  {
  }

  /** Re-entering the scene the player is already in unloads it as written: in a world of two
      connected scenes A and B with A current and loaded, entering A leaves A unloaded while
      the player stands in it. */
  lemma ReentryUnloadsCurrentScene()
    ensures var w := World(map["A" := ["B"], "B" := ["A"]], {"A", "B"}, Some("A"), None);
      && w.Valid()
      && var r := OnTriggerEnterAsWritten(w, "A", "Player");
      && r.current == Some("A")
      && "A" !in r.loaded
      && "A" in OnTriggerEnter(w, "A", "Player").loaded
  {
    var w := World(map["A" := ["B"], "B" := ["A"]], {"A", "B"}, Some("A"), None);
    assert "A" !in w.connected["A"];
  }

  /** With the guard, the entered scene is always loaded afterwards. */
  lemma EnteredSceneStaysLoaded(w: World, self: SceneId)
    requires w.Valid() && self in w.connected
    ensures self in OnTriggerEnter(w, self, "Player").loaded
  {
  }
}

=== FILE: species.dfy ===
/** The record half of `PokemonBase.cs`: a species is immutable data shared by every creature
    of that kind. */
module Species {
  import opened PokemonBase
  import opened Moves

  datatype LearnableMove = LearnableMove(base: MoveBase, level: int)

  datatype Evolution = Evolution(evolvesInto: Species, requiredLevel: int)

  datatype Species = Species(
    name: string,
    type1: PokemonType,
    type2: PokemonType,
    maxHp: int,
    attack: int,
    defense: int,
    spAttack: int,
    spDefense: int,
    speed: int,
    expYield: int,
    growthRate: GrowthRate,
    catchRate: int,
    learnableMoves: seq<LearnableMove>,
    learnableByItems: seq<MoveBase>,
    evolutions: seq<Evolution>)
  {
    /** `GetExpForLevel` on this species' growth rate. */
    function ExpForLevel(level: int): int {
      GetExpForLevel(growthRate, level)
    }

    /** The base value behind one calculated stat. */
    function BaseStat(stat: Stat): int
      requires stat.IsCalculated()
    {
      match stat
      case Attack => attack
      case Defense => defense
      case SpAttack => spAttack
      case SpDefense => spDefense
      case Speed => speed
    }
  }
}

=== FILE: status_conditions.dfy ===
/** The behaviour attached to each condition of `ConditionsDB` (its `OnStart`, `OnBeforeMove`
    and `OnAfterTurn` hooks) and the creature operations that invoke them (`SetStatus`,
    `SetVolatileStatus`, `CureStatus`, `CureVolatileStatus`, `OnBeforeMove`, `OnAfterTurn`).

    A hook is chosen by the condition's id and acts on the creature, whichever slot the
    condition sits in: confusion set through the persistent slot still counts down and clears
    the volatile fields, exactly as the shared hook objects of the source do.

    Each `UnityEngine.Random.Range` call is a parameter. A hook that tests for "1 in 4" reads
    `oneIn4` (drawn from [1, 5)), the confusion coin reads `oneIn2` (drawn from [1, 3)). */
module StatusConditions {
  import opened Options
  import opened Mathf
  import opened ConditionsDB
  import opened Pokemon

  /** The draws one `OnBeforeMove` hook may consume. */
  datatype CheckDraw = CheckDraw(oneIn4: int, oneIn2: int) {
    predicate Valid() {
      1 <= oneIn4 < 5 && 1 <= oneIn2 < 3
    }
  }

  /** The draws one `OnStart` hook may consume: sleep turns in [1, 4), confusion turns in [1, 5). */
  datatype StartDraw = StartDraw(sleepTurns: int, confusedTurns: int) {
    predicate Valid() {
      1 <= sleepTurns < 4 && 1 <= confusedTurns < 5
    }
  }

  /** Everything but the status bookkeeping, HP and the message queue. */
  predicate SameOtherwise(a: Creature, b: Creature) {
    a.(hp := b.hp, status := b.status, statusTime := b.statusTime,
       volatileStatus := b.volatileStatus, volatileStatusTime := b.volatileStatusTime,
       statusChanges := b.statusChanges) == b
  }

  /** HP lies in [0, MaxHp]. */
  predicate HpInRange(c: Creature) {
    0 <= c.hp <= c.maxHp
  }

  // ---------------------------------------------------------------------------
  // OnStart

  /** The `OnStart` hook: sleep draws its turn count into StatusTime, confusion into
      VolatileStatusTime; the other conditions have none. */
  function OnStart(id: ConditionId, c: Creature, d: StartDraw): (r: Creature)
    ensures id == Slp ==> r == c.(statusTime := d.sleepTurns)
    ensures id == Confusion ==> r == c.(volatileStatusTime := d.confusedTurns)
    ensures id != Slp && id != Confusion ==> r == c
  {
    match id
    case Slp => c.(statusTime := d.sleepTurns)
    case Confusion => c.(volatileStatusTime := d.confusedTurns)
    case _ => c
  }

  /** `SetStatus`: ignored while a persistent status is present; otherwise the condition is
      stored, its start hook runs and its start message is queued. */
  function SetStatus(c: Creature, id: ConditionId, d: StartDraw): (r: Creature)
    ensures c.status.Some? ==> r == c
    ensures c.status.None? ==> && r.status == Some(id)
                               && r.statusChanges == c.statusChanges + [StatusStarted(c.Name(), id)]
                               && r.hp == c.hp && r.volatileStatus == c.volatileStatus
                               && (id == Slp ==> r.statusTime == d.sleepTurns)
                               && (id == Confusion ==> r.volatileStatusTime == d.confusedTurns)
    ensures SameOtherwise(r, c)
  {
    if c.status.Some? then c
    else
      var c1 := OnStart(id, c.(status := Some(id)), d);
      c1.(statusChanges := c1.statusChanges + [StatusStarted(c.Name(), id)])
  }

  /** `SetVolatileStatus`: as `SetStatus`, on the volatile slot. */
  function SetVolatileStatus(c: Creature, id: ConditionId, d: StartDraw): (r: Creature)
    ensures c.volatileStatus.Some? ==> r == c
    ensures c.volatileStatus.None? ==> && r.volatileStatus == Some(id)
                                       && r.statusChanges == c.statusChanges + [StatusStarted(c.Name(), id)]
                                       && r.hp == c.hp && r.status == c.status
                                       && (id == Slp ==> r.statusTime == d.sleepTurns)
                                       && (id == Confusion ==> r.volatileStatusTime == d.confusedTurns)
    ensures SameOtherwise(r, c)
  {
    if c.volatileStatus.Some? then c
    else
      var c1 := OnStart(id, c.(volatileStatus := Some(id)), d);
      c1.(statusChanges := c1.statusChanges + [StatusStarted(c.Name(), id)])
  }

  /** `CureStatus`: the persistent slot is emptied; its timer is left as it was. */
  function CureStatus(c: Creature): (r: Creature)
    ensures r.status.None?
    ensures r.(status := c.status) == c
  {
    c.(status := None)
  }

  /** `CureVolatileStatus`: the volatile slot is emptied. */
  function CureVolatileStatus(c: Creature): (r: Creature)
    ensures r.volatileStatus.None?
    ensures r.(volatileStatus := c.volatileStatus) == c
  {
    c.(volatileStatus := None)
  }

  // ---------------------------------------------------------------------------
  // OnBeforeMove

  /** The `OnBeforeMove` hook of condition `id`: the creature after the hook and whether it may
      still act. Poison and burn have no such hook and allow the move. */
  function BeforeMoveHook(id: ConditionId, c: Creature, d: CheckDraw): (r: (Creature, bool))
    ensures SameOtherwise(r.0, c)
    ensures id == Psn || id == Brn ==> r == (c, true)
    ensures id == Slp ==> (r.1 <==> c.statusTime <= 0)
    ensures id == Slp && c.statusTime <= 0 ==> r.0.status.None? && r.0.statusTime == c.statusTime
    ensures id == Slp && c.statusTime > 0 ==> r.0.status == c.status && r.0.statusTime == c.statusTime - 1
    ensures id == Par ==> (r.1 <==> d.oneIn4 != 1) && r.0.status == c.status && r.0.hp == c.hp
    ensures id == Frz ==> (r.1 <==> d.oneIn4 == 1) && (r.1 ==> r.0.status.None?)
    ensures id == Frz && !r.1 ==> r.0.status == c.status
    ensures id == Confusion && c.volatileStatusTime <= 0 ==> r.1 && r.0.volatileStatus.None?
    ensures id == Confusion && c.volatileStatusTime > 0 ==>
      && r.0.volatileStatusTime == c.volatileStatusTime - 1
      && r.0.volatileStatus == c.volatileStatus
      && (r.1 <==> d.oneIn2 == 1)
      && (!r.1 ==> r.0.hp == DecreaseHP(c, CsDiv(c.maxHp, 8)).hp)
    ensures id != Confusion ==> r.0.volatileStatus == c.volatileStatus && r.0.hp == c.hp
    ensures id != Slp ==> r.0.statusTime == c.statusTime
    ensures id != Slp && id != Frz ==> r.0.status == c.status
    ensures HpInRange(c) ==> HpInRange(r.0)
    ensures |r.0.statusChanges| >= |c.statusChanges|
      && r.0.statusChanges[..|c.statusChanges|] == c.statusChanges
  {
    var who := c.Name();
    match id
    case Psn => (c, true)
    case Brn => (c, true)
    case Slp =>
      if c.statusTime <= 0 then
        var c1 := CureStatus(c);
        (c1.(statusChanges := c1.statusChanges + [WokeUp(who)]), true)
      else
        (c.(statusTime := c.statusTime - 1, statusChanges := c.statusChanges + [FastAsleep(who)]), false)
    case Par =>
      if d.oneIn4 == 1 then (c.(statusChanges := c.statusChanges + [ParalyzedCantMove(who)]), false)
      else (c, true)
    case Frz =>
      if d.oneIn4 == 1 then
        var c1 := CureStatus(c);
        (c1.(statusChanges := c1.statusChanges + [ThawedOut(who)]), true)
      else
        (c.(statusChanges := c.statusChanges + [FrozenSolid(who)]), false)
    case Confusion =>
      if c.volatileStatusTime <= 0 then
        var c1 := CureVolatileStatus(c);
        (c1.(statusChanges := c1.statusChanges + [SnappedOut(who)]), true)
      else
        var c1 := c.(volatileStatusTime := c.volatileStatusTime - 1,
                     statusChanges := c.statusChanges + [IsConfused(who)]);
        if d.oneIn2 == 1 then (c1, true)
        else
          var c2 := DecreaseHP(c1, CsDiv(c1.maxHp, 8));
          (c2.(statusChanges := c2.statusChanges + [HurtItself]), false)
  }

  /** `OnBeforeMove`: the persistent slot's hook runs first, then the hook of whatever the
      volatile slot holds afterwards; the move goes ahead only if neither hook vetoed it. */
  function OnBeforeMove(c: Creature, statusDraw: CheckDraw, volatileDraw: CheckDraw): (r: (Creature, bool))
    ensures SameOtherwise(r.0, c)
    ensures HpInRange(c) ==> HpInRange(r.0)
    ensures c.status.None? && c.volatileStatus.None? ==> r == (c, true)
    ensures var first := if c.status.Some? then BeforeMoveHook(c.status.value, c, statusDraw) else (c, true);
      && (first.0.volatileStatus.None? ==> r == first)
      && (first.0.volatileStatus.Some? ==>
            var second := BeforeMoveHook(first.0.volatileStatus.value, first.0, volatileDraw);
            r == (second.0, first.1 && second.1))
  {
    var first := if c.status.Some? then BeforeMoveHook(c.status.value, c, statusDraw) else (c, true);
    if first.0.volatileStatus.None? then first
    else
      var second := BeforeMoveHook(first.0.volatileStatus.value, first.0, volatileDraw);
      (second.0, first.1 && second.1)
  }

  // ---------------------------------------------------------------------------
  // OnAfterTurn

  /** The `OnAfterTurn` hook: poison costs MaxHp / 8, burn MaxHp / 16, each with its message;
      the other conditions have none. */
  function AfterTurnHook(id: ConditionId, c: Creature): (r: Creature)
    ensures id == Psn ==> (r.hp == DecreaseHP(c, CsDiv(c.maxHp, 8)).hp
                           && r.statusChanges == c.statusChanges + [PoisonTick(c.Name())])
    ensures id == Brn ==> (r.hp == DecreaseHP(c, CsDiv(c.maxHp, 16)).hp
                           && r.statusChanges == c.statusChanges + [BurnTick(c.Name())])
    ensures id != Psn && id != Brn ==> r == c
    ensures r.(hp := c.hp, statusChanges := c.statusChanges) == c
    ensures HpInRange(c) ==> HpInRange(r) && r.hp <= c.hp
  {
    match id
    case Psn =>
      var c1 := DecreaseHP(c, CsDiv(c.maxHp, 8));
      c1.(statusChanges := c1.statusChanges + [PoisonTick(c.Name())])
    case Brn =>
      var c1 := DecreaseHP(c, CsDiv(c.maxHp, 16));
      c1.(statusChanges := c1.statusChanges + [BurnTick(c.Name())])
    case _ => c
  }

  /** `OnAfterTurn`: the persistent slot's hook, then the volatile slot's. Only HP and the
      message queue can change, and HP never rises. */
  function OnAfterTurn(c: Creature): (r: Creature)
    ensures r.(hp := c.hp, statusChanges := c.statusChanges) == c
    ensures HpInRange(c) ==> HpInRange(r) && r.hp <= c.hp
    ensures c.status.None? && c.volatileStatus.None? ==> r == c
  {
    var c1 := if c.status.Some? then AfterTurnHook(c.status.value, c) else c;
    if c1.volatileStatus.Some? then AfterTurnHook(c1.volatileStatus.value, c1) else c1
  }

  // ---------------------------------------------------------------------------
  // Multi-turn behaviour

  /** `n` consecutive `OnBeforeMove` checks with the given draws: the creature afterwards and
      the answers in order. */
  function BeforeMoves(c: Creature, draws: seq<(CheckDraw, CheckDraw)>): (r: (Creature, seq<bool>))
    ensures |r.1| == |draws|
    decreases |draws|
  {
    if |draws| == 0 then (c, [])
    else
      var step := OnBeforeMove(c, draws[0].0, draws[0].1);
      var rest := BeforeMoves(step.0, draws[1..]);
      (rest.0, [step.1] + rest.1)
  }

  /** A sleeper with `t` turns on its timer (and nothing in the volatile slot) is refused its
      first `t` moves and wakes on move `t + 1`, whatever the draws. */
  lemma {:induction false} SleepLastsItsTimer(c: Creature, draws: seq<(CheckDraw, CheckDraw)>)
    requires c.status == Some(Slp) && c.volatileStatus.None?
    requires c.statusTime >= 0 && |draws| == c.statusTime + 1
    ensures var r := BeforeMoves(c, draws);
      && r.0.status.None?
      && (forall i :: 0 <= i < c.statusTime ==> !r.1[i])
      && r.1[c.statusTime]
    decreases |draws|
  {
    var step := OnBeforeMove(c, draws[0].0, draws[0].1);
    var rest := BeforeMoves(step.0, draws[1..]);
    if c.statusTime == 0 {
      assert step.0.status.None? && step.1;
      assert rest == (step.0, []);
    } else {
      assert !step.1 && step.0.status == Some(Slp) && step.0.statusTime == c.statusTime - 1;
      SleepLastsItsTimer(step.0, draws[1..]);
      assert BeforeMoves(c, draws).1 == [false] + rest.1;
    }
  }

  /** Putting a creature to sleep keeps it from moving for one to three turns: with the start
      draw `d` it is refused exactly `d.sleepTurns` moves and wakes on the next one. */
  lemma SleepAfterSetStatus(c: Creature, d: StartDraw, draws: seq<(CheckDraw, CheckDraw)>)
    requires c.status.None? && c.volatileStatus.None? && d.Valid()
    requires |draws| == d.sleepTurns + 1
    ensures var r := BeforeMoves(SetStatus(c, Slp, d), draws);
      && 1 <= d.sleepTurns <= 3
      && r.0.status.None?
      && (forall i :: 0 <= i < d.sleepTurns ==> !r.1[i])
      && r.1[d.sleepTurns]
  {
    SleepLastsItsTimer(SetStatus(c, Slp, d), draws);
  }

  /** A creature confused for `t` turns (with nothing in the persistent slot) snaps out of it on
      check `t + 1` and is then allowed to move; before that each move goes ahead iff its coin
      shows 1. */
  lemma {:induction false} ConfusionLastsItsTimer(c: Creature, draws: seq<(CheckDraw, CheckDraw)>)
    requires c.volatileStatus == Some(Confusion) && c.status.None?
    requires c.volatileStatusTime >= 0 && |draws| == c.volatileStatusTime + 1
    ensures var r := BeforeMoves(c, draws);
      && r.0.volatileStatus.None?
      && (forall i :: 0 <= i < c.volatileStatusTime ==> (r.1[i] <==> draws[i].1.oneIn2 == 1))
      && r.1[c.volatileStatusTime]
    decreases |draws|
  {
    var step := OnBeforeMove(c, draws[0].0, draws[0].1);
    var rest := BeforeMoves(step.0, draws[1..]);
    if c.volatileStatusTime == 0 {
      assert step.0.volatileStatus.None? && step.1;
      assert rest == (step.0, []);
    } else {
      assert step.0.volatileStatus == Some(Confusion) && step.0.status.None?;
      assert step.0.volatileStatusTime == c.volatileStatusTime - 1;
      assert step.1 <==> draws[0].1.oneIn2 == 1;
      ConfusionLastsItsTimer(step.0, draws[1..]);
      assert BeforeMoves(c, draws).1 == [step.1] + rest.1;
      forall i | 1 <= i < c.volatileStatusTime
        ensures BeforeMoves(c, draws).1[i] <==> draws[i].1.oneIn2 == 1
      {
        assert draws[1..][i - 1] == draws[i];
      }
    }
  }

  /** Paralysis never wears off by itself: any number of checks leave it in place and refuse
      exactly the moves whose draw is 1. */
  lemma {:induction false} ParalysisPersists(c: Creature, draws: seq<(CheckDraw, CheckDraw)>)
    requires c.status == Some(Par) && c.volatileStatus.None?
    ensures var r := BeforeMoves(c, draws);
      && r.0.status == Some(Par)
      && r.0.hp == c.hp
      && forall i :: 0 <= i < |draws| ==> (r.1[i] <==> draws[i].0.oneIn4 != 1)
    decreases |draws|
  {
    if |draws| > 0 {
      var step := OnBeforeMove(c, draws[0].0, draws[0].1);
      ParalysisPersists(step.0, draws[1..]);
      forall i | 1 <= i < |draws|
        ensures BeforeMoves(c, draws).1[i] <==> draws[i].0.oneIn4 != 1
      {
        assert draws[1..][i - 1] == draws[i];
      }
    }
  }
}
